=== FILE: README.md ===
# Valore local data layer in Dafny

Valore is a hotel-review app. Its offline mode keeps everything in one
on-device SQLite database: profiles, hotels and their tags, reviews with
photos, saved lists and follows. This project models that local layer:

- the schema `initDatabase` creates, with its primary keys, `UNIQUE` columns
  and rating `CHECK`s, as the predicate `Schema.Valid`;
- `generateId`;
- every query and write of the local API;
- the React Query mutations built on them: save, remove and toggle-save of
  a hotel, review creation with photos, and follow toggling;
- the local sign-up, sign-in and sign-out;
- the display formatters;
- the conversion from a Google price level to a price tier.

The database is an immutable value (`Schema.Db`). Each table is a sequence
of rows in insertion (rowid) order. That is the model's order, not a promise
about the order the engine returns rows in. A write that can raise returns an
`Outcome`, which holds the database after the write and either the result or
the error. A single failed statement leaves the database unchanged. A
workflow of several statements keeps the writes made before its failure,
because the source uses no transactions. Fresh ids, the random draws of
`generateId` and the clock are parameters.

Text is held in two ways. Stored values and most formatter inputs are Dafny
strings, that is sequences of Unicode characters. The storage engine's
collation and `LIKE` work on characters too. The formatters that count or
index text (`getInitials`, `stringToColor`, `truncateText`) work on JavaScript
strings, modelled as sequences of UTF-16 code units (`Utf16.JsString`).
There, a character above U+FFFF is two units, and it can be hashed unit by
unit or cut in half. `Utf16.Encode` gives the units of a Dafny string, and
`Utf16.Decode` reads them back.

Selected behaviours the proofs make explicit:

- `useToggleSave` decides "saved" over all of the user's lists, but removes
  the hotel only from the named or the default list. A hotel saved elsewhere
  stays saved while the toggle reports it unsaved
  (`SaveHooks.ToggleKeepsOtherLists`).
- The schema does not stop two default lists for one user
  (`Schema.DefaultNotEnforced`). Every workflow keeps "at most one default
  list" once it holds.
- `useIsFollowing` is disabled for one's own profile, but the toggle itself
  does not check this (`FollowHooks.SelfToggleFollowsSelf`).
- `getHotels` accepts `tags` and `minRating` filters and ignores them
  (`Hotels.IgnoredFilters`).

## Model

| member | source | states |
|---|---|---|
| Schema.Valid | valore-app/src/lib/database.ts:15-117 | the declared constraints: primary keys distinct, non-null UNIQUE columns distinct, the (user, hotel) review pair unique, ratings within 1..5 when present |
| Schema.PairTablesAreSets | valore-app/src/lib/database.ts:52-58 | under the composite primary keys, tag links, list items and follows each hold as many rows as distinct pairs |
| Schema.ReviewConstraints | valore-app/src/lib/database.ts:61-77 | in a valid database every stored review has its ratings in 1..5, and one user has at most one review of a hotel |
| Schema.UniqueColumns | valore-app/src/lib/database.ts:17-49 | a non-null username, a non-null place id or a tag name identifies its row |
| Schema.NullUsernamesAllowed | valore-app/src/lib/database.ts:19 | any number of profiles may have a NULL username |
| Schema.DefaultNotEnforced | valore-app/src/lib/database.ts:89-96 | a valid database can hold two default lists for the same user |
| Schema.InitDatabase | valore-app/src/lib/database.ts:11-120 | afterwards the tables present are the old ones plus all nine |
| Schema.InitDatabaseKeepsRows | valore-app/src/lib/database.ts:11-120 | `CREATE TABLE IF NOT EXISTS` keeps every existing row and keeps the database valid |
| Schema.InitDatabaseIdempotent | valore-app/src/lib/database.ts:11-120 | running the initialisation twice is the same as once |
| Uuid.GenerateId | valore-app/src/lib/database.ts:123-129 | from 31 random nibbles, a 36-character lower-case v4 UUID: hyphens at 8, 13, 18 and 23, '4' at 14, and a variant digit in 8..b at 19 |
| Uuid.ParseGenerateId | valore-app/src/lib/database.ts:123-129 | the random bits can be read back from the id (the `y` draw contributes its low two bits) |
| Uuid.GenerateIdInjective | valore-app/src/lib/database.ts:123-129 | two draws give the same id exactly when they agree on the 122 random bits |
| SqlLike.ContainsAsLike | valore-app/src/lib/localApi.ts:137-141 | `LIKE '%q%'` with a wildcard-free q holds exactly when q occurs in the text up to ASCII case |
| Profiles.GetProfile | valore-app/src/lib/localApi.ts:22-29 | None exactly when no profile has the id, otherwise a stored profile with that id |
| Profiles.GetProfileFinds | valore-app/src/lib/localApi.ts:22-29 | on a valid database the profile found is the stored row with that id |
| Profiles.GetProfileWithStats | valore-app/src/lib/localApi.ts:31-65 | None exactly when the profile is missing; the four counts are the numbers of the user's reviews, followers, followees and items in the user's lists |
| Profiles.FollowerCountIsDistinctFollowers | valore-app/src/lib/localApi.ts:31-65 | on a valid database the follower count is the number of distinct followers |
| Profiles.UpdateProfile | valore-app/src/lib/localApi.ts:67-104 | an empty patch writes nothing and returns the current row; it fails exactly when the new username clashes with another row; only the row with the id changes, to the patched row; it returns the row read back |
| Profiles.UpdateProfileValid | valore-app/src/lib/localApi.ts:67-104 | an update keeps the database valid |
| Profiles.UpdateProfileReturnsPatched | valore-app/src/lib/localApi.ts:67-104 | a successful update returns the stored row with the present fields overwritten |
| Common.OrNull | valore-app/src/lib/localApi.ts:106-121 | `x \|\| null`: an empty string becomes null and any other value is kept |
| Profiles.CreateProfile | valore-app/src/lib/localApi.ts:106-121 | it fails exactly when the id or the non-null username is taken; otherwise the new row is appended with empty strings turned to null, and it is what `GetProfile` then finds; validity is kept |
| Hotels.Average | valore-app/src/lib/localApi.ts:128-131 | `AVG` is NULL on no rows, otherwise the value whose product with the count is the rating sum |
| Hotels.AverageInRange | valore-app/src/lib/localApi.ts:128-131 | an average of ratings in 1..5 lies in 1..5 |
| Hotels.AvgRatingInRange | valore-app/src/lib/localApi.ts:128-131 | on a valid database a hotel's average rating lies in 1..5 |
| Hotels.Enrich | valore-app/src/lib/localApi.ts:128-172 | a listed hotel carries exactly its linked tags, its review count, the average of its reviews' overall ratings (null exactly when the count is 0) and `is_saved` false |
| Hotels.SelectedHotels | valore-app/src/lib/localApi.ts:128-155 | exactly the hotels matching the query, the bounds and the price tiers, ordered by name, as a permutation of the filtered table |
| Hotels.GetHotels | valore-app/src/lib/localApi.ts:125-175 | the selected hotels in name order, each enriched |
| Hotels.IgnoredFilters | valore-app/src/lib/localApi.ts:125-175 | the tags and minimum-rating filters do not change the listing |
| Hotels.NoFiltersListsAll | valore-app/src/lib/localApi.ts:125-175 | without filters every hotel is listed once |
| Hotels.QueryIsContainment | valore-app/src/lib/localApi.ts:137-141 | a wildcard-free query matches when it occurs in the name, the city or the country, up to ASCII case |
| Hotels.GetHotel | valore-app/src/lib/localApi.ts:177-202 | None exactly when no hotel has the id; otherwise that hotel, enriched |
| Hotels.GetHotelFinds | valore-app/src/lib/localApi.ts:177-202 | on a valid database the hotel found is the stored row with that id |
| Hotels.GetAllTags | valore-app/src/lib/localApi.ts:513-516 | every tag once, ordered by name |
| Reviews.Detail | valore-app/src/lib/localApi.ts:206-238 | a review with its author and hotel summaries (null exactly when the row is missing) and its photos |
| Reviews.DetailNamesAuthor | valore-app/src/lib/localApi.ts:206-238 | on a valid database the author summary is the summary of the stored author |
| Reviews.NewestReviews | valore-app/src/lib/localApi.ts:206-272 | exactly the selected reviews, newest first, as a permutation of the filtered table |
| Reviews.GetHotelReviews | valore-app/src/lib/localApi.ts:206-238 | the hotel's reviews, newest first, each with its details |
| Reviews.GetUserReviews | valore-app/src/lib/localApi.ts:240-272 | the user's reviews, newest first, each with its details |
| Reviews.ListingsAgree | valore-app/src/lib/localApi.ts:206-272 | a stored review appears both in its author's listing and in its hotel's listing |
| Reviews.FailedCheck | valore-app/src/lib/database.ts:65-68 | no failing column exactly when all four ratings pass their CHECK |
| Reviews.CreateReview | valore-app/src/lib/localApi.ts:274-301 | it fails exactly when a rating check fails, the id is taken or the user already reviewed the hotel, and then writes nothing; otherwise it appends the new row, which a lookup by id then finds; validity is kept |
| Reviews.AddReviewPhotos | valore-app/src/lib/localApi.ts:303-321 | it succeeds exactly when the ids are fresh and distinct, and then appends one row per URL in order; on a clash the rows before it stay and the clashing id is already stored |
| Reviews.AddReviewPhotosValid | valore-app/src/lib/localApi.ts:303-321 | adding photos keeps every table constraint |
| Lists.UserListRows | valore-app/src/lib/localApi.ts:325-336 | exactly the user's lists, the default first and then newest first |
| Lists.GetUserLists | valore-app/src/lib/localApi.ts:325-336 | the user's lists in that order, each with its item count |
| Lists.DefaultListFirst | valore-app/src/lib/localApi.ts:325-336 | a user with a default list sees a default list first |
| Lists.FindList | valore-app/src/lib/localApi.ts:338-361 | None exactly when no list has the id |
| Lists.HotelsForItems | valore-app/src/lib/localApi.ts:351-358 | each item whose hotel exists yields that hotel, enriched and marked saved; nothing else is yielded |
| Lists.HotelsForItemsAppend | valore-app/src/lib/localApi.ts:351-358 | the loop runs in item order: the hotels of two runs of items are those of the first followed by those of the second |
| Lists.HotelsForItem | valore-app/src/lib/localApi.ts:353-356 | one item yields exactly its enriched hotel marked saved, or nothing when the hotel is missing |
| Lists.GetListWithHotels | valore-app/src/lib/localApi.ts:338-361 | None exactly when the list is missing; otherwise the list with exactly the hotels that are stored in it, each as `getHotel` gives it (tags, review count, average rating) and marked saved |
| Lists.ListHotelsCovered | valore-app/src/lib/localApi.ts:338-361 | the hotels fetched for a list's items are the stored hotels of its pairs, each enriched as `getHotel` gives it and marked saved, and every such hotel is fetched |
| Lists.InsertList | valore-app/src/lib/localApi.ts:363-391 | the `INSERT INTO lists` fails exactly on a taken id; otherwise it appends the row |
| Lists.GetOrCreateDefaultList | valore-app/src/lib/localApi.ts:363-379 | an existing default list is returned with no write; otherwise a list named "Saved" is created and fails only on a taken id; the result is a default list of the user; validity and at most one default list per user are kept |
| Lists.GetOrCreateDefaultListIdempotent | valore-app/src/lib/localApi.ts:363-379 | a second call returns the same list and writes nothing |
| Lists.CreateList | valore-app/src/lib/localApi.ts:381-391 | a non-default list is appended, failing only on a taken id |
| Lists.SaveHotelToList | valore-app/src/lib/localApi.ts:393-399 | the (list, hotel) pairs gain the pair; an existing pair is ignored |
| Lists.RemoveHotelFromList | valore-app/src/lib/localApi.ts:401-407 | the pairs lose the pair and nothing else changes |
| Lists.SaveHotelToListIdempotent | valore-app/src/lib/localApi.ts:393-399 | saving twice is saving once |
| Lists.RemoveHotelFromListIdempotent | valore-app/src/lib/localApi.ts:401-407 | removing twice is removing once |
| Lists.SaveThenRemove | valore-app/src/lib/localApi.ts:393-407 | removing a newly saved pair restores the database |
| Lists.IsHotelSaved | valore-app/src/lib/localApi.ts:409-418 | true exactly when some item of one of the user's lists holds the hotel |
| Lists.SaveMakesSaved | valore-app/src/lib/localApi.ts:393-418 | after saving into one of the user's lists the hotel is saved for the user |
| FollowGraph.FollowUser | valore-app/src/lib/localApi.ts:422-428 | the follow pairs gain the pair; an existing pair is ignored; validity is kept |
| FollowGraph.UnfollowUser | valore-app/src/lib/localApi.ts:430-436 | the follow pairs lose the pair and nothing else changes |
| FollowGraph.IsFollowing | valore-app/src/lib/localApi.ts:458-465 | true exactly when the pair is stored |
| FollowGraph.GetFollowers | valore-app/src/lib/localApi.ts:438-446 | exactly the stored profiles that follow the user, each once on a valid database |
| FollowGraph.GetFollowing | valore-app/src/lib/localApi.ts:448-456 | exactly the stored profiles the user follows, each once on a valid database |
| FollowGraph.FollowersMirrorFollowing | valore-app/src/lib/localApi.ts:438-456 | a is among b's followers exactly when b is among the profiles a follows |
| FollowGraph.FollowAndUnfollowAreSeen | valore-app/src/lib/localApi.ts:422-465 | after a follow the status query is true, after an unfollow false |
| FollowGraph.FollowThenUnfollow | valore-app/src/lib/localApi.ts:422-436 | unfollowing a new follow restores the database |
| FollowGraph.UnfollowIdempotent | valore-app/src/lib/localApi.ts:430-436 | unfollowing twice is unfollowing once |
| FollowGraph.OtherPairsUnchanged | valore-app/src/lib/localApi.ts:422-436 | a follow or an unfollow touches no other pair |
| Feed.GetFeed | valore-app/src/lib/localApi.ts:469-509 | as many items as there are reviews by followed users, up to 50; the i-th item is the i-th newest such review with its details |
| Feed.FeedIsPrefix | valore-app/src/lib/localApi.ts:469-509 | the feed's reviews are the newest candidates, in order |
| Feed.FeedEntries | valore-app/src/lib/localApi.ts:469-509 | every item is a stored review by a followed user, with its details and its author as the friend, newest first |
| Feed.FeedKeepsNewest | valore-app/src/lib/localApi.ts:469-509 | a followed user's review left out of the feed is no newer than any item shown |
| Feed.FeedCompleteUnderLimit | valore-app/src/lib/localApi.ts:469-509 | with at most 50 candidates every review by a followed user is shown |
| Feed.NoFollowsNoFeed | valore-app/src/lib/localApi.ts:469-509 | a user who follows nobody has an empty feed |
| SaveHooks.SaveHotel | valore-app/src/hooks/useSaveHotel.ts:85-98 | signed out it fails and writes nothing; a named list gets the pair; otherwise the default list, created when missing, gets it; only the lists and list items change; validity and at most one default list are kept |
| SaveHooks.SaveToNamedListCreatesNoList | valore-app/src/hooks/useSaveHotel.ts:85-98 | saving into a named list writes only the pair |
| SaveHooks.SaveLeavesHotelSaved | valore-app/src/hooks/useSaveHotel.ts:85-98 | a successful save into the user's own or default list leaves the hotel saved for the user |
| SaveHooks.RemoveFromList | valore-app/src/hooks/useSaveHotel.ts:116-119 | the pair is removed, nothing else changes, and the pair is returned |
| SaveHooks.ToggleSave | valore-app/src/hooks/useSaveHotel.ts:138-153 | signed out it fails and writes nothing; otherwise it reports the opposite of the saved status and adds or removes the pair on the named or default list; an existing default list leaves the lists alone, otherwise exactly one "Saved" default list is appended; only the lists and list items change |
| SaveHooks.ToggleUnsavedSaves | valore-app/src/hooks/useSaveHotel.ts:138-153 | toggling an unsaved hotel into the user's own or default list saves it |
| SaveHooks.ToggleKeepsOtherLists | valore-app/src/hooks/useSaveHotel.ts:138-153 | a hotel saved in another of the user's lists stays saved although the toggle reports it unsaved |
| SaveHooks.ToggleSavedUnsaves | valore-app/src/hooks/useSaveHotel.ts:138-153 | when all the user's items for the hotel are in the list acted on, the toggle unsaves it |
| ReviewHooks.ReviewColumns | valore-app/src/hooks/useReviews.ts:84-95 | the author is the signed-in user and every omitted field is null |
| ReviewHooks.CreateReviewFlow | valore-app/src/hooks/useReviews.ts:80-101 | signed out it writes nothing; a failed review insert writes nothing; otherwise the review and then its photos are stored, and a photo failure keeps the review and earlier photos; validity is kept |
| ReviewHooks.FailedReviewWritesNoPhotos | valore-app/src/hooks/useReviews.ts:80-101 | a duplicate review or an out-of-range rating stores no photo |
| ReviewHooks.FreshReviewStoresPhotos | valore-app/src/hooks/useReviews.ts:80-101 | with fresh ids the review and every photo are stored, the photos in input order |
| FollowHooks.ToggleFollow | valore-app/src/hooks/useFollows.ts:94-103 | without a profile it fails; otherwise the result is the opposite of the current status, the database is unfollowed or followed accordingly, and the status query then agrees with the result |
| FollowHooks.ToggleTwiceRestores | valore-app/src/hooks/useFollows.ts:94-103 | two toggles restore the follow relation, and the whole database when the first follows |
| FollowHooks.ToggleTouchesOnePair | valore-app/src/hooks/useFollows.ts:94-103 | toggling one target leaves the viewer's other follows alone |
| FollowHooks.IsFollowingEnabled | valore-app/src/hooks/useFollows.ts:47 | the status query runs only with a profile and a target that differs from it |
| FollowHooks.IsFollowingEnabledExactly | valore-app/src/hooks/useFollows.ts:47 | the gate is open for every non-empty profile id and non-empty, different target, and shut with no profile or an empty id |
| FollowHooks.SelfToggleFollowsSelf | valore-app/src/hooks/useFollows.ts:94-103 | toggling one's own profile stores a self-follow |
| Auth.SignUp | valore-app/src/hooks/useLocalAuth.tsx:91-117 | a known email is refused with no change; otherwise the credential is stored first, then the blank profile is created; on success the new user is signed in with that profile |
| Auth.SignIn | valore-app/src/hooks/useLocalAuth.tsx:120-139 | it succeeds exactly when the email is known and the password matches, and then signs in as the stored id; otherwise nothing changes |
| Auth.SignOut | valore-app/src/hooks/useLocalAuth.tsx:142-151 | no current user or profile remains; accounts and data are kept |
| Auth.SignUpThenSignIn | valore-app/src/hooks/useLocalAuth.tsx:91-139 | after sign-up the same password signs in as the new user, also after sign-out, and another password is refused |
| Auth.SignInKeepsAccounts | valore-app/src/hooks/useLocalAuth.tsx:120-139 | signing in changes neither the accounts nor the database |
| Formatters.Bucket | valore-app/src/lib/formatters.ts:6-25 | the unit chosen for an elapsed time and its count, as ranges of milliseconds |
| Formatters.FormatRelativeTime | valore-app/src/lib/formatters.ts:6-25 | under one minute "just now", otherwise the count and unit of the bucket |
| Formatters.FutureIsJustNow | valore-app/src/lib/formatters.ts:6-25 | a time in the future reads "just now" |
| Formatters.ZeroMonths | valore-app/src/lib/formatters.ts:22-23 | 28 and 29 days read "0mo ago" |
| Formatters.ZeroYears | valore-app/src/lib/formatters.ts:23-24 | 360 to 364 days read "0y ago" |
| Formatters.BucketFixed | valore-app/src/lib/formatters.ts:6-25 | the buckets with the thresholds where the counts reach one: every count is at least 1 |
| Formatters.BucketFixedAgrees | valore-app/src/lib/formatters.ts:6-25 | the corrected buckets differ only where `Bucket` shows a zero count, and that happens exactly at 28-29 and 360-364 days |
| Formatters.FormatCompactNumber | valore-app/src/lib/formatters.ts:53-57 | below 1000 an integer of magnitude at most 2^53 is printed as is, at most three digits when not negative |
| Formatters.CompactNumberRoundTrip | valore-app/src/lib/formatters.ts:53-57 | the printed digits read back as the number |
| Formatters.FormatRating | valore-app/src/lib/formatters.ts:62-65 | null reads "-"; an integral rating reads as the integer followed by ".0" |
| Formatters.Trim | valore-app/src/lib/formatters.ts:72 | empty exactly for all-whitespace input; otherwise it neither starts nor ends with whitespace and starts with the first non-whitespace character |
| Formatters.SplitWs | valore-app/src/lib/formatters.ts:72 | one piece exactly when there is no whitespace; the first piece is the text before the first whitespace |
| Formatters.LastPiece | valore-app/src/lib/formatters.ts:72 | the last piece is the text after the last whitespace |
| Formatters.TwoWordInitials | valore-app/src/lib/formatters.ts:70-75 | for trimmed text with inner whitespace the initials are the upper-cased first code unit and the first code unit after the last whitespace |
| Formatters.InitialsCases | valore-app/src/lib/formatters.ts:70-75 | "?" for a missing or empty name, "" for a blank one, the first code unit of one word, and the first code units of the first and last words otherwise, upper-cased |
| Formatters.AstralFirstInitial | valore-app/src/lib/formatters.ts:73-74 | a name made of a character above U+FFFF, a space and a word has that character's lone high surrogate as its first initial |
| Formatters.ToInt32 | valore-app/src/lib/formatters.ts:92-94 | the signed 32-bit value congruent to the input modulo 2^32 |
| Formatters.HashBound | valore-app/src/lib/formatters.ts:91-95 | the hash of n code units is at most n times 2^32 in magnitude |
| Formatters.StringToColor | valore-app/src/lib/formatters.ts:80-98 | one of the eight palette colours |
| Formatters.SameHashSameColour | valore-app/src/lib/formatters.ts:97 | the colour depends only on the absolute hash modulo 8 |
| Formatters.StringToColorSmall | valore-app/src/lib/formatters.ts:80-98 | "" gets the first colour and a single code unit the colour at its code modulo 8 |
| Formatters.StringToColorAstral | valore-app/src/lib/formatters.ts:91-97 | U+1F600 is hashed as its surrogates 0xD83D and 0xDE00, giving 1772899 and "#EC4899", not the colour of its code point |
| Formatters.FormatLocation | valore-app/src/lib/formatters.ts:103-106 | "city, country" when both are non-empty, else whichever is, else "Unknown location"; never empty |
| Formatters.FormatTripType | valore-app/src/lib/formatters.ts:111-125 | "" exactly for a missing or empty type; a known type reads as its label and any other as itself |
| Formatters.SevenTripTypes | valore-app/src/lib/formatters.ts:114-122 | seven trip types have labels, all non-empty |
| Formatters.SliceTo | valore-app/src/lib/formatters.ts:132 | `slice(0, end)` on UTF-16 units: a negative end counts from the back |
| Formatters.TruncateText | valore-app/src/lib/formatters.ts:130-133 | text within the limit, counted in UTF-16 units, is kept; longer text is cut and ends in "...", exactly the limit long when the limit is at least 3 |
| Formatters.TruncateSplitsPair | valore-app/src/lib/formatters.ts:130-133 | "a" and U+1F600 are three units, so a limit of 2 keeps "a" and the lone high surrogate before "..." |
| Formatters.TruncateBelowThree | valore-app/src/lib/formatters.ts:130-133 | with a limit below 3 the result is longer than the limit, in UTF-16 units |
| Utf16.CharUnits | valore-app/src/lib/formatters.ts:93-94 | a character below U+10000 is one unit with its own code; any other is a high and a low surrogate that together give its code point |
| Utf16.DecodeEncode | valore-app/src/lib/formatters.ts:93-94 | the UTF-16 units of a string read back to the same string |
| Utf16.EncodeBasic | valore-app/src/lib/formatters.ts:131 | text without characters above U+FFFF has one unit per character, each its code |
| Utf16.UpperUnits | valore-app/src/lib/formatters.ts:73-74 | ASCII-only upper-casing, unit by unit, length kept |
| Places.PriceLevelToTier | valore-app/src/lib/places.ts:94-108 | a tier exactly for levels 0 to 4: levels 0 and 1 give "$" and n gives n dollar signs; the tier is one of the four price tiers |
| Places.TiersCoverAndCollide | valore-app/src/lib/places.ts:94-108 | every price tier is reached, and only levels 0 and 1 share one |
| Sorting.Sort | valore-app/src/lib/localApi.ts:153 | the `ORDER BY` result: ordered by the given total preorder and a permutation of the input |
| Common.FindBy | valore-app/src/lib/localApi.ts:22-29 | the first row with the key, or None exactly when no row has it |
| Common.Filter | valore-app/src/lib/localApi.ts:206-272 | a `WHERE` clause: a row is kept exactly when it is in the table and satisfies the clause, and every kept row satisfies it |
| Common.FilterAppend | valore-app/src/lib/localApi.ts:206-272 | filtering splits over concatenation, so kept rows stay in table order with their multiplicity |
| Common.FilterSingle | valore-app/src/lib/localApi.ts:206-272 | one row is kept exactly when it satisfies the clause |
| Common.InsertOrIgnore | valore-app/src/lib/localApi.ts:393-399 | `INSERT OR IGNORE` on a key: the key set gains the key, and a present key leaves the rows as they are |
| Common.DeleteKey | valore-app/src/lib/localApi.ts:401-407 | `DELETE ... WHERE key = k`: exactly the rows with another key remain |
| Common.InsertThenDelete | valore-app/src/lib/localApi.ts:393-407 | deleting a key just inserted restores the rows |

## Left out

- I/O and asynchrony: the SQLite connection (`getDatabase`), AsyncStorage and the awaits. Each call is one step from one database value to the next. Interleaved calls are not modelled.
- React Query: caching, invalidation, `onSuccess` and the `loading` flags. Only the `mutationFn` bodies and the one `enabled` gate are modelled.
- The seed data and the JSON serialisation of the credential store and of the stored user.
- The clock and `Math.random`: `now`, the fresh ids and the 31 random nibbles of `generateId` are parameters. `formatRelativeTime` takes the elapsed milliseconds and not a date string, because date parsing is left out.
- `formatShortDate` and `formatFullDate`: they only call the locale date printer.
- Formatters.FormatCompactNumber: the `toFixed(1)` branches for 1000 and above are left out, because they need floating-point rounding. So are non-integral numbers below 1000, and integers below -2^53: a double does not hold them all, and `String` prints the shortest digits that read back to the same double rather than the exact integer.
- Formatters.FormatRating: only null and integral ratings are modelled, because `toFixed` on fractions needs floating-point rounding.
- Formatters.StringToColor: the hash is exact only while the values stay below 2^53 (strings shorter than 2^21 UTF-16 units, see `Formatters.HashBound`). Longer strings would round in floating point, and that is not modelled.
- Upper-casing and `LIKE` case folding cover ASCII letters only. Other letters are left as they are.
- Dafny strings cannot hold a lone surrogate, so stored text is always well-formed Unicode. A JavaScript string value (`Utf16.JsString`) can hold one.
- Formatters.FormatTripType: keys inherited from `Object.prototype` (such as "constructor") are not modelled. Neither is `Auth.SignUp` on an email such as "__proto__": the store is a map.
- Formatters.TruncateText: a fractional `maxLength` is not modelled. The limit is an integer.
- Foreign keys: SQLite leaves them unenforced by default, so `Schema.Valid` does not require them. The detail lookups return `None` for a dangling author or hotel where the source would hand out `null`.
- Joins are modelled as semi-joins on the key columns. They agree with the engine's joins under the primary keys and `UNIQUE` columns.
- The order among rows that tie on the `ORDER BY` key is the engine's choice. The contracts promise the order and the multiset, not the tie order.
- Queries without `ORDER BY` (the list items of `getListWithHotels`, the tag joins, photos, followers and following) return rows in whatever order the engine walks, possibly an index such as `(list_id, hotel_id)`. The model reads them in rowid order, and no contract depends on that order.
- `Hotels.IgnoredFilters`: the `tags` and `minRating` filters are not applied by `getHotels`. The model states this rather than filtering on them.

## Findings

| source | as written | input that shows it | evidently intended | confidence | as-written member | corrected member |
|---|---|---|---|---|---|---|
| valore-app/src/lib/formatters.ts:22-23 | weeks are shown while `diffWeeks < 4` and months while `diffMonths < 12`, with months counted as 30 days and years as 365 | 28 days elapsed reads "0mo ago"; 360 days reads "0y ago" | 28-29 days read "4w ago" and 360-364 days read "12mo ago", so no bucket shows a zero count | high, not executed | Formatters.ZeroMonths | Formatters.BucketFixed |

=== FILE: auth.dfy ===
/** The local credential store behind `useLocalAuth`: `signUp`, `signIn` and
    `signOut`. The persisted store and the persisted current user are values
    of the session rather than device storage. */
module Auth {
  import opened Common
  import opened Schema
  import opened Profiles

  datatype Credential = Credential(id: Id, password: string)

  datatype User = User(id: Id, email: string)

  /** `users` is the email-keyed credential store, `stored` the persisted
      current user, `user` and `profile` the in-memory current user and
      profile, and `db` the local database. */
  datatype Session = Session(
    users: map<string, Credential>,
    stored: Option<User>,
    user: Option<User>,
    profile: Option<Profile>,
    db: Db)

  /** The profile columns a new account starts with: all null. */
  const BlankProfile := ProfileInput(None, None, None, None, None)

  /** `signUp`: refuse a known email; otherwise store the credential under the
      drawn id `freshId`, create the blank profile and sign in. The store is
      saved before the profile insert, so a failed insert leaves the new
      credential behind without signing in. */
  function SignUp(s: Session, email: string, password: string, freshId: Id, now: Timestamp): (o: Outcome<Session, User>)
    ensures email in s.users ==> o == Outcome(s, Err(EmailTaken))
    ensures email !in s.users ==> o.state.users == s.users[email := Credential(freshId, password)]
    ensures email !in s.users ==>
              var created := CreateProfile(s.db, freshId, BlankProfile, now);
              && o.state.db == created.state
              && (o.result.Err? <==> created.result.Err?)
    ensures o.result.Err? ==> o.state.user == s.user && o.state.stored == s.stored && o.state.profile == s.profile
    ensures o.result.Ok? ==>
              && o.result.value == User(freshId, email)
              && o.state.user == Some(o.result.value) && o.state.stored == Some(o.result.value)
              && o.state.profile.Some? && o.state.profile.value.id == freshId
              && o.state.profile.value.username.None? && o.state.profile.value.fullName.None?
              && o.state.profile == GetProfile(o.state.db, freshId)
    ensures Valid(s.db) ==> Valid(o.state.db)
  {
    if email in s.users then
      Outcome(s, Err(EmailTaken))
    else
      var saved := s.(users := s.users[email := Credential(freshId, password)]);
      var created := CreateProfile(s.db, freshId, BlankProfile, now);
      if created.result.Err? then
        Outcome(saved.(db := created.state), Err(created.result.error))
      else
        var u := User(freshId, email);
        Outcome(saved.(db := created.state, stored := Some(u), user := Some(u), profile := GetProfile(created.state, freshId)), Ok(u))
  }

  /** `signIn`: the email must be known and the password must match. */
  function SignIn(s: Session, email: string, password: string): (o: Outcome<Session, User>)
    ensures o.result.Ok? <==> email in s.users && s.users[email].password == password
    ensures o.result.Err? ==> o == Outcome(s, Err(InvalidCredentials))
    ensures o.result.Ok? ==>
              && o.result.value == User(s.users[email].id, email)
              && o.state == s.(stored := Some(o.result.value), user := Some(o.result.value),
                               profile := GetProfile(s.db, s.users[email].id))
  {
    if email !in s.users || s.users[email].password != password then
      Outcome(s, Err(InvalidCredentials))
    else
      var u := User(s.users[email].id, email);
      Outcome(s.(stored := Some(u), user := Some(u), profile := GetProfile(s.db, u.id)), Ok(u))
  }

  /** `signOut`: forget the current user and profile, keep the accounts. */
  function SignOut(s: Session): (r: Session)
    ensures r.user.None? && r.stored.None? && r.profile.None?
    ensures r.users == s.users && r.db == s.db
  {
    s.(stored := None, user := None, profile := None)
  }

  /** After signing up, the same password signs in as the new user and any
      other password is refused, before or after signing out. */
  lemma SignUpThenSignIn(s: Session, email: string, password: string, other: string, freshId: Id, now: Timestamp)
    requires email !in s.users && other != password
    ensures var t := SignUp(s, email, password, freshId, now).state;
            && SignIn(t, email, password).result == Ok(User(freshId, email))
            && SignIn(SignOut(t), email, password).result == Ok(User(freshId, email))
            && SignIn(t, email, other).result == Err(InvalidCredentials)
  {
  }

  /** Signing in does not change the accounts or the database. */
  lemma SignInKeepsAccounts(s: Session, email: string, password: string)
    ensures SignIn(s, email, password).state.users == s.users
    ensures SignIn(s, email, password).state.db == s.db
  {
  }
}

=== FILE: common.dfy ===
/** Result shapes shared by every store module, and the sequence helpers the
    queries are built from (filtering by a key, first match, index counting). */
module Common {

  /** A nullable value: `None` plays the role of SQL NULL / JavaScript null. */
  datatype Option<+T> = None | Some(value: T)

  /** What a store call or a workflow can raise. */
  datatype Error =
    | UniqueViolation(column: string)  // the engine's "UNIQUE constraint failed: <column>"
    | CheckViolation(column: string)   // the engine's "CHECK constraint failed" on <column>
    | NotSignedIn                      // a hook's 'Must be logged in' error
    | NoCurrentProfile                 // a hook dereferencing a null current profile
    | EmailTaken                       // 'An account with this email already exists'
    | InvalidCredentials               // 'Invalid email or password'

  datatype Result<+T> = Ok(value: T) | Err(error: Error)

  /** The state after a call together with what the call returned or raised.
      Calls that run several statements without a transaction can raise after
      some writes already happened; `state` records those writes. */
  datatype Outcome<S, T> = Outcome(state: S, result: Result<T>)

  /** A nullable string JavaScript treats as true: present and non-empty. */
  predicate Truthy(s: Option<string>)
  {
    s.Some? && s.value != ""
  }

  /** `x || null` on a nullable string: the empty string is falsy, so it
      becomes null too. */
  function OrNull(x: Option<string>): (r: Option<string>)
    ensures r.Some? <==> Truthy(x)
    ensures r.Some? ==> r == x
  {
    if Truthy(x) then x else None
  }

  function Min(a: int, b: int): int { if a <= b then a else b }

  function Max(a: int, b: int): int { if a >= b then a else b }

  /** The positions of `s` whose row satisfies `p`: the rows a `WHERE` selects. */
  ghost function IndicesWhere<T>(s: seq<T>, p: T -> bool): set<int>
  {
    set i | 0 <= i < |s| && p(s[i])
  }

  /** The rows of `s` that satisfy `p`, in table order. */
  function Filter<T(!new)>(s: seq<T>, p: T -> bool): (r: seq<T>)
    ensures |r| <= |s|
    ensures forall x :: x in r <==> x in s && p(x)
    ensures forall i :: 0 <= i < |r| ==> p(r[i])
    ensures multiset(r) <= multiset(s)
  {
    if s == [] then []
    else
      var init := Filter(s[..|s| - 1], p);
      assert s == s[..|s| - 1] + [s[|s| - 1]];
      if p(s[|s| - 1]) then init + [s[|s| - 1]] else init
  }

  /** Filtering one row keeps it exactly when it is selected. */
  lemma FilterSingle<T(!new)>(x: T, p: T -> bool)
    ensures Filter([x], p) == if p(x) then [x] else []
  {
    assert [x][..0] == [];
  }

  /** Filtering splits over concatenation, so the selected rows keep their
      order and their number of occurrences. */
  lemma {:induction false} FilterAppend<T(!new)>(a: seq<T>, b: seq<T>, p: T -> bool)
    ensures Filter(a + b, p) == Filter(a, p) + Filter(b, p)
    decreases |b|
  {
    if b == [] {
      assert a + b == a;
    } else {
      var init := b[..|b| - 1];
      var x := b[|b| - 1];
      assert (a + b)[..|a + b| - 1] == a + init;
      assert (a + b)[|a + b| - 1] == x;
      FilterAppend(a, init, p);
    }
  }

  /** `SELECT COUNT(*) ... WHERE p` is the number of selected positions. */
  lemma {:induction false} FilterCount<T(!new)>(s: seq<T>, p: T -> bool)
    ensures |Filter(s, p)| == |IndicesWhere(s, p)|
    decreases |s|
  {
    if s != [] {
      var n := |s| - 1;
      var init := s[..n];
      assert |Filter(s, p)| == |Filter(init, p)| + (if p(s[n]) then 1 else 0);
      FilterCount(init, p);
      IndicesStep(s, p);
    }
  }

  lemma IndicesStep<T>(s: seq<T>, p: T -> bool)
    requires s != []
    ensures |IndicesWhere(s, p)|
         == |IndicesWhere(s[..|s| - 1], p)| + (if p(s[|s| - 1]) then 1 else 0)
  {
    var n := |s| - 1;
    var before := IndicesWhere(s[..n], p);
    var after := IndicesWhere(s, p);
    assert forall i :: i in before <==> 0 <= i < n && p(s[i]);
    assert forall i :: i in after <==> 0 <= i < |s| && p(s[i]);
    var added := if p(s[n]) then {n} else {};
    assert after == before + added;
    assert n !in before;
  }

  /** The first row of `s` whose key is `k` (`getFirstAsync` over a table scan). */
  function FindBy<T, K(==)>(s: seq<T>, key: T -> K, k: K): (r: Option<T>)
    ensures r.Some? ==> r.value in s && key(r.value) == k
    ensures r.None? <==> forall i :: 0 <= i < |s| ==> key(s[i]) != k
    ensures r.Some? ==> exists i :: 0 <= i < |s| && s[i] == r.value && forall j :: 0 <= j < i ==> key(s[j]) != k
  {
    if s == [] then None
    else if key(s[0]) == k then Some(s[0])
    else
      var r := FindBy(s[1..], key, k);
      if r.Some? then
        ghost var i :| 0 <= i < |s[1..]| && s[1..][i] == r.value && forall j :: 0 <= j < i ==> key(s[1..][j]) != k;
        assert s[i + 1] == r.value && forall j :: 0 <= j < i + 1 ==> key(s[j]) != k;
        r
      else
        assert forall i :: 1 <= i < |s| ==> s[i] == s[1..][i - 1];
        r
  }

  /** Whether the keys of the rows of `s` are pairwise different (a primary key). */
  predicate KeysDistinct<T, K(==)>(s: seq<T>, key: T -> K)
  {
    forall i, j :: 0 <= i < j < |s| ==> key(s[i]) != key(s[j])
  }

  /** Under a key constraint equal keys mean the same position. */
  lemma KeyDeterminesIndex<T, K>(s: seq<T>, key: T -> K, i: int, j: int)
    requires KeysDistinct(s, key)
    requires 0 <= i < |s| && 0 <= j < |s| && key(s[i]) == key(s[j])
    ensures i == j
  {
  }

  /** Under a key constraint the first match is the only match. */
  lemma FindByUnique<T, K>(s: seq<T>, key: T -> K, k: K, x: T)
    requires KeysDistinct(s, key)
    requires x in s && key(x) == k
    ensures FindBy(s, key, k) == Some(x)
  {
    var r := FindBy(s, key, k);
    var i :| 0 <= i < |s| && s[i] == r.value && forall j :: 0 <= j < i ==> key(s[j]) != k;
    var m :| 0 <= m < |s| && s[m] == x;
    if m < i {
    } else if i < m {
      assert key(s[i]) == key(s[m]);
    }
  }

  /** Appending a row with a fresh key keeps a key constraint. */
  lemma AppendKeepsDistinct<T, K>(s: seq<T>, key: T -> K, x: T)
    requires KeysDistinct(s, key)
    requires forall i :: 0 <= i < |s| ==> key(s[i]) != key(x)
    ensures KeysDistinct(s + [x], key)
  {
  }

  /** Removing rows keeps a key constraint. */
  lemma {:induction false} FilterKeepsDistinct<T(!new), K>(s: seq<T>, key: T -> K, p: T -> bool)
    requires KeysDistinct(s, key)
    ensures KeysDistinct(Filter(s, p), key)
    decreases |s|
  {
    if s != [] {
      var init := s[..|s| - 1];
      assert KeysDistinct(init, key);
      FilterKeepsDistinct(init, key, p);
      assert forall x :: x in init ==> key(x) != key(s[|s| - 1]);
    }
  }

  /** A filter every row passes returns the sequence itself. */
  lemma {:induction false} FilterKeepsAll<T(!new)>(s: seq<T>, p: T -> bool)
    requires forall i :: 0 <= i < |s| ==> p(s[i])
    ensures Filter(s, p) == s
    decreases |s|
  {
    if s != [] {
      var init := s[..|s| - 1];
      assert forall i :: 0 <= i < |init| ==> init[i] == s[i];
      FilterKeepsAll(init, p);
      assert s == init + [s[|s| - 1]];
    }
  }

  /** The keys present in `s`. */
  function KeySet<T(==), K>(s: seq<T>, key: T -> K): set<K>
  {
    set x | x in s :: key(x)
  }

  /** The number of distinct keys of a key-distinct sequence is its length. */
  lemma {:induction false} DistinctKeysCard<T, K>(s: seq<T>, key: T -> K)
    requires KeysDistinct(s, key)
    ensures |KeySet(s, key)| == |s|
    decreases |s|
  {
    if s != [] {
      var init := s[..|s| - 1];
      var last := s[|s| - 1];
      assert KeysDistinct(init, key);
      DistinctKeysCard(init, key);
      assert s == init + [last];
      assert KeySet(s, key) == KeySet(init, key) + {key(last)};
      assert key(last) !in KeySet(init, key);
    }
  }

  /** `INSERT OR IGNORE` into a table keyed by `key`: a row whose key is
      already present is dropped, any other row is appended. */
  function InsertOrIgnore<T(==)(!new), K(==)>(s: seq<T>, key: T -> K, x: T): (r: seq<T>)
    ensures KeySet(r, key) == KeySet(s, key) + {key(x)}
    ensures key(x) in KeySet(s, key) ==> r == s
    ensures key(x) !in KeySet(s, key) ==> r == s + [x]
    ensures KeysDistinct(s, key) ==> KeysDistinct(r, key)
  {
    if key(x) in KeySet(s, key) then s
    else
      assert forall y :: y in s + [x] <==> y in s || y == x;
      assert forall y :: y in s ==> key(y) != key(x);
      if KeysDistinct(s, key) then
        AppendKeepsDistinct(s, key, x);
        s + [x]
      else
        s + [x]
  }

  /** The rows `DELETE ... WHERE <key> = k` keeps. */
  function KeyIsNot<T, K(==)>(key: T -> K, k: K): T -> bool
  {
    (x: T) => key(x) != k
  }

  /** `DELETE FROM` a table keyed by `key` the row with key `k`, if any. */
  function DeleteKey<T(!new), K(==)>(s: seq<T>, key: T -> K, k: K): (r: seq<T>)
    ensures forall x :: x in r <==> x in s && key(x) != k
    ensures KeySet(r, key) == KeySet(s, key) - {k}
    ensures KeysDistinct(s, key) ==> KeysDistinct(r, key)
  {
    var r := Filter(s, KeyIsNot(key, k));
    assert forall x :: x in r <==> x in s && key(x) != k;
    forall y | y in KeySet(s, key) - {k} ensures y in KeySet(r, key) {
      var x :| x in s && key(x) == y;
      assert x in r;
    }
    if KeysDistinct(s, key) then
      FilterKeepsDistinct(s, key, KeyIsNot(key, k));
      r
    else
      r
  }

  /** Deleting twice deletes no more than once. */
  lemma DeleteKeyIdempotent<T(!new), K>(s: seq<T>, key: T -> K, k: K)
    ensures DeleteKey(DeleteKey(s, key, k), key, k) == DeleteKey(s, key, k)
  {
    FilterKeepsAll(DeleteKey(s, key, k), KeyIsNot(key, k));
  }

  /** Inserting a new key and deleting it again gives back the table. */
  lemma InsertThenDelete<T(!new), K>(s: seq<T>, key: T -> K, x: T)
    requires key(x) !in KeySet(s, key)
    ensures DeleteKey(InsertOrIgnore(s, key, x), key, key(x)) == s
  {
    var t := s + [x];
    assert t[..|t| - 1] == s;
    assert forall y :: y in s ==> key(y) in KeySet(s, key);
    FilterKeepsAll(s, KeyIsNot(key, key(x)));
  }
}

=== FILE: feed.dfy ===
/** `getFeed`: the newest reviews written by the people a user follows. */
module Feed {
  import opened Common
  import opened Schema
  import opened Sorting
  import opened Reviews

  /** `LIMIT 50`. */
  const FeedLimit := 50

  /** A feed entry: the review with its details, and its author again as the
      friend it came from. */
  datatype FeedItem = FeedItem(review: ReviewWithDetails, friend: Option<UserSummary>)

  /** `reviews r JOIN follows f ON r.user_id = f.following_id WHERE
      f.follower_id = ?`; the follow pair is a key, so each review joins at
      most once. */
  function ByFollowed(db: Db, userId: Id): Review -> bool
  {
    (r: Review) => Follows(db, userId, r.userId)
  }

  function Entry(db: Db, r: Review): FeedItem
  {
    var d := Detail(db, r);
    FeedItem(d, d.user)
  }

  function Entries(db: Db, rs: seq<Review>): (es: seq<FeedItem>)
    ensures |es| == |rs|
    ensures forall i :: 0 <= i < |rs| ==> es[i] == Entry(db, rs[i])
  {
    seq(|rs|, i requires 0 <= i < |rs| => Entry(db, rs[i]))
  }

  /** The candidate reviews, newest first, before the limit. */
  function Candidates(db: Db, userId: Id): seq<Review>
  {
    NewestReviews(db, ByFollowed(db, userId))
  }

  /** `getFeed`: the first fifty candidates, each as a feed entry. */
  function GetFeed(db: Db, userId: Id): (r: seq<FeedItem>)
    ensures |r| == Min(FeedLimit, |Candidates(db, userId)|)
    ensures forall i :: 0 <= i < |r| ==> r[i] == Entry(db, Candidates(db, userId)[i])
  {
    var cs := Candidates(db, userId);
    Entries(db, cs[..Min(FeedLimit, |cs|)])
  }

  /** Every feed entry is a stored review by a followed author with its own
      details, and the entries are newest first. */
  lemma FeedEntries(db: Db, userId: Id)
    ensures var r := GetFeed(db, userId);
            && (forall i :: 0 <= i < |r| ==> r[i] == Entry(db, r[i].review.review))
            && (forall i :: 0 <= i < |r| ==>
                  r[i].review.review in db.reviews && Follows(db, userId, r[i].review.review.userId))
            && (forall i, j :: 0 <= i < j < |r| ==> r[i].review.review.createdAt >= r[j].review.review.createdAt)
  {
    var cs := Candidates(db, userId);
    var r := GetFeed(db, userId);
    FeedIsPrefix(db, userId);
    forall i | 0 <= i < |r| ensures cs[i] in db.reviews && Follows(db, userId, cs[i].userId) {
      assert cs[i] in cs;
      assert ByFollowed(db, userId)(cs[i]);
    }
  }

  /** The feed's reviews are the first candidates, in order. */
  lemma FeedIsPrefix(db: Db, userId: Id)
    ensures forall i :: 0 <= i < |GetFeed(db, userId)| ==> GetFeed(db, userId)[i].review.review == Candidates(db, userId)[i]
  {
    var cs := Candidates(db, userId);
    var r := GetFeed(db, userId);
    forall i | 0 <= i < |r| ensures r[i].review.review == cs[i] {
      assert r[i] == Entry(db, cs[i]);
    }
  }

  /** The feed holds at most fifty entries. */
  lemma FeedIsBounded(db: Db, userId: Id)
    ensures |GetFeed(db, userId)| <= FeedLimit
  {
  }

  /** A followed author's review missing from the feed is no newer than any
      entry in it: the limit cuts off the oldest. */
  lemma FeedKeepsNewest(db: Db, userId: Id, x: Review)
    requires x in db.reviews && Follows(db, userId, x.userId)
    requires forall i :: 0 <= i < |GetFeed(db, userId)| ==> GetFeed(db, userId)[i].review.review != x
    ensures forall i :: 0 <= i < |GetFeed(db, userId)| ==> GetFeed(db, userId)[i].review.review.createdAt >= x.createdAt
  {
    var cs := Candidates(db, userId);
    var n := Min(FeedLimit, |cs|);
    var r := GetFeed(db, userId);
    FeedIsPrefix(db, userId);
    NewestFirstIsTotalPreorder();
    assert x in cs;
    assert SortedBy(cs, NewestFirst);
    assert x !in cs[..n] by {
      forall k | 0 <= k < n ensures cs[..n][k] != x {
        assert r[k].review.review == cs[k];
      }
    }
    TakeKeepsFirst(cs, NewestFirst, n, x);
    forall i | 0 <= i < |r| ensures r[i].review.review.createdAt >= x.createdAt {
      assert NewestFirst(cs[i], x);
    }
  }

  /** Every followed author's review is in the feed while there are at most
      fifty of them. */
  lemma FeedCompleteUnderLimit(db: Db, userId: Id, x: Review)
    requires x in db.reviews && Follows(db, userId, x.userId)
    requires |Candidates(db, userId)| <= FeedLimit
    ensures exists i :: 0 <= i < |GetFeed(db, userId)| && GetFeed(db, userId)[i].review.review == x
  {
    var cs := Candidates(db, userId);
    assert x in cs;
    var k :| 0 <= k < |cs| && cs[k] == x;
    FeedIsPrefix(db, userId);
    assert GetFeed(db, userId)[k].review.review == x;
  }

  /** Someone who follows nobody has an empty feed. */
  lemma NoFollowsNoFeed(db: Db, userId: Id)
    requires forall f :: f in db.follows ==> f.followerId != userId
    ensures GetFeed(db, userId) == []
  {
    var cs := Candidates(db, userId);
    assert forall r :: r in cs ==> Follows(db, userId, r.userId);
  }
}

=== FILE: follow_hooks.dfy ===
/** `useToggleFollow` and the gate on the `useIsFollowing` status query. The
    current profile's id is passed as `viewer`; the toggle dereferences it
    without a check, which throws when there is no profile. */
module FollowHooks {
  import opened Common
  import opened Schema
  import opened FollowGraph

  /** The toggle: unfollow when the pair exists, otherwise follow. The result
      is the new `following` flag. */
  function ToggleFollow(db: Db, viewer: Option<Id>, target: Id, now: Timestamp): (o: Outcome<Db, bool>)
    ensures viewer.None? ==> o == Outcome(db, Err(NoCurrentProfile))
    ensures viewer.Some? ==> o.result == Ok(!Follows(db, viewer.value, target))
    ensures viewer.Some? && Follows(db, viewer.value, target) ==> o.state == UnfollowUser(db, viewer.value, target)
    ensures viewer.Some? && !Follows(db, viewer.value, target) ==> o.state == FollowUser(db, viewer.value, target, now)
    ensures o.result.Ok? ==> IsFollowing(o.state, viewer.value, target) == o.result.value
    ensures Valid(db) ==> Valid(o.state)
  {
    if viewer.None? then
      Outcome(db, Err(NoCurrentProfile))
    else if IsFollowing(db, viewer.value, target) then
      Outcome(UnfollowUser(db, viewer.value, target), Ok(false))
    else
      Outcome(FollowUser(db, viewer.value, target, now), Ok(true))
  }

  /** Two toggles restore the follow relation; starting from "not following"
      they restore the whole database. */
  lemma ToggleTwiceRestores(db: Db, v: Id, target: Id, now: Timestamp, now2: Timestamp)
    ensures var once := ToggleFollow(db, Some(v), target, now).state;
            var twice := ToggleFollow(once, Some(v), target, now2).state;
            && FollowPairs(twice) == FollowPairs(db)
            && (!Follows(db, v, target) ==> twice == db)
  {
    if !Follows(db, v, target) {
      FollowThenUnfollow(db, v, target, now);
    }
  }

  /** Toggles on one target leave the viewer's other follows alone. */
  lemma ToggleTouchesOnePair(db: Db, v: Id, target: Id, other: Id, now: Timestamp)
    requires other != target
    ensures Follows(ToggleFollow(db, Some(v), target, now).state, v, other) <==> Follows(db, v, other)
  {
    OtherPairsUnchanged(db, v, target, v, other, now);
  }

  /** `enabled` of `useIsFollowing`: a non-empty profile id, a non-empty
      target and not the viewer's own profile. */
  function IsFollowingEnabled(viewer: Option<Id>, target: Id): (b: bool)
    ensures b ==> viewer.Some? && viewer.value != target
  {
    viewer.Some? && viewer.value != "" && target != "" && viewer.value != target
  }

  /** The gate is exact: it opens for every pair of non-empty, different
      ids, and stays shut without a profile, for an empty id or for one's
      own profile. */
  lemma IsFollowingEnabledExactly(viewer: Option<Id>, target: Id)
    ensures viewer.Some? && viewer.value != "" && target != "" && viewer.value != target ==>
              IsFollowingEnabled(viewer, target)
    ensures viewer.None? || viewer.value == "" || target == "" ==> !IsFollowingEnabled(viewer, target)
  {
  }

  /** Only the status query is gated: toggling one's own profile follows
      oneself although the status of that pair is never queried. */
  lemma SelfToggleFollowsSelf(db: Db, v: Id, now: Timestamp)
    requires !Follows(db, v, v)
    ensures !IsFollowingEnabled(Some(v), v)
    ensures var o := ToggleFollow(db, Some(v), v, now);
            o.result == Ok(true) && Follows(o.state, v, v)
  {
  }
}

=== FILE: follows.dfy ===
/** The follow graph: `followUser`, `unfollowUser`, `getFollowers`,
    `getFollowing` and `isFollowing`. */
module FollowGraph {
  import opened Common
  import opened Schema

  /** `followUser`: `INSERT OR IGNORE`, so following twice is following once. */
  function FollowUser(db: Db, followerId: Id, followingId: Id, now: Timestamp): (r: Db)
    ensures FollowPairs(r) == FollowPairs(db) + {(followerId, followingId)}
    ensures Follows(db, followerId, followingId) ==> r == db
    ensures !Follows(db, followerId, followingId) ==>
              r == db.(follows := db.follows + [Follow(followerId, followingId, now)])
    ensures Valid(db) ==> Valid(r)
  {
    db.(follows := InsertOrIgnore(db.follows, FollowKey, Follow(followerId, followingId, now)))
  }

  /** `unfollowUser`: delete the pair's row, if any. */
  function UnfollowUser(db: Db, followerId: Id, followingId: Id): (r: Db)
    ensures FollowPairs(r) == FollowPairs(db) - {(followerId, followingId)}
    ensures r == db.(follows := r.follows)
    ensures forall f :: f in r.follows <==> f in db.follows && FollowKey(f) != (followerId, followingId)
    ensures Valid(db) ==> Valid(r)
  {
    db.(follows := DeleteKey(db.follows, FollowKey, (followerId, followingId)))
  }

  /** `isFollowing`: `COUNT(*)` of the pair's rows is positive. */
  function IsFollowing(db: Db, followerId: Id, followingId: Id): (b: bool)
    ensures b <==> Follows(db, followerId, followingId)
  {
    var hits := Filter(db.follows, (f: Follow) => FollowKey(f) == (followerId, followingId));
    if |hits| > 0 then
      assert hits[0] in db.follows;
      true
    else
      false
  }

  /** Profiles that follow `userId`: the semi-join `profiles JOIN follows ON
      p.id = f.follower_id WHERE f.following_id = ?`. */
  function FollowerOf(db: Db, userId: Id): Profile -> bool
  {
    (p: Profile) => Follows(db, p.id, userId)
  }

  /** Profiles `userId` follows. */
  function FollowedBy(db: Db, userId: Id): Profile -> bool
  {
    (p: Profile) => Follows(db, userId, p.id)
  }

  /** `getFollowers`. */
  function GetFollowers(db: Db, userId: Id): (r: seq<Profile>)
    ensures forall p :: p in r <==> p in db.profiles && Follows(db, p.id, userId)
    ensures Valid(db) ==> KeysDistinct(r, ProfileId)
  {
    var r := Filter(db.profiles, FollowerOf(db, userId));
    if Valid(db) then
      FilterKeepsDistinct(db.profiles, ProfileId, FollowerOf(db, userId));
      r
    else
      r
  }

  /** `getFollowing`. */
  function GetFollowing(db: Db, userId: Id): (r: seq<Profile>)
    ensures forall p :: p in r <==> p in db.profiles && Follows(db, userId, p.id)
    ensures Valid(db) ==> KeysDistinct(r, ProfileId)
  {
    var r := Filter(db.profiles, FollowedBy(db, userId));
    if Valid(db) then
      FilterKeepsDistinct(db.profiles, ProfileId, FollowedBy(db, userId));
      r
    else
      r
  }

  /** One user is among another's followers exactly when the second is among
      the first one's followings. */
  lemma FollowersMirrorFollowing(db: Db, a: Profile, b: Profile)
    requires a in db.profiles && b in db.profiles
    ensures a in GetFollowers(db, b.id) <==> b in GetFollowing(db, a.id)
  {
  }

  /** After following, the pair is followed; after unfollowing, it is not. */
  lemma FollowAndUnfollowAreSeen(db: Db, a: Id, b: Id, now: Timestamp)
    ensures IsFollowing(FollowUser(db, a, b, now), a, b)
    ensures !IsFollowing(UnfollowUser(db, a, b), a, b)
  {
  }

  /** Following someone not yet followed and unfollowing again restores the
      database. */
  lemma FollowThenUnfollow(db: Db, a: Id, b: Id, now: Timestamp)
    requires !Follows(db, a, b)
    ensures UnfollowUser(FollowUser(db, a, b, now), a, b) == db
  {
    InsertThenDelete(db.follows, FollowKey, Follow(a, b, now));
  }

  lemma UnfollowIdempotent(db: Db, a: Id, b: Id)
    ensures UnfollowUser(UnfollowUser(db, a, b), a, b) == UnfollowUser(db, a, b)
  {
    DeleteKeyIdempotent(db.follows, FollowKey, (a, b));
  }

  /** Following or unfollowing one pair leaves every other pair as it was. */
  lemma OtherPairsUnchanged(db: Db, a: Id, b: Id, c: Id, d: Id, now: Timestamp)
    requires (c, d) != (a, b)
    ensures Follows(FollowUser(db, a, b, now), c, d) <==> Follows(db, c, d)
    ensures Follows(UnfollowUser(db, a, b), c, d) <==> Follows(db, c, d)
  {
  }
}

=== FILE: formatters.dfy ===
/** The display helpers: relative times, compact numbers, ratings, initials,
    avatar colours, locations, trip types and truncation. */
module Formatters {
  import opened Common
  import opened Text
  import opened Utf16

  // ---------------------------------------------------------------- relative time

  /** The bucket `formatRelativeTime` picks, with its count. */
  datatype Elapsed =
    | JustNow
    | Minutes(n: int)
    | Hours(n: int)
    | Days(n: int)
    | Weeks(n: int)
    | Months(n: int)
    | Years(n: int)

  const MsPerMinute := 60_000
  const MsPerHour := 3_600_000
  const MsPerDay := 86_400_000

  /** The bucket for `ms` milliseconds elapsed, with the floor divisions and
      thresholds of `formatRelativeTime`. The divisors are positive, where
      `/` is the floor. */
  function Bucket(ms: int): (e: Elapsed)
    ensures e == JustNow <==> ms < MsPerMinute
    ensures MsPerMinute <= ms < MsPerHour ==> e == Minutes(ms / MsPerMinute)
    ensures MsPerHour <= ms < MsPerDay ==> e == Hours(ms / MsPerHour)
    ensures MsPerDay <= ms < 7 * MsPerDay ==> e == Days(ms / MsPerDay)
    ensures 7 * MsPerDay <= ms < 28 * MsPerDay ==> e == Weeks(ms / (7 * MsPerDay))
    ensures 28 * MsPerDay <= ms < 360 * MsPerDay ==> e == Months(ms / (30 * MsPerDay))
    ensures 360 * MsPerDay <= ms ==> e == Years(ms / (365 * MsPerDay))
  {
    var secs := ms / 1000;
    var mins := secs / 60;
    var hours := mins / 60;
    var days := hours / 24;
    var weeks := days / 7;
    var months := days / 30;
    var years := days / 365;
    if secs < 60 then JustNow
    else if mins < 60 then Minutes(mins)
    else if hours < 24 then Hours(hours)
    else if days < 7 then Days(days)
    else if weeks < 4 then Weeks(weeks)
    else if months < 12 then Months(months)
    else Years(years)
  }

  /** The text shown for a bucket. */
  function Render(e: Elapsed): string
  {
    match e
    case JustNow => "just now"
    case Minutes(n) => IntToString(n) + "m ago"
    case Hours(n) => IntToString(n) + "h ago"
    case Days(n) => IntToString(n) + "d ago"
    case Weeks(n) => IntToString(n) + "w ago"
    case Months(n) => IntToString(n) + "mo ago"
    case Years(n) => IntToString(n) + "y ago"
  }

  /** `formatRelativeTime`, as a function of the elapsed milliseconds. */
  function FormatRelativeTime(ms: int): (s: string)
    ensures ms < MsPerMinute ==> s == "just now"
    ensures ms >= MsPerMinute ==> s == Render(Bucket(ms)) && Bucket(ms) != JustNow
  {
    Render(Bucket(ms))
  }

  /** A future time (negative elapsed time) reads "just now". */
  lemma FutureIsJustNow(ms: int)
    requires ms < 0
    ensures FormatRelativeTime(ms) == "just now"
  {
  }

  /** The count a bucket shows (none for "just now"). */
  function Count(e: Elapsed): int
  {
    if e.JustNow? then 1 else e.n
  }

  /** 28 and 29 days fall past the weeks bucket but short of one month. */
  lemma ZeroMonths(ms: int)
    requires 28 * MsPerDay <= ms < 30 * MsPerDay
    ensures Bucket(ms) == Months(0)
    ensures FormatRelativeTime(ms) == "0mo ago"
  {
    assert IntToString(0) == "0";
  }

  /** 360 to 364 days fall past the months bucket but short of one year. */
  lemma ZeroYears(ms: int)
    requires 360 * MsPerDay <= ms < 365 * MsPerDay
    ensures Bucket(ms) == Years(0)
    ensures FormatRelativeTime(ms) == "0y ago"
  {
    assert IntToString(0) == "0";
  }

  /** The buckets with the weeks and months thresholds moved to where their
      counts reach one month and one year: 28 and 29 days read "4w ago",
      360 to 364 days "12mo ago". */
  function BucketFixed(ms: int): (e: Elapsed)
    ensures e.JustNow? <==> ms < MsPerMinute
    ensures Count(e) >= 1
  {
    var secs := ms / 1000;
    var mins := secs / 60;
    var hours := mins / 60;
    var days := hours / 24;
    if secs < 60 then JustNow
    else if mins < 60 then Minutes(mins)
    else if hours < 24 then Hours(hours)
    else if days < 7 then Days(days)
    else if days < 30 then Weeks(days / 7)
    else if days < 365 then Months(days / 30)
    else Years(days / 365)
  }

  function FormatRelativeTimeFixed(ms: int): string
  {
    Render(BucketFixed(ms))
  }

  /** The fix changes only the outputs that showed a zero count. */
  lemma BucketFixedAgrees(ms: int)
    ensures Count(Bucket(ms)) != 0 ==> BucketFixed(ms) == Bucket(ms)
    ensures Count(Bucket(ms)) == 0 <==>
              (28 * MsPerDay <= ms < 30 * MsPerDay) || (360 * MsPerDay <= ms < 365 * MsPerDay)
  {
  }

  // ------------------------------------------------------------ numbers and ratings

  /** `formatCompactNumber` below 1000: `String(num)`, on the integers that
      a double holds exactly (magnitude at most 2^53). Beyond that `String`
      prints the shortest digits that read back to the same double. */
  function FormatCompactNumber(n: int): (s: string)
    requires -0x20_0000_0000_0000 <= n < 1000
    ensures 0 <= n ==> s == NatToString(n) && 1 <= |s| <= 3
    ensures n < 0 ==> |s| >= 2 && s[0] == '-' && s[1..] == NatToString(-n)
  {
    if 0 <= n then
      SmallNatDigits(n);
      IntToString(n)
    else
      IntToString(n)
  }

  /** A natural below 1000 prints as at most three digits. */
  lemma SmallNatDigits(n: nat)
    requires n < 1000
    ensures |NatToString(n)| <= 3
  {
    if n >= 10 {
      assert NatToString(n) == NatToString(n / 10) + [DigitChar(n % 10)];
      if n / 10 >= 10 {
        assert NatToString(n / 10) == NatToString(n / 100) + [DigitChar(n / 10 % 10)];
      }
    }
  }

  /** The printed form of a natural below 1000 reads back as that natural. */
  lemma CompactNumberRoundTrip(n: nat)
    requires n < 1000
    ensures DigitsValue(FormatCompactNumber(n)) == n
  {
    NatToStringRoundTrip(n);
  }

  /** `formatRating` on null or on an integral rating: `toFixed(1)` of an
      integer prints it with one zero decimal. */
  function FormatRating(rating: Option<int>): (s: string)
    requires rating.Some? ==> -1_000_000_000_000_000_000_000 < rating.value < 1_000_000_000_000_000_000_000
    ensures rating.None? <==> s == "-"
    ensures rating.Some? ==> |s| >= 3 && s[|s| - 2..] == ".0" && s[..|s| - 2] == IntToString(rating.value)
  {
    match rating
    case None => "-"
    case Some(n) => IntToString(n) + ".0"
  }

  // ------------------------------------------------------------------- initials

  /** `trimStart`. */
  function TrimStart(s: JsString): (r: JsString)
    ensures |r| <= |s| && r == s[|s| - |r|..]
    ensures forall i :: 0 <= i < |s| - |r| ==> IsJsSpace(s[i])
    ensures r != [] ==> !IsJsSpace(r[0])
  {
    if s != [] && IsJsSpace(s[0]) then
      var r := TrimStart(s[1..]);
      assert s[1..][|s[1..]| - |r|..] == s[|s| - |r|..];
      assert forall i :: 1 <= i < |s| - |r| ==> s[i] == s[1..][i - 1];
      r
    else s
  }

  /** `trimEnd`. */
  function TrimEnd(s: JsString): (r: JsString)
    ensures |r| <= |s| && r == s[..|r|]
    ensures forall i :: |r| <= i < |s| ==> IsJsSpace(s[i])
    ensures r != [] ==> !IsJsSpace(r[|r| - 1])
  {
    if s != [] && IsJsSpace(s[|s| - 1]) then
      var r := TrimEnd(s[..|s| - 1]);
      assert s[..|s| - 1][..|r|] == s[..|r|];
      r
    else s
  }

  /** `trim`. */
  function Trim(s: JsString): (r: JsString)
    ensures r == [] <==> forall i :: 0 <= i < |s| ==> IsJsSpace(s[i])
    ensures r != [] ==> !IsJsSpace(r[0]) && !IsJsSpace(r[|r| - 1])
    ensures r != [] ==> exists k :: 0 <= k < |s| && s[k] == r[0] && forall i :: 0 <= i < k ==> IsJsSpace(s[i])
  {
    TrimBoth(s);
    TrimEnd(TrimStart(s))
  }

  lemma TrimBoth(s: JsString)
    ensures var r := TrimEnd(TrimStart(s));
            && (r == [] <==> forall i :: 0 <= i < |s| ==> IsJsSpace(s[i]))
            && (r != [] ==> s[|s| - |TrimStart(s)|] == r[0] && forall i :: 0 <= i < |s| - |TrimStart(s)| ==> IsJsSpace(s[i]))
  {
    var a := TrimStart(s);
    var r := TrimEnd(a);
    if r == [] {
      assert a == [];
    } else {
      assert a[0] == r[0];
    }
  }

  predicate HasSpace(t: JsString)
  {
    exists i :: 0 <= i < |t| && IsJsSpace(t[i])
  }

  /** The index of the first whitespace character, or `|t|`. */
  function FirstSpace(t: JsString): (i: nat)
    ensures i <= |t|
    ensures i < |t| ==> IsJsSpace(t[i])
    ensures forall k :: 0 <= k < i ==> !IsJsSpace(t[k])
  {
    if t == [] || IsJsSpace(t[0]) then 0 else 1 + FirstSpace(t[1..])
  }

  /** The end of the whitespace run starting at `i`. */
  function SpaceRunEnd(t: JsString, i: nat): (j: nat)
    requires i <= |t|
    ensures i <= j <= |t|
    ensures forall k :: i <= k < j ==> IsJsSpace(t[k])
    ensures j < |t| ==> !IsJsSpace(t[j])
    decreases |t| - i
  {
    if i < |t| && IsJsSpace(t[i]) then SpaceRunEnd(t, i + 1) else i
  }

  /** `split(/\s+/)`: the pieces between whitespace runs. */
  function SplitWs(t: JsString): (parts: seq<JsString>)
    ensures |parts| >= 1
    ensures |parts| == 1 <==> !HasSpace(t)
    ensures parts[0] == t[..FirstSpace(t)]
    decreases |t|
  {
    var i := FirstSpace(t);
    if i == |t| then
      assert t[..i] == t;
      [t]
    else
      var j := SpaceRunEnd(t, i);
      [t[..i]] + SplitWs(t[j..])
  }

  /** The index just after the last whitespace character, or 0. */
  function AfterLastSpace(t: JsString): (k: nat)
    ensures k <= |t|
    ensures k > 0 ==> IsJsSpace(t[k - 1])
    ensures forall i :: k <= i < |t| ==> !IsJsSpace(t[i])
  {
    if t == [] then 0
    else if IsJsSpace(t[|t| - 1]) then |t|
    else AfterLastSpace(t[..|t| - 1])
  }

  lemma {:induction false} AfterLastSpaceShift(t: JsString, j: nat)
    requires 1 <= j <= |t| && IsJsSpace(t[j - 1])
    ensures AfterLastSpace(t) == j + AfterLastSpace(t[j..])
    decreases |t|
  {
    if |t| > j && !IsJsSpace(t[|t| - 1]) {
      var init := t[..|t| - 1];
      AfterLastSpaceShift(init, j);
      assert init[j..] == t[j..][..|t[j..]| - 1];
    }
  }

  /** The last piece of a split is what follows the last whitespace. */
  lemma {:induction false} LastPiece(t: JsString)
    ensures Last(SplitWs(t)) == t[AfterLastSpace(t)..]
    decreases |t|
  {
    var i := FirstSpace(t);
    if i == |t| {
      assert AfterLastSpace(t) == 0;
    } else {
      var j := SpaceRunEnd(t, i);
      var rest := SplitWs(t[j..]);
      assert SplitWs(t) == [t[..i]] + rest;
      var m := AfterLastSpace(t[j..]);
      calc {
        Last(SplitWs(t));
        { LastOfCons(t[..i], rest); }
        Last(rest);
        { LastPiece(t[j..]); }
        t[j..][m..];
        { DropDrop(t, j, m); }
        t[j + m..];
        { AfterLastSpaceShift(t, j); }
        t[AfterLastSpace(t)..];
      }
    }
  }

  function Last<T>(s: seq<T>): T
    requires s != []
  {
    s[|s| - 1]
  }

  lemma LastOfCons<T>(x: T, rest: seq<T>)
    requires rest != []
    ensures Last([x] + rest) == Last(rest)
  {
  }

  lemma DropDrop<T>(t: seq<T>, j: nat, m: nat)
    requires j + m <= |t|
    ensures t[j..][m..] == t[j + m..]
  {
  }

  /** `charAt(0)`: the first code unit, or "" for "". For a name starting
      above U+FFFF that is a lone high surrogate. */
  function FirstChar(s: JsString): (r: JsString)
    ensures s == [] ==> r == []
    ensures s != [] ==> r == [s[0]]
  {
    if s == [] then [] else [s[0]]
  }

  /** `getInitials`, with ASCII upper-casing. */
  function GetInitials(name: Option<JsString>): JsString
  {
    if name.None? || name.value == [] then Question
    else Initials(SplitWs(Trim(name.value)))
  }

  /** "?". */
  const Question: JsString := [0x3F]

  /** The initials of the pieces of a split name. */
  function Initials(parts: seq<JsString>): JsString
    requires |parts| >= 1
  {
    if |parts| == 1 then UpperUnits(FirstChar(parts[0]))
    else UpperUnits(FirstChar(parts[0]) + FirstChar(Last(parts)))
  }

  /** What `getInitials` shows: "?" for a missing name, "" for a blank one, the
      first letter of a single word, and the first letters of the first and
      last words otherwise. */
  lemma InitialsCases(name: Option<JsString>)
    ensures name.None? || name.value == [] ==> GetInitials(name) == Question
    ensures name.Some? && name.value != [] && Trim(name.value) == [] ==> GetInitials(name) == []
    ensures name.Some? && Trim(name.value) != [] && !HasSpace(Trim(name.value)) ==>
              GetInitials(name) == [UpperUnit(Trim(name.value)[0])]
    ensures name.Some? && HasSpace(Trim(name.value)) ==>
              var t := Trim(name.value);
              AfterLastSpace(t) < |t| &&
              GetInitials(name) == [UpperUnit(t[0]), UpperUnit(t[AfterLastSpace(t)])]
  {
    if name.Some? && name.value != [] {
      var t := Trim(name.value);
      if t != [] && HasSpace(t) {
        TwoWordInitials(t);
      } else if t != [] {
        OneWordInitials(t);
      }
    }
  }

  /** `charAt(0)` of a word starting above U+FFFF is its high surrogate
      alone: a name made of such a character, a space and a word has the
      lone surrogate as its first initial. */
  lemma AstralFirstInitial(c: char, w: JsString)
    requires c as int >= 0x1_0000
    requires w != [] && forall i :: 0 <= i < |w| ==> !IsJsSpace(w[i])
    ensures IsHighSurrogate(CharUnits(c)[0])
    ensures GetInitials(Some(CharUnits(c) + [0x20] + w)) == [CharUnits(c)[0], UpperUnit(w[0])]
  {
    var us := CharUnits(c);
    PairFirstInitial(us[0], us[1], w);
    assert us == [us[0], us[1]];
  }

  lemma PairFirstInitial(hi: CodeUnit, lo: CodeUnit, w: JsString)
    requires IsHighSurrogate(hi)
    requires w != [] && forall i :: 0 <= i < |w| ==> !IsJsSpace(w[i])
    ensures GetInitials(Some([hi, lo] + [0x20] + w)) == [hi, UpperUnit(w[0])]
  {
    var p: JsString := [hi, lo, 0x20];
    var t := p + w;
    assert [hi, lo] + [0x20] + w == t;
    assert t[0] == hi && t[|t| - 1] == w[|w| - 1] && t[3] == w[0];
    InitialsOfTrimmed(t);
    AfterLastSpaceAfterWord(p, w);
    TwoWordInitials(t);
  }

  /** A name that neither starts nor ends with whitespace is its own trim. */
  lemma InitialsOfTrimmed(t: JsString)
    requires t != [] && !IsJsSpace(t[0]) && !IsJsSpace(t[|t| - 1])
    ensures GetInitials(Some(t)) == Initials(SplitWs(t))
  {
    TrimStartStops(t);
    TrimEndStops(t);
  }

  /** After text ending in whitespace, a word without whitespace is the last
      piece. */
  lemma AfterLastSpaceAfterWord(p: JsString, w: JsString)
    requires p != [] && IsJsSpace(p[|p| - 1])
    requires forall i :: 0 <= i < |w| ==> !IsJsSpace(w[i])
    ensures HasSpace(p + w)
    ensures AfterLastSpace(p + w) == |p|
  {
    var t := p + w;
    assert IsJsSpace(t[|p| - 1]);
    assert forall i :: |p| <= i < |t| ==> t[i] == w[i - |p|];
  }

  lemma TrimStartStops(s: JsString)
    requires s != [] && !IsJsSpace(s[0])
    ensures TrimStart(s) == s
  {
  }

  lemma TrimEndStops(s: JsString)
    requires s != [] && !IsJsSpace(s[|s| - 1])
    ensures TrimEnd(s) == s
  {
  }

  /** A trimmed name without whitespace is one word. */
  lemma OneWordInitials(t: JsString)
    requires t != [] && !IsJsSpace(t[0]) && !HasSpace(t)
    ensures Initials(SplitWs(t)) == [UpperUnit(t[0])]
  {
    var parts := SplitWs(t);
    assert FirstSpace(t) > 0;
    assert parts == [parts[0]] && parts[0][0] == t[0];
  }

  /** A trimmed name with whitespace inside has a first and a last word. */
  lemma TwoWordInitials(t: JsString)
    requires t != [] && !IsJsSpace(t[0]) && !IsJsSpace(t[|t| - 1]) && HasSpace(t)
    ensures AfterLastSpace(t) < |t|
    ensures Initials(SplitWs(t)) == [UpperUnit(t[0]), UpperUnit(t[AfterLastSpace(t)])]
  {
    var parts := SplitWs(t);
    var k := AfterLastSpace(t);
    assert k < |t|;
    assert FirstSpace(t) > 0;
    assert parts[0][0] == t[0];
    LastPiece(t);
    assert Last(parts)[0] == t[k];
    FirstAndLastInitials(parts);
  }

  lemma FirstAndLastInitials(parts: seq<JsString>)
    requires |parts| > 1 && parts[0] != [] && Last(parts) != []
    ensures Initials(parts) == [UpperUnit(parts[0][0]), UpperUnit(Last(parts)[0])]
  {
    assert FirstChar(parts[0]) + FirstChar(Last(parts)) == [parts[0][0], Last(parts)[0]];
  }

  // -------------------------------------------------------------- avatar colour

  const Palette: seq<string> := ["#6B7FFF", "#10B981", "#F59E0B", "#EC4899", "#8B5CF6", "#14B8A6", "#F97316", "#06B6D4"]

  /** JavaScript's ToInt32: the value modulo 2^32, read as a signed 32-bit
      integer. */
  function ToInt32(x: int): (r: int)
    ensures -0x8000_0000 <= r < 0x8000_0000
    ensures (r - x) % 0x1_0000_0000 == 0
  {
    var m := x % 0x1_0000_0000;
    if m >= 0x8000_0000 then m - 0x1_0000_0000 else m
  }

  /** One step of the loop: `code + ((hash << 5) - hash)`. Only the shift
      wraps to 32 bits; the subtraction and the addition are plain number
      arithmetic. */
  function HashStep(hash: int, code: int): int
  {
    code + (ToInt32(ToInt32(hash) * 32) - hash)
  }

  /** The hash after the whole string, one step per `charCodeAt`, that is
      per UTF-16 unit. */
  function Hash(s: JsString): int
  {
    if s == [] then 0 else HashStep(Hash(s[..|s| - 1]), s[|s| - 1])
  }

  /** Each step moves the hash by less than 2^32, so every intermediate value
      of a string shorter than 2^21 stays below 2^53 in magnitude, where
      number arithmetic is exact. */
  lemma {:induction false} HashBound(s: JsString)
    ensures -|s| * 0x1_0000_0000 <= Hash(s) <= |s| * 0x1_0000_0000
  {
    if s != [] {
      HashBound(s[..|s| - 1]);
    }
  }

  function Abs(x: int): nat { if x < 0 then -x else x }

  /** `stringToColor`. */
  function StringToColor(s: JsString): (c: string)
    ensures c in Palette
  {
    Palette[Abs(Hash(s)) % 8]
  }

  /** The colour depends on the hash alone: two strings whose hashes agree
      in magnitude modulo 8 share a colour. */
  lemma SameHashSameColour(s: JsString, t: JsString)
    requires Abs(Hash(s)) % 8 == Abs(Hash(t)) % 8
    ensures StringToColor(s) == StringToColor(t)
  {
  }

  /** The empty string and a one-unit string: the hash of "" is 0 and the
      hash of one unit is its code. */
  lemma StringToColorSmall(u: CodeUnit)
    ensures StringToColor([]) == "#6B7FFF"
    ensures StringToColor([u]) == Palette[u % 8]
  {
    assert [u][..0] == [];
  }

  /** A character above U+FFFF is hashed as its two surrogates: U+1F600 is
      0xD83D then 0xDE00, whose hash 1772899 picks the fourth colour, not the
      colour of its code point 0x1F600. */
  lemma StringToColorAstral()
    ensures Encode("\U{1F600}") == [0xD83D, 0xDE00]
    ensures Hash(Encode("\U{1F600}")) == 1772899
    ensures StringToColor(Encode("\U{1F600}")) == "#EC4899" != Palette[0x1F600 % 8]
  {
    var s: JsString := [0xD83D, 0xDE00];
    assert Encode("\U{1F600}") == s;
    assert s[..1] == [0xD83D] && [0xD83D][..0] == [];
    assert Hash([0xD83D]) == 0xD83D;
  }

  // ----------------------------------------------------------- location and trip

  /** `formatLocation`. */
  function FormatLocation(city: Option<string>, country: Option<string>): (s: string)
    ensures s != ""
    ensures Truthy(city) && Truthy(country) ==> s == city.value + ", " + country.value
    ensures Truthy(city) && !Truthy(country) ==> s == city.value
    ensures !Truthy(city) && Truthy(country) ==> s == country.value
    ensures !Truthy(city) && !Truthy(country) ==> s == "Unknown location"
  {
    if Truthy(city) && Truthy(country) then city.value + ", " + country.value
    else if Truthy(city) then city.value
    else if Truthy(country) then country.value
    else "Unknown location"
  }

  /** The labels of the known trip types. */
  const TripLabels: map<string, string> := map[
    "honeymoon" := "Honeymoon",
    "girls_trip" := "Girls Trip",
    "solo" := "Solo Travel",
    "work" := "Business",
    "family" := "Family",
    "couples" := "Couples",
    "friends" := "Friends"]

  /** `formatTripType`: a known key reads as its label (every label is
      non-empty, so the fallback never applies to it), anything else as
      itself. */
  function FormatTripType(tripType: Option<string>): (s: string)
    ensures s == "" <==> !Truthy(tripType)
    ensures Truthy(tripType) && tripType.value in TripLabels ==> s == TripLabels[tripType.value]
    ensures Truthy(tripType) && tripType.value !in TripLabels ==> s == tripType.value
  {
    if !Truthy(tripType) then ""
    else if tripType.value in TripLabels && TripLabels[tripType.value] != "" then TripLabels[tripType.value]
    else tripType.value
  }

  /** Exactly seven trip types have labels. */
  lemma SevenTripTypes()
    ensures |TripLabels| == 7
    ensures forall k :: k in TripLabels ==> TripLabels[k] != ""
  {
  }

  // ------------------------------------------------------------------ truncation

  /** `slice(0, end)` for an end that may be negative (counted from the back). */
  function SliceTo(s: JsString, end: int): (r: JsString)
    ensures end >= 0 ==> r == s[..Min(end, |s|)]
    ensures end < 0 ==> r == s[..Max(|s| + end, 0)]
  {
    var e := if end < 0 then Max(|s| + end, 0) else Min(end, |s|);
    s[..e]
  }

  /** "...". */
  const Ellipsis: JsString := [0x2E, 0x2E, 0x2E]

  /** `truncateText`: lengths and the cut are in UTF-16 units. */
  function TruncateText(text: JsString, maxLength: int): (r: JsString)
    ensures |text| <= maxLength ==> r == text
    ensures |text| > maxLength ==> r == SliceTo(text, maxLength - 3) + Ellipsis
    ensures |text| > maxLength && maxLength >= 3 ==> |r| == maxLength && r[..maxLength - 3] == text[..maxLength - 3]
  {
    if |text| <= maxLength then text else SliceTo(text, maxLength - 3) + Ellipsis
  }

  /** "a" followed by U+1F600 is three units long, so a limit of 2 cuts it,
      and the cut keeps the lone high surrogate. */
  lemma TruncateSplitsPair()
    ensures TruncateText(Encode("a\U{1F600}"), 2) == [0x61, 0xD83D] + Ellipsis
  {
    var s: JsString := [0x61, 0xD83D, 0xDE00];
    assert Encode("a\U{1F600}") == s by {
      assert "a\U{1F600}"[1..] == "\U{1F600}";
      assert Encode("\U{1F600}") == [0xD83D, 0xDE00] by {
        assert "\U{1F600}"[1..] == [];
      }
    }
    assert s[..2] == [0x61, 0xD83D];
  }

  /** Below three the cut counts from the back, and the result is longer than
      the limit. */
  lemma TruncateBelowThree(text: JsString, maxLength: int)
    requires maxLength < 3 && |text| > maxLength
    ensures |TruncateText(text, maxLength)| > maxLength
  {
  }
}

=== FILE: hotels.dfy ===
/** Hotel reads: `getHotels` with its filters, `getHotel`, and `getAllTags`,
    together with the per-hotel aggregates both hotel queries attach. */
module Hotels {
  import opened Common
  import opened Text
  import opened Schema
  import opened Sorting
  import opened SqlLike

  datatype HotelWithDetails = HotelWithDetails(
    hotel: Hotel,
    tags: seq<HotelTag>,
    avgRating: Option<real>,
    reviewCount: nat,
    isSaved: bool)

  /** The sum of `rating_overall` over `rs`. */
  function RatingSum(rs: seq<Review>): int
  {
    if rs == [] then 0 else RatingSum(rs[..|rs| - 1]) + rs[|rs| - 1].ratingOverall
  }

  lemma {:induction false} RatingSumBounds(rs: seq<Review>)
    requires forall r :: r in rs ==> 1 <= r.ratingOverall <= 5
    ensures |rs| <= RatingSum(rs) <= 5 * |rs|
  {
    if rs != [] {
      assert forall r :: r in rs[..|rs| - 1] ==> r in rs;
      RatingSumBounds(rs[..|rs| - 1]);
    }
  }

  /** `AVG(rating_overall)`: NULL over no rows, otherwise the exact mean. */
  function Average(rs: seq<Review>): (a: Option<real>)
    ensures a.None? <==> rs == []
    ensures a.Some? ==> a.value * |rs| as real == RatingSum(rs) as real
  {
    if rs == [] then None else Some(RatingSum(rs) as real / |rs| as real)
  }

  function HotelReviews(db: Db, hotelId: Id): seq<Review>
  {
    Filter(db.reviews, ReviewsOf(hotelId))
  }

  /** Some row of `hotel_tag_map` links the hotel to the tag. */
  predicate Linked(db: Db, hotelId: Id, tagId: Id)
  {
    exists l :: l in db.tagMap && l.hotelId == hotelId && l.tagId == tagId
  }

  /** `hotel_tags ht JOIN hotel_tag_map htm ON ht.id = htm.tag_id WHERE htm.hotel_id = ?`. */
  function TagsOfHotel(db: Db, hotelId: Id): HotelTag -> bool
  {
    (t: HotelTag) => Linked(db, hotelId, t.id)
  }

  /** The tags linked to a hotel, in table order. */
  function HotelTags(db: Db, hotelId: Id): (ts: seq<HotelTag>)
    ensures forall t :: t in ts <==> t in db.tags && Linked(db, hotelId, t.id)
  {
    var p := TagsOfHotel(db, hotelId);
    var ts := Filter(db.tags, p);
    assert forall t :: p(t) == Linked(db, hotelId, t.id);
    ts
  }

  /** The number of reviews of a hotel. */
  function ReviewCount(db: Db, hotelId: Id): (n: nat)
    ensures n == |IndicesWhere(db.reviews, ReviewsOf(hotelId))|
    ensures n == |HotelReviews(db, hotelId)|
  {
    FilterCount(db.reviews, ReviewsOf(hotelId));
    |HotelReviews(db, hotelId)|
  }

  /** A hotel row with its tags, its review count and its average rating, and
      `is_saved` false. */
  function Enrich(db: Db, h: Hotel): (d: HotelWithDetails)
    ensures d.hotel == h && !d.isSaved
    ensures d.reviewCount == |IndicesWhere(db.reviews, ReviewsOf(h.id))|
    ensures d.avgRating == Average(HotelReviews(db, h.id))
    ensures d.avgRating.None? <==> d.reviewCount == 0
    ensures forall t :: t in d.tags <==> t in db.tags && Linked(db, h.id, t.id)
  {
    HotelWithDetails(h, HotelTags(db, h.id), Average(HotelReviews(db, h.id)), ReviewCount(db, h.id), false)
  }

  /** A real `x` whose product with a positive `n` is non-negative is itself
      non-negative. */
  lemma FactorNonNegative(x: real, n: real)
    requires n > 0.0 && x * n >= 0.0
    ensures x >= 0.0
  {
  }

  /** The mean of ratings that lie in 1..5 lies in 1..5. */
  lemma AverageInRange(rs: seq<Review>)
    requires forall r :: r in rs ==> 1 <= r.ratingOverall <= 5
    ensures Average(rs).Some? ==> 1.0 <= Average(rs).value <= 5.0
  {
    RatingSumBounds(rs);
    if rs != [] {
      var a, n, s := Average(rs).value, |rs| as real, RatingSum(rs) as real;
      assert (a - 1.0) * n == s - n;
      assert (5.0 - a) * n == 5.0 * n - s;
      FactorNonNegative(a - 1.0, n);
      FactorNonNegative(5.0 - a, n);
    }
  }

  /** Ratings are checked to lie in 1..5, so a hotel's average does too. */
  lemma AvgRatingInRange(db: Db, h: Hotel)
    requires Valid(db)
    ensures Enrich(db, h).avgRating.Some? ==> 1.0 <= Enrich(db, h).avgRating.value <= 5.0
  {
    var rs := HotelReviews(db, h.id);
    forall r | r in rs ensures 1 <= r.ratingOverall <= 5 {
      assert r in db.reviews;
    }
    AverageInRange(rs);
  }

  datatype Bounds = Bounds(north: real, south: real, east: real, west: real)

  /** `HotelFilters`; `tags` and `min_rating` are accepted but never read. */
  datatype HotelFilters = HotelFilters(
    query: Option<string>,
    tags: seq<string>,
    priceTier: seq<string>,
    minRating: Option<real>,
    bounds: Option<Bounds>)

  /** `getHotels()` called without filters. */
  const NoFilters := HotelFilters(None, [], [], None, None)

  /** `h.name LIKE ? OR h.city LIKE ? OR h.country LIKE ?` with `%q%`; a NULL
      column never matches. */
  predicate QueryMatches(h: Hotel, q: string)
  {
    var pattern := "%" + q + "%";
    || Like(h.name, pattern)
    || (h.city.Some? && Like(h.city.value, pattern))
    || (h.country.Some? && Like(h.country.value, pattern))
  }

  /** `h.lat >= south AND h.lat <= north AND h.lng >= west AND h.lng <= east`;
      a NULL coordinate fails every comparison. */
  predicate InBounds(h: Hotel, b: Bounds)
  {
    h.lat.Some? && h.lng.Some?
    && b.south <= h.lat.value <= b.north && b.west <= h.lng.value <= b.east
  }

  /** `h.price_tier IN (...)`; NULL is in no list. */
  predicate TierMatches(h: Hotel, tiers: seq<string>)
  {
    h.priceTier.Some? && h.priceTier.value in tiers
  }

  /** The `WHERE` clause `getHotels` assembles. A filter takes part only when
      it is truthy: a non-empty query, any bounds, a non-empty tier list. */
  predicate Selected(h: Hotel, query: Option<string>, bounds: Option<Bounds>, tiers: seq<string>)
  {
    && (query.Some? && query.value != "" ==> QueryMatches(h, query.value))
    && (bounds.Some? ==> InBounds(h, bounds.value))
    && (|tiers| > 0 ==> TierMatches(h, tiers))
  }

  function Selects(query: Option<string>, bounds: Option<Bounds>, tiers: seq<string>): Hotel -> bool
  {
    (h: Hotel) => Selected(h, query, bounds, tiers)
  }

  /** `ORDER BY h.name`. */
  function NameLe(a: Hotel, b: Hotel): bool
  {
    StrLe(a.name, b.name)
  }

  lemma NameLeIsTotalPreorder()
    ensures IsTotalPreorder(NameLe)
  {
    forall a, b ensures NameLe(a, b) || NameLe(b, a) {
      StrLeTotal(a.name, b.name);
    }
    forall a, b, c | NameLe(a, b) && NameLe(b, c) ensures NameLe(a, c) {
      StrLeTransitive(a.name, b.name, c.name);
    }
  }

  function HotelsOf(ds: seq<HotelWithDetails>): (hs: seq<Hotel>)
    ensures |hs| == |ds|
    ensures forall i :: 0 <= i < |ds| ==> hs[i] == ds[i].hotel
  {
    seq(|ds|, i requires 0 <= i < |ds| => ds[i].hotel)
  }

  function EnrichAll(db: Db, hs: seq<Hotel>): (ds: seq<HotelWithDetails>)
    ensures |ds| == |hs|
    ensures forall i :: 0 <= i < |hs| ==> ds[i] == Enrich(db, hs[i])
  {
    seq(|hs|, i requires 0 <= i < |hs| => Enrich(db, hs[i]))
  }

  /** The hotel rows `getHotels` returns: those the filters select, ordered
      by name. */
  function SelectedHotels(db: Db, f: HotelFilters): (hs: seq<Hotel>)
    ensures forall h :: h in hs <==> h in db.hotels && Selected(h, f.query, f.bounds, f.priceTier)
    ensures forall i, j :: 0 <= i < j < |hs| ==> StrLe(hs[i].name, hs[j].name)
    ensures multiset(hs) == multiset(Filter(db.hotels, Selects(f.query, f.bounds, f.priceTier)))
  {
    NameLeIsTotalPreorder();
    var p := Selects(f.query, f.bounds, f.priceTier);
    var hs := Sort(Filter(db.hotels, p), NameLe);
    assert forall h :: h in hs <==> h in multiset(hs);
    hs
  }

  /** `getHotels`: the selected hotels in name order, each with its details. */
  function GetHotels(db: Db, f: HotelFilters): (r: seq<HotelWithDetails>)
    ensures HotelsOf(r) == SelectedHotels(db, f)
    ensures forall i :: 0 <= i < |r| ==> r[i] == Enrich(db, r[i].hotel) && !r[i].isSaved
  {
    EnrichAll(db, SelectedHotels(db, f))
  }

  /** The `tags` and `min_rating` filters do not change the answer. */
  lemma IgnoredFilters(db: Db, f: HotelFilters, tags: seq<string>, minRating: Option<real>)
    ensures GetHotels(db, f.(tags := tags, minRating := minRating)) == GetHotels(db, f)
  {
  }

  /** Without filters every hotel is listed. */
  lemma NoFiltersListsAll(db: Db)
    ensures multiset(HotelsOf(GetHotels(db, NoFilters))) == multiset(db.hotels)
  {
    var p := Selects(None, None, []);
    assert forall h :: p(h);
    FilterKeepsAll(db.hotels, p);
  }

  /** With a search text free of `%` and `_`, the query filter is ASCII
      case-insensitive containment in the name, the city or the country. */
  lemma QueryIsContainment(h: Hotel, q: string)
    requires WildcardFree(q)
    ensures QueryMatches(h, q) <==>
              || ContainsFolded(h.name, q)
              || (h.city.Some? && ContainsFolded(h.city.value, q))
              || (h.country.Some? && ContainsFolded(h.country.value, q))
  {
    ContainsAsLike(h.name, q);
    if h.city.Some? {
      ContainsAsLike(h.city.value, q);
    }
    if h.country.Some? {
      ContainsAsLike(h.country.value, q);
    }
  }

  /** `getHotel`: the hotel with that id and its details, or `null`. */
  function GetHotel(db: Db, id: Id): (r: Option<HotelWithDetails>)
    ensures r.None? <==> forall h :: h in db.hotels ==> h.id != id
    ensures r.Some? ==> r.value.hotel in db.hotels && r.value.hotel.id == id
    ensures r.Some? ==> r.value == Enrich(db, r.value.hotel)
  {
    match FindBy(db.hotels, HotelId, id)
    case None => None
    case Some(h) => Some(Enrich(db, h))
  }

  /** Under the primary key `getHotel` returns the stored hotel with that id. */
  lemma GetHotelFinds(db: Db, h: Hotel)
    requires Valid(db) && h in db.hotels
    ensures GetHotel(db, h.id) == Some(Enrich(db, h))
  {
    FindByUnique(db.hotels, HotelId, h.id, h);
  }

  /** `ORDER BY name` on tags. */
  function TagNameLe(a: HotelTag, b: HotelTag): bool
  {
    StrLe(a.name, b.name)
  }

  /** `getAllTags`: every tag, ordered by name. */
  function GetAllTags(db: Db): (r: seq<HotelTag>)
    ensures multiset(r) == multiset(db.tags)
    ensures forall i, j :: 0 <= i < j < |r| ==> StrLe(r[i].name, r[j].name)
  {
    forall a, b ensures TagNameLe(a, b) || TagNameLe(b, a) {
      StrLeTotal(a.name, b.name);
    }
    forall a, b, c | TagNameLe(a, b) && TagNameLe(b, c) ensures TagNameLe(a, c) {
      StrLeTransitive(a.name, b.name, c.name);
    }
    Sort(db.tags, TagNameLe)
  }
}

=== FILE: lists.dfy ===
/** Saved-hotel lists: `getUserLists`, `getListWithHotels`,
    `getOrCreateDefaultList`, `createList`, `saveHotelToList`,
    `removeHotelFromList` and `isHotelSaved`. */
module Lists {
  import opened Common
  import opened Schema
  import opened Sorting
  import opened Hotels

  /** A list row with `COUNT(*)` of its items. */
  datatype ListWithCount = ListWithCount(list: List, hotelCount: nat)

  /** A list row with the hotels it holds. */
  datatype ListWithHotels = ListWithHotels(list: List, hotels: seq<HotelWithDetails>)

  /** `ORDER BY l.is_default DESC, l.created_at DESC`. */
  function DefaultThenNewest(a: List, b: List): bool
  {
    (a.isDefault && !b.isDefault) || (a.isDefault == b.isDefault && a.createdAt >= b.createdAt)
  }

  lemma DefaultThenNewestIsTotalPreorder()
    ensures IsTotalPreorder(DefaultThenNewest)
  {
  }

  /** `(SELECT COUNT(*) FROM list_items WHERE list_id = l.id)`. */
  function ItemCount(db: Db, listId: Id): (n: nat)
    ensures n == |IndicesWhere(db.listItems, ItemsOf(listId))|
  {
    FilterCount(db.listItems, ItemsOf(listId));
    |Filter(db.listItems, ItemsOf(listId))|
  }

  /** The lists of a user, default first and then newest first. */
  function UserListRows(db: Db, userId: Id): (ls: seq<List>)
    ensures forall l :: l in ls <==> l in db.lists && l.userId == userId
    ensures forall i, j :: 0 <= i < j < |ls| ==> DefaultThenNewest(ls[i], ls[j])
    ensures multiset(ls) == multiset(Filter(db.lists, ListsOf(userId)))
  {
    DefaultThenNewestIsTotalPreorder();
    var ls := Sort(Filter(db.lists, ListsOf(userId)), DefaultThenNewest);
    assert forall l :: l in ls <==> l in multiset(ls);
    ls
  }

  function ListsIn(r: seq<ListWithCount>): (ls: seq<List>)
    ensures |ls| == |r|
    ensures forall i :: 0 <= i < |r| ==> ls[i] == r[i].list
  {
    seq(|r|, i requires 0 <= i < |r| => r[i].list)
  }

  function CountAll(db: Db, ls: seq<List>): (r: seq<ListWithCount>)
    ensures ListsIn(r) == ls
    ensures forall i :: 0 <= i < |r| ==> r[i].hotelCount == ItemCount(db, r[i].list.id)
  {
    seq(|ls|, i requires 0 <= i < |ls| => ListWithCount(ls[i], ItemCount(db, ls[i].id)))
  }

  /** `getUserLists`: the user's lists with their item counts. */
  function GetUserLists(db: Db, userId: Id): (r: seq<ListWithCount>)
    ensures ListsIn(r) == UserListRows(db, userId)
    ensures forall i :: 0 <= i < |r| ==> r[i].hotelCount == |IndicesWhere(db.listItems, ItemsOf(r[i].list.id))|
  {
    CountAll(db, UserListRows(db, userId))
  }

  /** A user with a default list sees it first. */
  lemma DefaultListFirst(db: Db, userId: Id, d: List)
    requires d in db.lists && d.userId == userId && d.isDefault
    ensures |GetUserLists(db, userId)| > 0 && GetUserLists(db, userId)[0].list.isDefault
  {
    var ls := UserListRows(db, userId);
    assert d in ls;
    var k :| 0 <= k < |ls| && ls[k] == d;
    if k > 0 {
      assert DefaultThenNewest(ls[0], ls[k]);
    }
  }

  /** The list with that id, the first in table order. */
  function FindList(db: Db, listId: Id): (r: Option<List>)
    ensures r.None? <==> forall l :: l in db.lists ==> l.id != listId
    ensures r.Some? ==> r.value in db.lists && r.value.id == listId
  {
    FindBy(db.lists, ListId, listId)
  }

  /** For each item in turn, `getHotel(hotel_id)`; missing hotels are skipped
      and the rest are marked saved. */
  function HotelsForItems(db: Db, items: seq<ListItem>): (r: seq<HotelWithDetails>)
    ensures |r| <= |items|
    ensures forall d :: d in r ==>
              && d.hotel in db.hotels && d.isSaved
              && d == Enrich(db, d.hotel).(isSaved := true)
              && exists it :: it in items && it.hotelId == d.hotel.id
    ensures forall it :: it in items && (exists h :: h in db.hotels && h.id == it.hotelId) ==>
              exists d :: d in r && d.hotel.id == it.hotelId
  {
    HotelRowsFacts(db, items);
    HotelRows(db, items)
  }

  /** The loop itself: the hotels pushed so far, in item order. */
  function HotelRows(db: Db, items: seq<ListItem>): seq<HotelWithDetails>
  {
    if items == [] then []
    else
      var init := HotelRows(db, items[..|items| - 1]);
      match GetHotel(db, items[|items| - 1].hotelId)
      case None => init
      case Some(d) => init + [d.(isSaved := true)]
  }

  lemma HotelRowsFacts(db: Db, items: seq<ListItem>)
    ensures var r := HotelRows(db, items);
            && |r| <= |items|
            && (forall d :: d in r ==>
                  && d.hotel in db.hotels && d.isSaved
                  && d == Enrich(db, d.hotel).(isSaved := true)
                  && exists it :: it in items && it.hotelId == d.hotel.id)
            && (forall it :: it in items && (exists h :: h in db.hotels && h.id == it.hotelId) ==>
                  exists d :: d in r && d.hotel.id == it.hotelId)
  {
    HotelRowsShort(db, items);
    HotelRowsSound(db, items);
    HotelRowsComplete(db, items);
  }

  lemma {:induction false} HotelRowsShort(db: Db, items: seq<ListItem>)
    ensures |HotelRows(db, items)| <= |items|
    decreases |items|
  {
    if items != [] {
      HotelRowsShort(db, items[..|items| - 1]);
    }
  }

  /** Every pushed hotel is a stored hotel of some item, enriched and saved. */
  lemma {:induction false} HotelRowsSound(db: Db, items: seq<ListItem>)
    ensures forall d :: d in HotelRows(db, items) ==>
              && d.hotel in db.hotels && d.isSaved
              && d == Enrich(db, d.hotel).(isSaved := true)
              && exists it :: it in items && it.hotelId == d.hotel.id
    decreases |items|
  {
    if items != [] {
      var init := items[..|items| - 1];
      var last := items[|items| - 1];
      HotelRowsSound(db, init);
      forall d | d in HotelRows(db, items)
        ensures exists it :: it in items && it.hotelId == d.hotel.id
      {
        if d in HotelRows(db, init) {
          var it :| it in init && it.hotelId == d.hotel.id;
          assert it in items;
        } else {
          assert last in items;
        }
      }
    }
  }

  /** Every item whose hotel is stored has its hotel pushed. */
  lemma {:induction false} HotelRowsComplete(db: Db, items: seq<ListItem>)
    ensures forall it :: it in items && (exists h :: h in db.hotels && h.id == it.hotelId) ==>
              exists d :: d in HotelRows(db, items) && d.hotel.id == it.hotelId
    decreases |items|
  {
    if items != [] {
      var init := items[..|items| - 1];
      var last := items[|items| - 1];
      HotelRowsComplete(db, init);
      assert items == init + [last];
      forall it | it in items && (exists h :: h in db.hotels && h.id == it.hotelId)
        ensures exists d :: d in HotelRows(db, items) && d.hotel.id == it.hotelId
      {
        if it in init {
          var d :| d in HotelRows(db, init) && d.hotel.id == it.hotelId;
          assert d in HotelRows(db, items);
        } else {
          var d := GetHotel(db, last.hotelId).value;
          assert d.(isSaved := true) in HotelRows(db, items);
        }
      }
    }
  }

  /** The loop visits the items in order: the hotels of two runs of items are
      the hotels of the first run followed by those of the second. */
  lemma {:induction false} HotelsForItemsAppend(db: Db, a: seq<ListItem>, b: seq<ListItem>)
    ensures HotelsForItems(db, a + b) == HotelsForItems(db, a) + HotelsForItems(db, b)
  {
    HotelRowsAppend(db, a, b);
  }

  lemma {:induction false} HotelRowsAppend(db: Db, a: seq<ListItem>, b: seq<ListItem>)
    ensures HotelRows(db, a + b) == HotelRows(db, a) + HotelRows(db, b)
    decreases |b|
  {
    if b == [] {
      assert a + b == a;
    } else {
      var init := b[..|b| - 1];
      assert (a + b)[..|a + b| - 1] == a + init;
      assert (a + b)[|a + b| - 1] == b[|b| - 1];
      HotelRowsAppend(db, a, init);
    }
  }

  /** One item yields its hotel, enriched and marked saved, or nothing when
      the hotel is missing. */
  lemma HotelsForItem(db: Db, it: ListItem)
    ensures HotelsForItems(db, [it]) ==
              match GetHotel(db, it.hotelId)
              case None => []
              case Some(d) => [d.(isSaved := true)]
  {
    assert [it][..0] == [];
    assert HotelsForItems(db, [it]) == HotelRows(db, [it]);
  }

  /** `getListWithHotels`: the list and the hotels of its items, or `null`
      when there is no such list. */
  function GetListWithHotels(db: Db, listId: Id): (r: Option<ListWithHotels>)
    ensures r.None? <==> forall l :: l in db.lists ==> l.id != listId
    ensures r.Some? ==> r.value.list in db.lists && r.value.list.id == listId
    ensures r.Some? ==> forall d :: d in r.value.hotels ==>
              && d.hotel in db.hotels && d.isSaved
              && d == Enrich(db, d.hotel).(isSaved := true)
              && (listId, d.hotel.id) in ItemPairs(db)
    ensures r.Some? ==> forall h :: h in db.hotels && (listId, h.id) in ItemPairs(db) ==>
              exists d :: d in r.value.hotels && d.hotel.id == h.id
  {
    match FindList(db, listId)
    case None => None
    case Some(l) =>
      ListHotelsCovered(db, listId);
      Some(ListWithHotels(l, HotelsForItems(db, Filter(db.listItems, ItemsOf(listId)))))
  }

  /** The hotels of a list's items are exactly the saved hotels of its pairs. */
  lemma ListHotelsCovered(db: Db, listId: Id)
    ensures var hs := HotelsForItems(db, Filter(db.listItems, ItemsOf(listId)));
            && (forall d :: d in hs ==>
                  && d.hotel in db.hotels && d.isSaved
                  && d == Enrich(db, d.hotel).(isSaved := true)
                  && (listId, d.hotel.id) in ItemPairs(db))
            && (forall h :: h in db.hotels && (listId, h.id) in ItemPairs(db) ==> exists d :: d in hs && d.hotel.id == h.id)
  {
    var items := Filter(db.listItems, ItemsOf(listId));
    var hs := HotelsForItems(db, items);
    forall d | d in hs
      ensures (listId, d.hotel.id) in ItemPairs(db)
    {
      var it :| it in items && it.hotelId == d.hotel.id;
      assert ItemKey(it) in ItemPairs(db);
    }
    forall h | h in db.hotels && (listId, h.id) in ItemPairs(db)
      ensures exists d :: d in hs && d.hotel.id == h.id
    {
      var it :| it in db.listItems && ItemKey(it) == (listId, h.id);
      assert it in items;
    }
  }

  /** The key `WHERE user_id = ? AND is_default = 1` selects on. */
  function DefaultKey(l: List): (Id, bool)
  {
    (l.userId, l.isDefault)
  }

  predicate HasDefaultList(db: Db, userId: Id)
  {
    exists l :: l in db.lists && l.userId == userId && l.isDefault
  }

  predicate ListIdTaken(db: Db, id: Id)
  {
    exists l :: l in db.lists && l.id == id
  }

  /** The name a default list is created with. */
  const DefaultListName := "Saved"

  /** Insert a list row; a taken id fails and changes nothing. */
  function InsertList(db: Db, row: List): (o: Outcome<Db, List>)
    ensures o.result.Err? <==> ListIdTaken(db, row.id)
    ensures o.result.Err? ==> o == Outcome(db, Err(UniqueViolation("lists.id")))
    ensures o.result.Ok? ==> o == Outcome(db.(lists := db.lists + [row]), Ok(row))
    ensures o.result.Ok? ==> FindList(o.state, row.id) == Some(row)
    ensures Valid(db) ==> Valid(o.state)
  {
    if ListIdTaken(db, row.id) then
      Outcome(db, Err(UniqueViolation("lists.id")))
    else
      assert (db.lists + [row])[|db.lists|] == row;
      if Valid(db) then
        AppendKeepsDistinct(db.lists, ListId, row);
        Outcome(db.(lists := db.lists + [row]), Ok(row))
      else
        Outcome(db.(lists := db.lists + [row]), Ok(row))
  }

  /** `getOrCreateDefaultList`: the user's first default list, or else a new
      default list named "Saved" under the drawn id `id`. */
  function GetOrCreateDefaultList(db: Db, userId: Id, id: Id, now: Timestamp): (o: Outcome<Db, List>)
    ensures HasDefaultList(db, userId) ==> o.state == db && o.result.Ok?
    ensures o.result.Err? <==> !HasDefaultList(db, userId) && ListIdTaken(db, id)
    ensures o.result.Err? ==> o.state == db
    ensures !HasDefaultList(db, userId) && o.result.Ok? ==>
              && o.result.value == List(id, userId, DefaultListName, true, now)
              && o.state == db.(lists := db.lists + [o.result.value])
    ensures o.result.Ok? ==>
              && o.result.value in o.state.lists
              && o.result.value.userId == userId && o.result.value.isDefault
    ensures o.result.Ok? ==> HasDefaultList(o.state, userId)
    ensures Valid(db) ==> Valid(o.state)
    ensures AtMostOneDefault(db) ==> AtMostOneDefault(o.state)
  {
    match FindBy(db.lists, DefaultKey, (userId, true))
    case Some(l) => Outcome(db, Ok(l))
    case None =>
      assert !HasDefaultList(db, userId) by {
        forall l | l in db.lists ensures !(l.userId == userId && l.isDefault) {
          var i :| 0 <= i < |db.lists| && db.lists[i] == l;
          assert DefaultKey(db.lists[i]) != (userId, true);
        }
      }
      InsertList(db, List(id, userId, DefaultListName, true, now))
  }

  /** Once the user has a default list, asking again returns it unchanged,
      whatever id would have been drawn. */
  lemma GetOrCreateDefaultListIdempotent(db: Db, userId: Id, id: Id, now: Timestamp, id2: Id, now2: Timestamp)
    requires GetOrCreateDefaultList(db, userId, id, now).result.Ok?
    ensures var o := GetOrCreateDefaultList(db, userId, id, now);
            GetOrCreateDefaultList(o.state, userId, id2, now2) == o
  {
    var o := GetOrCreateDefaultList(db, userId, id, now);
    if !HasDefaultList(db, userId) {
      var l := o.result.value;
      assert forall x :: x in db.lists ==> DefaultKey(x) != (userId, true);
      assert o.state.lists[|db.lists|] == l;
    }
  }

  /** `createList`: a new non-default list under the drawn id `id`. */
  function CreateList(db: Db, userId: Id, name: string, id: Id, now: Timestamp): (o: Outcome<Db, List>)
    ensures o.result.Err? <==> ListIdTaken(db, id)
    ensures o.result.Err? ==> o.state == db
    ensures o.result.Ok? ==> o.result.value == List(id, userId, name, false, now)
    ensures o.result.Ok? ==> o.state == db.(lists := db.lists + [o.result.value])
    ensures o.result.Ok? ==> FindList(o.state, id) == Some(o.result.value)
    ensures Valid(db) ==> Valid(o.state)
    ensures AtMostOneDefault(db) ==> AtMostOneDefault(o.state)
  {
    InsertList(db, List(id, userId, name, false, now))
  }

  /** `saveHotelToList`: `INSERT OR IGNORE`, so an existing pair is left as it
      is. */
  function SaveHotelToList(db: Db, listId: Id, hotelId: Id, now: Timestamp): (r: Db)
    ensures ItemPairs(r) == ItemPairs(db) + {(listId, hotelId)}
    ensures (listId, hotelId) in ItemPairs(db) ==> r == db
    ensures (listId, hotelId) !in ItemPairs(db) ==> r == db.(listItems := db.listItems + [ListItem(listId, hotelId, now)])
    ensures Valid(db) ==> Valid(r)
  {
    db.(listItems := InsertOrIgnore(db.listItems, ItemKey, ListItem(listId, hotelId, now)))
  }

  /** `removeHotelFromList`: delete the pair's row, if any. */
  function RemoveHotelFromList(db: Db, listId: Id, hotelId: Id): (r: Db)
    ensures ItemPairs(r) == ItemPairs(db) - {(listId, hotelId)}
    ensures r == db.(listItems := r.listItems)
    ensures forall i :: i in r.listItems <==> i in db.listItems && ItemKey(i) != (listId, hotelId)
    ensures Valid(db) ==> Valid(r)
  {
    db.(listItems := DeleteKey(db.listItems, ItemKey, (listId, hotelId)))
  }

  /** Saving is idempotent. */
  lemma SaveHotelToListIdempotent(db: Db, listId: Id, hotelId: Id, now: Timestamp, now2: Timestamp)
    ensures var once := SaveHotelToList(db, listId, hotelId, now);
            SaveHotelToList(once, listId, hotelId, now2) == once
  {
  }

  /** Removing is idempotent. */
  lemma RemoveHotelFromListIdempotent(db: Db, listId: Id, hotelId: Id)
    ensures var once := RemoveHotelFromList(db, listId, hotelId);
            RemoveHotelFromList(once, listId, hotelId) == once
  {
    DeleteKeyIdempotent(db.listItems, ItemKey, (listId, hotelId));
  }

  /** Saving a pair that was not saved and removing it again restores the
      database. */
  lemma SaveThenRemove(db: Db, listId: Id, hotelId: Id, now: Timestamp)
    requires (listId, hotelId) !in ItemPairs(db)
    ensures RemoveHotelFromList(SaveHotelToList(db, listId, hotelId, now), listId, hotelId) == db
  {
    InsertThenDelete(db.listItems, ItemKey, ListItem(listId, hotelId, now));
  }

  /** A list item for the hotel in one of the user's lists. */
  function SavedBy(db: Db, userId: Id, hotelId: Id): ListItem -> bool
  {
    (i: ListItem) => i.hotelId == hotelId && OwnsList(db, userId, i.listId)
  }

  /** `isHotelSaved`: the joined `COUNT(*)` is positive. */
  function IsHotelSaved(db: Db, userId: Id, hotelId: Id): (b: bool)
    ensures b <==> (exists i, l :: i in db.listItems && l in db.lists &&
                                   i.hotelId == hotelId && l.id == i.listId && l.userId == userId)
  {
    var hits := Filter(db.listItems, SavedBy(db, userId, hotelId));
    if |hits| > 0 then
      assert SavedBy(db, userId, hotelId)(hits[0]);
      true
    else
      assert forall i :: i in db.listItems ==> !SavedBy(db, userId, hotelId)(i);
      false
  }

  /** Saving into one of the user's own lists makes the hotel saved for them. */
  lemma SaveMakesSaved(db: Db, userId: Id, listId: Id, hotelId: Id, now: Timestamp)
    requires OwnsList(db, userId, listId)
    ensures IsHotelSaved(SaveHotelToList(db, listId, hotelId, now), userId, hotelId)
  {
    var r := SaveHotelToList(db, listId, hotelId, now);
    var l :| l in db.lists && l.id == listId && l.userId == userId;
    assert (listId, hotelId) in ItemPairs(r);
    var i :| i in r.listItems && ItemKey(i) == (listId, hotelId);
  }
}

=== FILE: places.dfy ===
/** The price-level conversion used when importing places. */
module Places {
  import opened Common
  import opened Text

  /** The price tiers a hotel may carry. */
  const PriceTiers: set<string> := {"$", "$$", "$$$", "$$$$"}

  /** A price level the conversion knows: one of 0 to 4. */
  predicate KnownLevel(level: Option<real>)
  {
    level.Some? && level.value in {0.0, 1.0, 2.0, 3.0, 4.0}
  }

  /** `priceLevelToTier`: levels 0 and 1 share the cheapest tier, 2 to 4 map
      to that many dollar signs, anything else (missing, fractional, out of
      range) to null. */
  function PriceLevelToTier(level: Option<real>): (tier: Option<string>)
    ensures tier.Some? <==> KnownLevel(level)
    ensures tier.Some? ==> tier.value in PriceTiers
    ensures tier.Some? ==> tier.value == Repeat('$', if level.value == 0.0 then 1 else level.value.Floor)
  {
    if level == Some(0.0) || level == Some(1.0) then Some("$")
    else if level == Some(2.0) then Some("$$")
    else if level == Some(3.0) then Some("$$$")
    else if level == Some(4.0) then Some("$$$$")
    else None
  }

  /** Every tier is reached, and only level 0 and level 1 share one. */
  lemma TiersCoverAndCollide(a: Option<real>, b: Option<real>)
    ensures forall t :: t in PriceTiers ==> exists n: real :: KnownLevel(Some(n)) && PriceLevelToTier(Some(n)) == Some(t)
    ensures KnownLevel(a) && KnownLevel(b) && PriceLevelToTier(a) == PriceLevelToTier(b) ==>
              a == b || {a.value, b.value} == {0.0, 1.0}
  {
    forall t | t in PriceTiers
      ensures exists n: real :: KnownLevel(Some(n)) && PriceLevelToTier(Some(n)) == Some(t)
    {
      if t == "$" { assert PriceLevelToTier(Some(1.0)) == Some(t); }
      else if t == "$$" { assert PriceLevelToTier(Some(2.0)) == Some(t); }
      else if t == "$$$" { assert PriceLevelToTier(Some(3.0)) == Some(t); }
      else { assert PriceLevelToTier(Some(4.0)) == Some(t); }
    }
  }
}

=== FILE: profiles.dfy ===
/** Profile reads and writes: `getProfile`, `getProfileWithStats`,
    `updateProfile` and `createProfile`. */
module Profiles {
  import opened Common
  import opened Schema

  /** `SELECT * FROM profiles WHERE id = ?`, first row. */
  function GetProfile(db: Db, id: Id): (r: Option<Profile>)
    ensures r.Some? ==> r.value in db.profiles && r.value.id == id
    ensures r.None? <==> forall p :: p in db.profiles ==> p.id != id
  {
    FindBy(db.profiles, ProfileId, id)
  }

  /** Under the primary key the profile found is the one stored with that id. */
  lemma GetProfileFinds(db: Db, p: Profile)
    requires Valid(db) && p in db.profiles
    ensures GetProfile(db, p.id) == Some(p)
  {
    FindByUnique(db.profiles, ProfileId, p.id, p);
  }

  datatype ProfileWithStats = ProfileWithStats(
    profile: Profile,
    reviewCount: nat,
    followerCount: nat,
    followingCount: nat,
    savedCount: nat)

  /** The profile with its four `COUNT(*)` sub-queries. */
  function GetProfileWithStats(db: Db, id: Id): (r: Option<ProfileWithStats>)
    ensures r.None? <==> GetProfile(db, id).None?
    ensures r.Some? ==> r.value.profile == GetProfile(db, id).value
    ensures r.Some? ==> r.value.reviewCount == |IndicesWhere(db.reviews, ReviewsBy(id))|
    ensures r.Some? ==> r.value.followerCount == |IndicesWhere(db.follows, FollowsOf(id))|
    ensures r.Some? ==> r.value.followingCount == |IndicesWhere(db.follows, FollowsBy(id))|
    ensures r.Some? ==> r.value.savedCount == |IndicesWhere(db.listItems, ItemsOwnedBy(db, id))|
  {
    match GetProfile(db, id)
    case None => None
    case Some(p) =>
      FilterCount(db.reviews, ReviewsBy(id));
      FilterCount(db.follows, FollowsOf(id));
      FilterCount(db.follows, FollowsBy(id));
      FilterCount(db.listItems, ItemsOwnedBy(db, id));
      Some(ProfileWithStats(
        p,
        |Filter(db.reviews, ReviewsBy(id))|,
        |Filter(db.follows, FollowsOf(id))|,
        |Filter(db.follows, FollowsBy(id))|,
        |Filter(db.listItems, ItemsOwnedBy(db, id))|))
  }

  function FollowerId(f: Follow): Id { f.followerId }

  /** Because `follows` is a set of pairs, the follower count is the number of
      distinct users following `id`. */
  lemma FollowerCountIsDistinctFollowers(db: Db, id: Id)
    requires Valid(db) && GetProfile(db, id).Some?
    ensures GetProfileWithStats(db, id).value.followerCount
         == |KeySet(Filter(db.follows, FollowsOf(id)), FollowerId)|
  {
    var fs := Filter(db.follows, FollowsOf(id));
    FilterKeepsDistinct(db.follows, FollowKey, FollowsOf(id));
    assert KeysDistinct(fs, FollowerId) by {
      forall i, j | 0 <= i < j < |fs| ensures FollowerId(fs[i]) != FollowerId(fs[j]) {
        assert FollowsOf(id)(fs[i]) && FollowsOf(id)(fs[j]);
        assert FollowKey(fs[i]) != FollowKey(fs[j]);
      }
    }
    DistinctKeysCard(fs, FollowerId);
    FilterCount(db.follows, FollowsOf(id));
  }

  /** One column of a `Partial<Profile>`: left out (`undefined`) or set, possibly
      to `null`. */
  datatype Update = Keep | Put(value: Option<string>)

  datatype ProfilePatch = ProfilePatch(
    username: Update,
    fullName: Update,
    avatarUrl: Update,
    bio: Update,
    homeCity: Update)

  /** No field present: `fields.length == 0`, so no `UPDATE` is issued. */
  predicate IsEmptyPatch(patch: ProfilePatch)
  {
    patch.username.Keep? && patch.fullName.Keep? && patch.avatarUrl.Keep?
    && patch.bio.Keep? && patch.homeCity.Keep?
  }

  function Apply(u: Update, prev: Option<string>): Option<string>
  {
    if u.Put? then u.value else prev
  }

  function Patched(p: Profile, patch: ProfilePatch): Profile
  {
    p.(username := Apply(patch.username, p.username),
       fullName := Apply(patch.fullName, p.fullName),
       avatarUrl := Apply(patch.avatarUrl, p.avatarUrl),
       bio := Apply(patch.bio, p.bio),
       homeCity := Apply(patch.homeCity, p.homeCity))
  }

  /** `q` is `p` with the present fields of the patch overwritten and every
      other column kept. */
  predicate PatchedFrom(q: Profile, p: Profile, patch: ProfilePatch)
  {
    && q.id == p.id && q.createdAt == p.createdAt
    && q.username == (if patch.username.Put? then patch.username.value else p.username)
    && q.fullName == (if patch.fullName.Put? then patch.fullName.value else p.fullName)
    && q.avatarUrl == (if patch.avatarUrl.Put? then patch.avatarUrl.value else p.avatarUrl)
    && q.bio == (if patch.bio.Put? then patch.bio.value else p.bio)
    && q.homeCity == (if patch.homeCity.Put? then patch.homeCity.value else p.homeCity)
  }

  /** The `UPDATE` would give a second row the same non-null username. */
  predicate UsernameClash(db: Db, id: Id, patch: ProfilePatch)
  {
    patch.username.Put? && patch.username.value.Some?
    && exists i, j :: 0 <= i < |db.profiles| && 0 <= j < |db.profiles| && i != j
         && db.profiles[i].id == id
         && (db.profiles[j].id == id || db.profiles[j].username == patch.username.value)
  }

  function UpdateRows(ps: seq<Profile>, id: Id, patch: ProfilePatch): (r: seq<Profile>)
    ensures |r| == |ps|
    ensures forall i :: 0 <= i < |ps| && ps[i].id != id ==> r[i] == ps[i]
    ensures forall i :: 0 <= i < |ps| && ps[i].id == id ==> PatchedFrom(r[i], ps[i], patch)
  {
    seq(|ps|, i requires 0 <= i < |ps| => if ps[i].id == id then Patched(ps[i], patch) else ps[i])
  }

  /** `updateProfile`: one `UPDATE ... WHERE id = ?` over the present fields
      (skipped for an empty patch), then the row read back. A username taken by
      another row makes the statement fail and change nothing. */
  function UpdateProfile(db: Db, id: Id, patch: ProfilePatch): (o: Outcome<Db, Option<Profile>>)
    ensures IsEmptyPatch(patch) ==> o == Outcome(db, Ok(GetProfile(db, id)))
    ensures GetProfile(db, id).None? ==> o == Outcome(db, Ok(None))
    ensures o.result.Err? <==> !IsEmptyPatch(patch) && UsernameClash(db, id, patch)
    ensures o.result.Err? ==> o.state == db
    ensures o.state == db.(profiles := o.state.profiles)
    ensures |o.state.profiles| == |db.profiles|
    ensures forall i :: 0 <= i < |db.profiles| && db.profiles[i].id != id
              ==> o.state.profiles[i] == db.profiles[i]
    ensures forall i :: 0 <= i < |db.profiles| && db.profiles[i].id == id && o.result.Ok?
              ==> PatchedFrom(o.state.profiles[i], db.profiles[i], patch)
    ensures o.result.Ok? ==> o.result.value == GetProfile(o.state, id)
  {
    if IsEmptyPatch(patch) then
      assert forall i :: 0 <= i < |db.profiles| ==> PatchedFrom(db.profiles[i], db.profiles[i], patch);
      Outcome(db, Ok(GetProfile(db, id)))
    else if UsernameClash(db, id, patch) then
      Outcome(db, Err(UniqueViolation("profiles.username")))
    else
      var db' := db.(profiles := UpdateRows(db.profiles, id, patch));
      if GetProfile(db, id).None? then
        assert db'.profiles == db.profiles;
        Outcome(db', Ok(None))
      else
        Outcome(db', Ok(GetProfile(db', id)))
  }

  lemma UpdateRowsKeepsIds(ps: seq<Profile>, id: Id, patch: ProfilePatch)
    requires KeysDistinct(ps, ProfileId)
    ensures KeysDistinct(UpdateRows(ps, id, patch), ProfileId)
  {
    var qs := UpdateRows(ps, id, patch);
    forall i, j | 0 <= i < j < |qs| ensures ProfileId(qs[i]) != ProfileId(qs[j]) {
      assert ProfileId(ps[i]) != ProfileId(ps[j]);
    }
  }

  lemma UpdateRowsKeepsUsernames(db: Db, id: Id, patch: ProfilePatch)
    requires UniqueWhenPresent(db.profiles, Username)
    requires !UsernameClash(db, id, patch)
    ensures UniqueWhenPresent(UpdateRows(db.profiles, id, patch), Username)
  {
    var ps := db.profiles;
    var qs := UpdateRows(ps, id, patch);
    forall i, j | 0 <= i < j < |qs| && Username(qs[i]).Some?
      ensures Username(qs[i]) != Username(qs[j])
    {
      var u := patch.username;
      if u.Put? && u.value.Some? && ps[i].id == id {
        assert !(ps[j].id == id || ps[j].username == u.value);
      } else if u.Put? && u.value.Some? && ps[j].id == id {
        assert !(ps[i].id == id || ps[i].username == u.value);
      } else {
        assert Username(ps[i]).Some? ==> Username(ps[i]) != Username(ps[j]);
      }
    }
  }

  /** On a valid database an update keeps every constraint. */
  lemma UpdateProfileValid(db: Db, id: Id, patch: ProfilePatch)
    requires Valid(db)
    ensures Valid(UpdateProfile(db, id, patch).state)
  {
    var o := UpdateProfile(db, id, patch);
    if o.result.Ok? && !IsEmptyPatch(patch) && GetProfile(db, id).Some? {
      UpdateRowsKeepsIds(db.profiles, id, patch);
      UpdateRowsKeepsUsernames(db, id, patch);
      assert o.state == db.(profiles := UpdateRows(db.profiles, id, patch));
    }
  }

  /** On a valid database a successful update returns the stored row, patched. */
  lemma UpdateProfileReturnsPatched(db: Db, p: Profile, patch: ProfilePatch)
    requires Valid(db) && p in db.profiles
    requires UpdateProfile(db, p.id, patch).result.Ok?
    ensures UpdateProfile(db, p.id, patch).result.value == Some(Patched(p, patch))
  {
    var o := UpdateProfile(db, p.id, patch);
    var ps, qs := db.profiles, o.state.profiles;
    var k :| 0 <= k < |ps| && ps[k] == p;
    assert qs[k] == Patched(p, patch);
    UpdateProfileValid(db, p.id, patch);
    FindByUnique(qs, ProfileId, p.id, qs[k]);
  }

  /** The data `createProfile` is given; absent and `null` fields are both `None`. */
  datatype ProfileInput = ProfileInput(
    username: Option<string>,
    fullName: Option<string>,
    avatarUrl: Option<string>,
    bio: Option<string>,
    homeCity: Option<string>)

  /** The row `createProfile` inserts. */
  function NewProfile(id: Id, data: ProfileInput, now: Timestamp): Profile
  {
    Profile(id, OrNull(data.username), OrNull(data.fullName), OrNull(data.avatarUrl),
            OrNull(data.bio), OrNull(data.homeCity), now)
  }

  predicate ProfileIdTaken(db: Db, id: Id)
  {
    exists p :: p in db.profiles && p.id == id
  }

  predicate UsernameTaken(db: Db, username: Option<string>)
  {
    username.Some? && exists p :: p in db.profiles && p.username == username
  }

  /** `createProfile`: one `INSERT`, then the row read back. */
  function CreateProfile(db: Db, id: Id, data: ProfileInput, now: Timestamp): (o: Outcome<Db, Profile>)
    ensures o.result.Err? <==> ProfileIdTaken(db, id) || UsernameTaken(db, OrNull(data.username))
    ensures o.result.Err? ==> o.state == db
    ensures o.result.Ok? ==> o.state == db.(profiles := db.profiles + [o.result.value])
    ensures o.result.Ok? ==> o.result.value.id == id && o.result.value.createdAt == now
    ensures o.result.Ok? ==> o.result.value.username == OrNull(data.username)
    ensures o.result.Ok? ==> o.result.value.fullName == OrNull(data.fullName)
    ensures o.result.Ok? ==> o.result.value.avatarUrl == OrNull(data.avatarUrl)
    ensures o.result.Ok? ==> o.result.value.bio == OrNull(data.bio)
    ensures o.result.Ok? ==> o.result.value.homeCity == OrNull(data.homeCity)
    ensures o.result.Ok? ==> GetProfile(o.state, id) == Some(o.result.value)
    ensures Valid(db) ==> Valid(o.state)
  {
    var row := NewProfile(id, data, now);
    if ProfileIdTaken(db, id) then
      Outcome(db, Err(UniqueViolation("profiles.id")))
    else if UsernameTaken(db, row.username) then
      Outcome(db, Err(UniqueViolation("profiles.username")))
    else
      var db' := db.(profiles := db.profiles + [row]);
      assert forall i :: 0 <= i < |db.profiles| ==> ProfileId(db.profiles[i]) != ProfileId(row);
      assert db'.profiles[|db.profiles|] == row;
      Outcome(db', Ok(row))
  }
}

=== FILE: review_hooks.dfy ===
/** `useCreateReview`: insert the signed-in user's review, then its photos. */
module ReviewHooks {
  import opened Common
  import opened Schema
  import opened Reviews

  /** The form input; `None` stands for a field left undefined. */
  datatype CreateReviewInput = CreateReviewInput(
    hotelId: Id,
    ratingOverall: int,
    ratingAesthetic: Option<int>,
    ratingService: Option<int>,
    ratingAmenities: Option<int>,
    title: Option<string>,
    body: Option<string>,
    tripType: Option<string>,
    stayDate: Option<string>,
    photoUrls: Option<seq<string>>)

  /** `input.photoUrls`, with an undefined list read as empty. */
  function Urls(input: CreateReviewInput): seq<string>
  {
    if input.photoUrls.Some? then input.photoUrls.value else []
  }

  /** The columns handed to `createReview`: the author is the signed-in user
      and every omitted optional field becomes null. */
  function ReviewColumns(userId: Id, input: CreateReviewInput): (c: ReviewInput)
    ensures c.userId == userId && c.hotelId == input.hotelId && c.ratingOverall == input.ratingOverall
    ensures c.ratingAesthetic == input.ratingAesthetic && c.ratingService == input.ratingService
    ensures c.ratingAmenities == input.ratingAmenities
    ensures c.title == input.title && c.body == input.body
    ensures c.tripType == input.tripType && c.stayDate == input.stayDate
  {
    ReviewInput(userId, input.hotelId, input.ratingOverall, input.ratingAesthetic, input.ratingService,
                input.ratingAmenities, input.title, input.body, input.tripType, input.stayDate)
  }

  /** The workflow. `reviewId` and `photoIds` are the ids drawn for the review
      and for each photo URL. A photo failure is raised after the review is
      stored, and the stored rows stay. */
  function CreateReviewFlow(db: Db, viewer: Option<Id>, input: CreateReviewInput, reviewId: Id, photoIds: seq<Id>, now: Timestamp): (o: Outcome<Db, Review>)
    requires |photoIds| == |Urls(input)|
    ensures viewer.None? ==> o == Outcome(db, Err(NotSignedIn))
    ensures viewer.Some? ==>
              var created := CreateReview(db, ReviewColumns(viewer.value, input), reviewId, now);
              && (created.result.Err? ==> o == Outcome(db, created.result))
              && (created.result.Ok? && Urls(input) == [] ==> o == created)
              && (created.result.Ok? && Urls(input) != [] ==>
                    var added := AddReviewPhotos(created.state, reviewId, Urls(input), photoIds, now);
                    o.state == added.state && (o.result.Ok? <==> added.result.Ok?))
    ensures o.result.Ok? ==>
              && o.result.value.id == reviewId
              && o.result.value.userId == viewer.value && o.result.value.hotelId == input.hotelId
              && o.result.value.ratingAesthetic == input.ratingAesthetic
              && o.result.value.ratingService == input.ratingService
              && o.result.value.ratingAmenities == input.ratingAmenities
              && o.result.value.title == input.title && o.result.value.body == input.body
              && o.result.value.tripType == input.tripType && o.result.value.stayDate == input.stayDate
    ensures o.result.Ok? ==>
              o.state == db.(reviews := db.reviews + [o.result.value],
                             photos := db.photos + PhotoRows(reviewId, Urls(input), photoIds, now))
    ensures Valid(db) ==> Valid(o.state)
  {
    if viewer.None? then
      Outcome(db, Err(NotSignedIn))
    else
      var created := CreateReview(db, ReviewColumns(viewer.value, input), reviewId, now);
      if created.result.Err? then
        created
      else if Urls(input) == [] then
        assert db.photos + PhotoRows(reviewId, Urls(input), photoIds, now) == db.photos;
        created
      else
        var added := AddReviewPhotos(created.state, reviewId, Urls(input), photoIds, now);
        AddReviewPhotosValid(created.state, reviewId, Urls(input), photoIds, now);
        if added.result.Ok? then
          Outcome(added.state, created.result)
        else
          Outcome(added.state, Err(added.result.error))
  }

  /** A review that cannot be inserted leaves no photo rows behind. */
  lemma FailedReviewWritesNoPhotos(db: Db, u: Id, input: CreateReviewInput, reviewId: Id, photoIds: seq<Id>, now: Timestamp)
    requires |photoIds| == |Urls(input)|
    requires AlreadyReviewed(db, u, input.hotelId) || !InRatingRange(input.ratingOverall)
    ensures var o := CreateReviewFlow(db, Some(u), input, reviewId, photoIds, now);
            o.result.Err? && o.state == db
  {
    var row := NewReview(ReviewColumns(u, input), reviewId, now);
    assert !InRatingRange(input.ratingOverall) ==> !RatingsOk(row);
  }

  /** With fresh ids, a valid rating and no earlier review of the hotel, the
      review and all its photos are stored, the photos in input order. */
  lemma FreshReviewStoresPhotos(db: Db, u: Id, input: CreateReviewInput, reviewId: Id, photoIds: seq<Id>, now: Timestamp)
    requires |photoIds| == |Urls(input)|
    requires RatingsOk(NewReview(ReviewColumns(u, input), reviewId, now))
    requires !ReviewIdTaken(db, reviewId) && !AlreadyReviewed(db, u, input.hotelId)
    requires FreshPhotoIds(db, photoIds)
    ensures var o := CreateReviewFlow(db, Some(u), input, reviewId, photoIds, now);
            && o.result.Ok?
            && forall i :: 0 <= i < |Urls(input)| ==>
                 o.state.photos[|db.photos| + i] == ReviewPhoto(photoIds[i], reviewId, Urls(input)[i], now)
  {
    var created := CreateReview(db, ReviewColumns(u, input), reviewId, now);
    assert created.state.photos == db.photos;
    assert FreshPhotoIds(created.state, photoIds);
  }
}

=== FILE: reviews.dfy ===
/** Review reads (`getHotelReviews`, `getUserReviews`) and writes
    (`createReview`, `addReviewPhotos`). */
module Reviews {
  import opened Common
  import opened Schema
  import opened Sorting

  /** The author columns a review listing selects. */
  datatype UserSummary = UserSummary(id: Id, username: Option<string>, fullName: Option<string>, avatarUrl: Option<string>)

  /** The hotel columns a review listing selects. */
  datatype HotelSummary = HotelSummary(id: Id, name: string, city: Option<string>, country: Option<string>, coverImageUrl: Option<string>)

  /** A review with its author, its hotel and its photos. The author and the
      hotel are looked up by id; with no such row the lookup yields null,
      which the non-null assertion does not catch, so they are optional. */
  datatype ReviewWithDetails = ReviewWithDetails(
    review: Review,
    user: Option<UserSummary>,
    hotel: Option<HotelSummary>,
    photos: seq<ReviewPhoto>)

  function SummarizeUser(p: Profile): UserSummary
  {
    UserSummary(p.id, p.username, p.fullName, p.avatarUrl)
  }

  function SummarizeHotel(h: Hotel): HotelSummary
  {
    HotelSummary(h.id, h.name, h.city, h.country, h.coverImageUrl)
  }

  /** `SELECT id, username, full_name, avatar_url FROM profiles WHERE id = ?`. */
  function Author(db: Db, r: Review): (u: Option<UserSummary>)
    ensures u.None? <==> forall p :: p in db.profiles ==> p.id != r.userId
    ensures u.Some? ==> exists p :: p in db.profiles && p.id == r.userId && u.value == SummarizeUser(p)
  {
    match FindBy(db.profiles, ProfileId, r.userId)
    case None => None
    case Some(p) => Some(SummarizeUser(p))
  }

  /** `SELECT id, name, city, country, cover_image_url FROM hotels WHERE id = ?`. */
  function ReviewedHotel(db: Db, r: Review): (h: Option<HotelSummary>)
    ensures h.None? <==> forall x :: x in db.hotels ==> x.id != r.hotelId
    ensures h.Some? ==> exists x :: x in db.hotels && x.id == r.hotelId && h.value == SummarizeHotel(x)
  {
    match FindBy(db.hotels, HotelId, r.hotelId)
    case None => None
    case Some(x) => Some(SummarizeHotel(x))
  }

  /** `SELECT * FROM review_photos WHERE review_id = ?`. */
  function ReviewPhotos(db: Db, reviewId: Id): (ps: seq<ReviewPhoto>)
    ensures forall p :: p in ps <==> p in db.photos && p.reviewId == reviewId
    ensures |ps| == |IndicesWhere(db.photos, PhotosOf(reviewId))|
  {
    FilterCount(db.photos, PhotosOf(reviewId));
    Filter(db.photos, PhotosOf(reviewId))
  }

  /** A review with its details: the author and the hotel are null exactly
      when no row has the id, and the photos are the review's own. */
  function Detail(db: Db, r: Review): (d: ReviewWithDetails)
    ensures d.review == r
    ensures d.user.None? <==> forall p :: p in db.profiles ==> p.id != r.userId
    ensures d.hotel.None? <==> forall x :: x in db.hotels ==> x.id != r.hotelId
    ensures forall p :: p in d.photos <==> p in db.photos && p.reviewId == r.id
  {
    ReviewWithDetails(r, Author(db, r), ReviewedHotel(db, r), ReviewPhotos(db, r.id))
  }

  /** Under the primary keys the author is the profile with the review's
      `user_id`, when there is one. */
  lemma DetailNamesAuthor(db: Db, r: Review, p: Profile)
    requires Valid(db) && p in db.profiles && p.id == r.userId
    ensures Detail(db, r).user == Some(SummarizeUser(p))
  {
    FindByUnique(db.profiles, ProfileId, p.id, p);
  }

  /** `ORDER BY created_at DESC`. */
  function NewestFirst(a: Review, b: Review): bool
  {
    a.createdAt >= b.createdAt
  }

  lemma NewestFirstIsTotalPreorder()
    ensures IsTotalPreorder(NewestFirst)
  {
  }

  /** The reviews `p` selects, newest first. */
  function NewestReviews(db: Db, p: Review -> bool): (rs: seq<Review>)
    ensures forall r :: r in rs <==> r in db.reviews && p(r)
    ensures forall i, j :: 0 <= i < j < |rs| ==> rs[i].createdAt >= rs[j].createdAt
    ensures multiset(rs) == multiset(Filter(db.reviews, p))
  {
    NewestFirstIsTotalPreorder();
    var rs := Sort(Filter(db.reviews, p), NewestFirst);
    assert forall r :: r in rs <==> r in multiset(rs);
    rs
  }

  function ReviewsIn(ds: seq<ReviewWithDetails>): (rs: seq<Review>)
    ensures |rs| == |ds|
    ensures forall i :: 0 <= i < |ds| ==> rs[i] == ds[i].review
  {
    seq(|ds|, i requires 0 <= i < |ds| => ds[i].review)
  }

  function DetailAll(db: Db, rs: seq<Review>): (ds: seq<ReviewWithDetails>)
    ensures |ds| == |rs|
    ensures forall i :: 0 <= i < |rs| ==> ds[i] == Detail(db, rs[i])
  {
    seq(|rs|, i requires 0 <= i < |rs| => Detail(db, rs[i]))
  }

  lemma DetailAllKeepsReviews(db: Db, rs: seq<Review>)
    ensures ReviewsIn(DetailAll(db, rs)) == rs
  {
  }

  /** `getHotelReviews`: the hotel's reviews, newest first, with details. */
  function GetHotelReviews(db: Db, hotelId: Id): (r: seq<ReviewWithDetails>)
    ensures ReviewsIn(r) == NewestReviews(db, ReviewsOf(hotelId))
    ensures forall i :: 0 <= i < |r| ==> r[i] == Detail(db, r[i].review)
    ensures forall i :: 0 <= i < |r| ==> r[i].review.hotelId == hotelId
  {
    var rs := NewestReviews(db, ReviewsOf(hotelId));
    forall i | 0 <= i < |rs| ensures rs[i].hotelId == hotelId {
      assert rs[i] in rs;
      assert ReviewsOf(hotelId)(rs[i]);
    }
    DetailAllKeepsReviews(db, rs);
    DetailAll(db, rs)
  }

  /** `getUserReviews`: the user's reviews, newest first, with details. */
  function GetUserReviews(db: Db, userId: Id): (r: seq<ReviewWithDetails>)
    ensures ReviewsIn(r) == NewestReviews(db, ReviewsBy(userId))
    ensures forall i :: 0 <= i < |r| ==> r[i] == Detail(db, r[i].review)
    ensures forall i :: 0 <= i < |r| ==> r[i].review.userId == userId
  {
    var rs := NewestReviews(db, ReviewsBy(userId));
    forall i | 0 <= i < |rs| ensures rs[i].userId == userId {
      assert rs[i] in rs;
      assert ReviewsBy(userId)(rs[i]);
    }
    DetailAllKeepsReviews(db, rs);
    DetailAll(db, rs)
  }

  /** A review appears in its author's listing exactly when it appears in its
      hotel's listing. */
  lemma ListingsAgree(db: Db, rv: Review)
    ensures rv in ReviewsIn(GetUserReviews(db, rv.userId)) <==> rv in db.reviews
    ensures rv in ReviewsIn(GetHotelReviews(db, rv.hotelId)) <==> rv in db.reviews
  {
  }

  /** The columns `createReview` is given; `id` and `created_at` are filled in. */
  datatype ReviewInput = ReviewInput(
    userId: Id,
    hotelId: Id,
    ratingOverall: int,
    ratingAesthetic: Option<int>,
    ratingService: Option<int>,
    ratingAmenities: Option<int>,
    title: Option<string>,
    body: Option<string>,
    tripType: Option<string>,
    stayDate: Option<string>)

  function NewReview(input: ReviewInput, id: Id, now: Timestamp): (r: Review)
    ensures r.id == id && r.userId == input.userId && r.hotelId == input.hotelId && r.createdAt == now
  {
    Review(id, input.userId, input.hotelId, input.ratingOverall, input.ratingAesthetic,
           input.ratingService, input.ratingAmenities, input.title, input.body,
           input.tripType, input.stayDate, now)
  }

  /** The first rating column, in declaration order, whose CHECK fails. */
  function FailedCheck(r: Review): (c: Option<string>)
    ensures c.None? <==> RatingsOk(r)
  {
    if !InRatingRange(r.ratingOverall) then Some("rating_overall")
    else if !OptionalRatingOk(r.ratingAesthetic) then Some("rating_aesthetic")
    else if !OptionalRatingOk(r.ratingService) then Some("rating_service")
    else if !OptionalRatingOk(r.ratingAmenities) then Some("rating_amenities")
    else None
  }

  predicate ReviewIdTaken(db: Db, id: Id)
  {
    exists r :: r in db.reviews && r.id == id
  }

  /** The user already reviewed the hotel. */
  predicate AlreadyReviewed(db: Db, userId: Id, hotelId: Id)
  {
    exists r :: r in db.reviews && r.userId == userId && r.hotelId == hotelId
  }

  /** `createReview`: insert the review with a fresh id and read it back. A
      rating outside 1..5, a taken id or a second review of the same hotel by
      the same user makes the insert fail and leaves the table as it was. */
  function CreateReview(db: Db, input: ReviewInput, id: Id, now: Timestamp): (o: Outcome<Db, Review>)
    ensures o.result.Err? <==>
              || !RatingsOk(NewReview(input, id, now))
              || ReviewIdTaken(db, id)
              || AlreadyReviewed(db, input.userId, input.hotelId)
    ensures o.result.Err? ==> o.state == db
    ensures !RatingsOk(NewReview(input, id, now)) ==> o.result.Err? && o.result.error.CheckViolation?
    ensures o.result.Ok? ==> o.state == db.(reviews := db.reviews + [o.result.value])
    ensures o.result.Ok? ==> o.result.value == NewReview(input, id, now)
    ensures o.result.Ok? ==> FindBy(o.state.reviews, ReviewId, id) == Some(o.result.value)
    ensures Valid(db) ==> Valid(o.state)
  {
    var row := NewReview(input, id, now);
    var check := FailedCheck(row);
    if check.Some? then
      Outcome(db, Err(CheckViolation(check.value)))
    else if ReviewIdTaken(db, id) then
      Outcome(db, Err(UniqueViolation("reviews.id")))
    else if AlreadyReviewed(db, input.userId, input.hotelId) then
      Outcome(db, Err(UniqueViolation("reviews.user_id, reviews.hotel_id")))
    else
      var db' := db.(reviews := db.reviews + [row]);
      assert forall r :: r in db.reviews ==> r.id != id;
      FindByAppend(db.reviews, ReviewId, row);
      if Valid(db) then
        AppendKeepsDistinct(db.reviews, ReviewId, row);
        AppendKeepsDistinct(db.reviews, ReviewPair, row);
        Outcome(db', Ok(row))
      else
        Outcome(db', Ok(row))
  }

  /** Looking up a key no earlier row has finds the appended row. */
  lemma FindByAppend<T, K>(s: seq<T>, key: T -> K, x: T)
    requires forall y :: y in s ==> key(y) != key(x)
    ensures FindBy(s + [x], key, key(x)) == Some(x)
  {
    assert (s + [x])[|s|] == x;
  }

  /** The ids to be used are all new: none is taken and none repeats. */
  predicate FreshPhotoIds(db: Db, ids: seq<Id>)
  {
    && (forall i :: 0 <= i < |ids| ==> forall p :: p in db.photos ==> p.id != ids[i])
    && (forall i, j :: 0 <= i < j < |ids| ==> ids[i] != ids[j])
  }

  function PhotoRows(reviewId: Id, urls: seq<string>, ids: seq<Id>, now: Timestamp): (ps: seq<ReviewPhoto>)
    requires |ids| == |urls|
    ensures |ps| == |urls|
    ensures forall i :: 0 <= i < |urls| ==> ps[i] == ReviewPhoto(ids[i], reviewId, urls[i], now)
  {
    seq(|urls|, i requires 0 <= i < |urls| => ReviewPhoto(ids[i], reviewId, urls[i], now))
  }

  /** A batch that stopped at URL `k`: the rows for the URLs before it are
      stored and the id drawn for URL `k` is already in use. */
  predicate StoppedAt(db: Db, state: Db, reviewId: Id, urls: seq<string>, ids: seq<Id>, now: Timestamp, k: int)
    requires |ids| == |urls|
  {
    && 0 <= k < |urls|
    && state == db.(photos := db.photos + PhotoRows(reviewId, urls[..k], ids[..k], now))
    && exists p :: p in state.photos && p.id == ids[k]
  }

  /** What `addReviewPhotos` promises about its outcome `o`: it succeeds
      exactly when the drawn ids are fresh, and then stores and returns one
      row per URL in order; otherwise it raises the unique violation with
      the rows before the clashing one stored. */
  predicate PhotosAdded(db: Db, reviewId: Id, urls: seq<string>, ids: seq<Id>, now: Timestamp, o: Outcome<Db, seq<ReviewPhoto>>)
    requires |ids| == |urls|
  {
    && (o.result.Ok? <==> FreshPhotoIds(db, ids))
    && (o.result.Ok? ==> o.result.value == PhotoRows(reviewId, urls, ids, now))
    && (o.result.Ok? ==> o.state == db.(photos := db.photos + o.result.value))
    && (o.result.Err? ==> o.result.error == UniqueViolation("review_photos.id"))
    && (o.result.Err? ==> StoppedAt(db, o.state, reviewId, urls, ids, now, |o.state.photos| - |db.photos|))
  }

  /** The outcome once the first row is in: the rest's outcome, with the
      first row prepended on success. */
  function WithFirst(row: ReviewPhoto, rest: Outcome<Db, seq<ReviewPhoto>>): Outcome<Db, seq<ReviewPhoto>>
  {
    if rest.result.Ok? then Outcome(rest.state, Ok([row] + rest.result.value)) else rest
  }

  /** `addReviewPhotos`: one insert per URL, in order, each read back. The
      inserts are separate statements, so a failing one keeps the rows
      inserted before it. `ids` are the ids drawn for the URLs. */
  function AddReviewPhotos(db: Db, reviewId: Id, urls: seq<string>, ids: seq<Id>, now: Timestamp): (o: Outcome<Db, seq<ReviewPhoto>>)
    requires |ids| == |urls|
    ensures PhotosAdded(db, reviewId, urls, ids, now, o)
    decreases |urls|
  {
    if urls == [] then
      Outcome(db, Ok([]))
    else
      var row := ReviewPhoto(ids[0], reviewId, urls[0], now);
      if exists p :: p in db.photos && p.id == ids[0] then
        StoppedAtFirst(db, reviewId, urls, ids, now);
        Outcome(db, Err(UniqueViolation("review_photos.id")))
      else
        var db1 := db.(photos := db.photos + [row]);
        var rest := AddReviewPhotos(db1, reviewId, urls[1..], ids[1..], now);
        AddPhotosCons(db, db1, row, reviewId, urls, ids, now, rest);
        WithFirst(row, rest)
  }

  lemma AddPhotosCons(db: Db, db1: Db, row: ReviewPhoto, reviewId: Id, urls: seq<string>, ids: seq<Id>, now: Timestamp,
                      rest: Outcome<Db, seq<ReviewPhoto>>)
    requires |ids| == |urls| > 0
    requires row == ReviewPhoto(ids[0], reviewId, urls[0], now)
    requires forall p :: p in db.photos ==> p.id != ids[0]
    requires db1 == db.(photos := db.photos + [row])
    requires PhotosAdded(db1, reviewId, urls[1..], ids[1..], now, rest)
    ensures PhotosAdded(db, reviewId, urls, ids, now, WithFirst(row, rest))
  {
    FreshPhotoIdsStep(db, db1, row, ids);
    if rest.result.Ok? {
      AddPhotosConsOk(db, db1, row, reviewId, urls, ids, now, rest);
    } else {
      AddPhotosErrStep(db, db1, row, reviewId, urls, ids, now, rest.state);
    }
  }

  lemma AddPhotosConsOk(db: Db, db1: Db, row: ReviewPhoto, reviewId: Id, urls: seq<string>, ids: seq<Id>, now: Timestamp,
                        rest: Outcome<Db, seq<ReviewPhoto>>)
    requires |ids| == |urls| > 0
    requires row == ReviewPhoto(ids[0], reviewId, urls[0], now)
    requires db1 == db.(photos := db.photos + [row])
    requires rest.result.Ok?
    requires rest.result.value == PhotoRows(reviewId, urls[1..], ids[1..], now)
    requires rest.state == db1.(photos := db1.photos + rest.result.value)
    ensures WithFirst(row, rest).result.value == PhotoRows(reviewId, urls, ids, now)
    ensures WithFirst(row, rest).state == db.(photos := db.photos + WithFirst(row, rest).result.value)
  {
    AddPhotosOkStep(row, reviewId, urls, ids, now, rest.result.value);
    PrependRow(db, row, rest.result.value);
  }

  lemma PrependRow(db: Db, row: ReviewPhoto, v: seq<ReviewPhoto>)
    ensures db.(photos := db.photos + [row]).(photos := db.photos + [row] + v) == db.(photos := db.photos + ([row] + v))
  {
    assert db.photos + [row] + v == db.photos + ([row] + v);
  }

  /** A valid database stays valid, whether the batch completes or stops. */
  lemma {:induction false} AddReviewPhotosValid(db: Db, reviewId: Id, urls: seq<string>, ids: seq<Id>, now: Timestamp)
    requires |ids| == |urls|
    ensures Valid(db) ==> Valid(AddReviewPhotos(db, reviewId, urls, ids, now).state)
    decreases |urls|
  {
    if Valid(db) && urls != [] && !(exists p :: p in db.photos && p.id == ids[0]) {
      var row := ReviewPhoto(ids[0], reviewId, urls[0], now);
      AddPhotoKeepsValid(db, row);
      AddReviewPhotosValid(db.(photos := db.photos + [row]), reviewId, urls[1..], ids[1..], now);
    }
  }

  lemma StoppedAtFirst(db: Db, reviewId: Id, urls: seq<string>, ids: seq<Id>, now: Timestamp)
    requires |ids| == |urls| > 0
    requires exists p :: p in db.photos && p.id == ids[0]
    ensures StoppedAt(db, db, reviewId, urls, ids, now, 0)
  {
    assert PhotoRows(reviewId, urls[..0], ids[..0], now) == [];
    assert db.(photos := db.photos + []) == db;
  }

  lemma AddPhotoKeepsValid(db: Db, row: ReviewPhoto)
    requires forall p :: p in db.photos ==> p.id != row.id
    ensures Valid(db) ==> Valid(db.(photos := db.photos + [row]))
  {
    if Valid(db) {
      AppendKeepsDistinct(db.photos, PhotoId, row);
    }
  }

  /** A failure later in the batch keeps the first row and the rows after it
      that were inserted. */
  lemma AddPhotosErrStep(db: Db, db1: Db, row: ReviewPhoto, reviewId: Id, urls: seq<string>, ids: seq<Id>, now: Timestamp, state: Db)
    requires |ids| == |urls| > 0
    requires row == ReviewPhoto(ids[0], reviewId, urls[0], now)
    requires db1 == db.(photos := db.photos + [row])
    requires StoppedAt(db1, state, reviewId, urls[1..], ids[1..], now, |state.photos| - |db1.photos|)
    ensures StoppedAt(db, state, reviewId, urls, ids, now, |state.photos| - |db.photos|)
  {
    var k := |state.photos| - |db1.photos|;
    PhotoRowsCons(row, reviewId, urls, ids, now, k);
    PrependRow(db, row, PhotoRows(reviewId, urls[1..][..k], ids[1..][..k], now));
    assert ids[1..][k] == ids[k + 1];
  }

  /** The first row followed by the rows for the next `k` URLs. */
  lemma PhotoRowsCons(row: ReviewPhoto, reviewId: Id, urls: seq<string>, ids: seq<Id>, now: Timestamp, k: nat)
    requires |ids| == |urls| > 0 && k < |urls|
    requires row == ReviewPhoto(ids[0], reviewId, urls[0], now)
    ensures [row] + PhotoRows(reviewId, urls[1..][..k], ids[1..][..k], now) == PhotoRows(reviewId, urls[..k + 1], ids[..k + 1], now)
  {
    var tail := PhotoRows(reviewId, urls[1..][..k], ids[1..][..k], now);
    var whole := PhotoRows(reviewId, urls[..k + 1], ids[..k + 1], now);
    forall i | 0 <= i < |whole| ensures ([row] + tail)[i] == whole[i] {
      if i > 0 {
        assert urls[1..][..k][i - 1] == urls[..k + 1][i];
        assert ids[1..][..k][i - 1] == ids[..k + 1][i];
      }
    }
  }

  lemma AddPhotosOkStep(row: ReviewPhoto, reviewId: Id, urls: seq<string>, ids: seq<Id>, now: Timestamp, rows: seq<ReviewPhoto>)
    requires |ids| == |urls| > 0
    requires row == ReviewPhoto(ids[0], reviewId, urls[0], now)
    requires rows == PhotoRows(reviewId, urls[1..], ids[1..], now)
    ensures [row] + rows == PhotoRows(reviewId, urls, ids, now)
  {
    var whole := PhotoRows(reviewId, urls, ids, now);
    forall i | 0 <= i < |whole| ensures ([row] + rows)[i] == whole[i] {
      if i > 0 {
        assert urls[1..][i - 1] == urls[i] && ids[1..][i - 1] == ids[i];
      }
    }
  }

  lemma FreshPhotoIdsStep(db: Db, db1: Db, row: ReviewPhoto, ids: seq<Id>)
    requires |ids| > 0 && row.id == ids[0]
    requires forall p :: p in db.photos ==> p.id != ids[0]
    requires db1 == db.(photos := db.photos + [row])
    ensures FreshPhotoIds(db1, ids[1..]) <==> FreshPhotoIds(db, ids)
  {
    if FreshPhotoIds(db1, ids[1..]) {
      forall i, j | 0 <= i < j < |ids| ensures ids[i] != ids[j] {
        if i == 0 {
          assert ids[1..][j - 1] == ids[j];
          assert row in db1.photos;
        } else {
          assert ids[1..][i - 1] == ids[i] && ids[1..][j - 1] == ids[j];
        }
      }
      forall i | 0 <= i < |ids| ensures forall p :: p in db.photos ==> p.id != ids[i] {
        if i > 0 {
          assert ids[1..][i - 1] == ids[i];
          assert forall p :: p in db.photos ==> p in db1.photos;
        }
      }
    }
    if FreshPhotoIds(db, ids) {
      forall i | 0 <= i < |ids[1..]| ensures forall p :: p in db1.photos ==> p.id != ids[1..][i] {
        assert ids[1..][i] == ids[i + 1];
      }
    }
  }
}

=== FILE: save_hooks.dfy ===
/** The save workflows of the hotel screens: `useSaveHotel`,
    `useRemoveFromList` and `useToggleSave`. The signed-in user is passed as
    `viewer` (`None` when nobody is signed in) and `freshId` is the id a
    default list would be created under. */
module SaveHooks {
  import opened Common
  import opened Schema
  import opened Lists

  // The list a call names is `OrNull(listId)`: an absent or empty `listId`
  // is falsy and names none.

  /** What the save and remove workflows return. */
  datatype Placement = Placement(listId: Id, hotelId: Id)

  /** `useSaveHotel`: save into the named list, or else into the user's
      default list, creating it first when there is none. */
  function SaveHotel(db: Db, viewer: Option<Id>, hotelId: Id, listId: Option<Id>, freshId: Id, now: Timestamp): (o: Outcome<Db, Placement>)
    ensures viewer.None? ==> o == Outcome(db, Err(NotSignedIn))
    ensures viewer.Some? && OrNull(listId).Some? ==>
              var l := OrNull(listId).value;
              o == Outcome(SaveHotelToList(db, l, hotelId, now), Ok(Placement(l, hotelId)))
    ensures viewer.Some? && OrNull(listId).None? && o.result.Ok? ==>
              && (o.result.value.listId, hotelId) in ItemPairs(o.state)
              && exists d :: d in o.state.lists && d.id == o.result.value.listId && d.userId == viewer.value && d.isDefault
    ensures viewer.Some? && OrNull(listId).None? && HasDefaultList(db, viewer.value) ==>
              o.result.Ok? && o.state.lists == db.lists
    ensures viewer.Some? && OrNull(listId).None? && !HasDefaultList(db, viewer.value) && o.result.Ok? ==>
              o.state.lists == db.lists + [List(freshId, viewer.value, DefaultListName, true, now)]
    ensures o.result.Err? ==> o.state == db
    ensures o.result.Ok? ==> ItemPairs(o.state) == ItemPairs(db) + {(o.result.value.listId, hotelId)}
    ensures o.state == db.(lists := o.state.lists, listItems := o.state.listItems)
    ensures Valid(db) ==> Valid(o.state)
    ensures AtMostOneDefault(db) ==> AtMostOneDefault(o.state)
  {
    if viewer.None? then
      Outcome(db, Err(NotSignedIn))
    else if OrNull(listId).Some? then
      var l := OrNull(listId).value;
      Outcome(SaveHotelToList(db, l, hotelId, now), Ok(Placement(l, hotelId)))
    else
      var d := GetOrCreateDefaultList(db, viewer.value, freshId, now);
      if d.result.Err? then
        Outcome(d.state, Err(d.result.error))
      else
        var l := d.result.value;
        Outcome(SaveHotelToList(d.state, l.id, hotelId, now), Ok(Placement(l.id, hotelId)))
  }

  /** Saving with a named list writes only that pair and creates no list. */
  lemma SaveToNamedListCreatesNoList(db: Db, u: Id, hotelId: Id, listId: Id, freshId: Id, now: Timestamp)
    requires listId != ""
    ensures var o := SaveHotel(db, Some(u), hotelId, Some(listId), freshId, now);
            && o.state.lists == db.lists
            && ItemPairs(o.state) == ItemPairs(db) + {(listId, hotelId)}
            && o.state == db.(listItems := o.state.listItems)
  {
  }

  /** A signed-in user's save, when it succeeds, leaves the hotel saved for
      them if the list is theirs or no list is named. */
  lemma SaveLeavesHotelSaved(db: Db, u: Id, hotelId: Id, listId: Option<Id>, freshId: Id, now: Timestamp)
    requires OrNull(listId).Some? ==> OwnsList(db, u, OrNull(listId).value)
    requires SaveHotel(db, Some(u), hotelId, listId, freshId, now).result.Ok?
    ensures IsHotelSaved(SaveHotel(db, Some(u), hotelId, listId, freshId, now).state, u, hotelId)
  {
    var o := SaveHotel(db, Some(u), hotelId, listId, freshId, now);
    var l := o.result.value.listId;
    assert OwnsList(o.state, u, l) by {
      if OrNull(listId).Some? {
        var x :| x in db.lists && x.id == l && x.userId == u;
        assert x in o.state.lists;
      }
    }
    var i :| i in o.state.listItems && ItemKey(i) == (l, hotelId);
    var x :| x in o.state.lists && x.id == l && x.userId == u;
  }

  /** `useRemoveFromList`: delete the pair; no signed-in user is needed. */
  function RemoveFromList(db: Db, hotelId: Id, listId: Id): (o: Outcome<Db, Placement>)
    ensures o.result == Ok(Placement(listId, hotelId))
    ensures ItemPairs(o.state) == ItemPairs(db) - {(listId, hotelId)}
    ensures o.state == db.(listItems := o.state.listItems)
    ensures forall i :: i in o.state.listItems <==> i in db.listItems && ItemKey(i) != (listId, hotelId)
    ensures Valid(db) ==> Valid(o.state)
  {
    Outcome(RemoveHotelFromList(db, listId, hotelId), Ok(Placement(listId, hotelId)))
  }

  /** What `useToggleSave` returns. */
  datatype Toggled = Toggled(saved: bool, hotelId: Id)

  /** The list a toggle acts on once the default list is known. */
  function ToggleTarget(listId: Option<Id>, defaultId: Id): (t: Id)
    ensures OrNull(listId).Some? ==> t == OrNull(listId).value
    ensures OrNull(listId).None? ==> t == defaultId
  {
    match OrNull(listId)
    case Some(l) => l
    case None => defaultId
  }

  /** `useToggleSave`: when the hotel is saved in any of the user's lists,
      remove it from the named or the default list, otherwise save it there;
      the default list is fetched, or created, on both branches. */
  function ToggleSave(db: Db, viewer: Option<Id>, hotelId: Id, listId: Option<Id>, freshId: Id, now: Timestamp): (o: Outcome<Db, Toggled>)
    ensures viewer.None? ==> o == Outcome(db, Err(NotSignedIn))
    ensures o.result.Err? ==> o.state == db
    ensures viewer.Some? ==>
              var d := GetOrCreateDefaultList(db, viewer.value, freshId, now);
              o.result.Err? <==> d.result.Err?
    ensures o.result.Ok? ==> o.result.value == Toggled(!IsHotelSaved(db, viewer.value, hotelId), hotelId)
    ensures o.result.Ok? ==>
              var d := GetOrCreateDefaultList(db, viewer.value, freshId, now);
              var target := ToggleTarget(listId, d.result.value.id);
              if o.result.value.saved then ItemPairs(o.state) == ItemPairs(db) + {(target, hotelId)}
              else ItemPairs(o.state) == ItemPairs(db) - {(target, hotelId)}
    ensures o.result.Ok? ==> HasDefaultList(o.state, viewer.value)
    ensures viewer.Some? && HasDefaultList(db, viewer.value) ==> o.state.lists == db.lists
    ensures viewer.Some? && !HasDefaultList(db, viewer.value) && o.result.Ok? ==>
              o.state.lists == db.lists + [List(freshId, viewer.value, DefaultListName, true, now)]
    ensures o.state == db.(lists := o.state.lists, listItems := o.state.listItems)
    ensures Valid(db) ==> Valid(o.state)
    ensures AtMostOneDefault(db) ==> AtMostOneDefault(o.state)
  {
    if viewer.None? then
      Outcome(db, Err(NotSignedIn))
    else
      var u := viewer.value;
      var saved := IsHotelSaved(db, u, hotelId);
      var d := GetOrCreateDefaultList(db, u, freshId, now);
      if d.result.Err? then
        Outcome(d.state, Err(d.result.error))
      else
        var target := ToggleTarget(listId, d.result.value.id);
        assert ItemPairs(d.state) == ItemPairs(db);
        if saved then
          Outcome(RemoveHotelFromList(d.state, target, hotelId), Ok(Toggled(false, hotelId)))
        else
          Outcome(SaveHotelToList(d.state, target, hotelId, now), Ok(Toggled(true, hotelId)))
  }

  /** Toggling a hotel the user has not saved saves it, when the list acted
      on is the default or another list of theirs. */
  lemma ToggleUnsavedSaves(db: Db, u: Id, hotelId: Id, listId: Option<Id>, freshId: Id, now: Timestamp)
    requires !IsHotelSaved(db, u, hotelId)
    requires OrNull(listId).Some? ==> OwnsList(db, u, OrNull(listId).value)
    requires ToggleSave(db, Some(u), hotelId, listId, freshId, now).result.Ok?
    ensures var o := ToggleSave(db, Some(u), hotelId, listId, freshId, now);
            o.result.value.saved && IsHotelSaved(o.state, u, hotelId)
  {
    var o := ToggleSave(db, Some(u), hotelId, listId, freshId, now);
    var d := GetOrCreateDefaultList(db, u, freshId, now);
    var target := ToggleTarget(listId, d.result.value.id);
    assert (target, hotelId) in ItemPairs(o.state);
    var i :| i in o.state.listItems && ItemKey(i) == (target, hotelId);
    if OrNull(listId).Some? {
      var x :| x in db.lists && x.id == target && x.userId == u;
      assert x in o.state.lists;
    } else {
      assert d.result.value in o.state.lists;
    }
  }

  /** A hotel the user saved only outside the default list stays saved when
      toggled without naming a list, although the toggle reports it unsaved. */
  lemma ToggleKeepsOtherLists(db: Db, u: Id, hotelId: Id, freshId: Id, now: Timestamp, l: List)
    requires l in db.lists && l.userId == u && (l.id, hotelId) in ItemPairs(db)
    requires GetOrCreateDefaultList(db, u, freshId, now).result.Ok?
    requires l.id != GetOrCreateDefaultList(db, u, freshId, now).result.value.id
    ensures var o := ToggleSave(db, Some(u), hotelId, None, freshId, now);
            o.result.Ok? && !o.result.value.saved && IsHotelSaved(o.state, u, hotelId)
  {
    var o := ToggleSave(db, Some(u), hotelId, None, freshId, now);
    var i :| i in db.listItems && ItemKey(i) == (l.id, hotelId);
    assert IsHotelSaved(db, u, hotelId);
    assert (l.id, hotelId) in ItemPairs(o.state);
    var j :| j in o.state.listItems && ItemKey(j) == (l.id, hotelId);
    assert l in o.state.lists;
  }

  /** Toggling a saved hotel unsaves it when every one of the user's items for
      it is in the list acted on. */
  lemma ToggleSavedUnsaves(db: Db, u: Id, hotelId: Id, listId: Option<Id>, freshId: Id, now: Timestamp)
    requires IsHotelSaved(db, u, hotelId)
    requires HasDefaultList(db, u)
    requires var target := ToggleTarget(listId, GetOrCreateDefaultList(db, u, freshId, now).result.value.id);
             forall i :: i in db.listItems && i.hotelId == hotelId && OwnsList(db, u, i.listId) ==> i.listId == target
    ensures var o := ToggleSave(db, Some(u), hotelId, listId, freshId, now);
            o.result.Ok? && !o.result.value.saved && !IsHotelSaved(o.state, u, hotelId)
  {
    var target := ToggleTarget(listId, GetOrCreateDefaultList(db, u, freshId, now).result.value.id);
    ToggleOnSaved(db, u, hotelId, listId, freshId, now);
    RemovingLastOwnedUnsaves(db, u, hotelId, target);
  }

  /** Removing the hotel from the only one of the user's lists that holds it
      leaves it unsaved for them. */
  lemma RemovingLastOwnedUnsaves(db: Db, u: Id, hotelId: Id, target: Id)
    requires forall i :: i in db.listItems && i.hotelId == hotelId && OwnsList(db, u, i.listId) ==> i.listId == target
    ensures !IsHotelSaved(RemoveHotelFromList(db, target, hotelId), u, hotelId)
  {
    var after := RemoveHotelFromList(db, target, hotelId);
    forall i | i in after.listItems && i.hotelId == hotelId ensures !OwnsList(after, u, i.listId) {
      assert i in db.listItems;
    }
  }

  /** With a default list in place, toggling a saved hotel is exactly the
      removal of its pair from the list acted on. */
  lemma ToggleOnSaved(db: Db, u: Id, hotelId: Id, listId: Option<Id>, freshId: Id, now: Timestamp)
    requires IsHotelSaved(db, u, hotelId)
    requires HasDefaultList(db, u)
    ensures var target := ToggleTarget(listId, GetOrCreateDefaultList(db, u, freshId, now).result.value.id);
            ToggleSave(db, Some(u), hotelId, listId, freshId, now) ==
              Outcome(RemoveHotelFromList(db, target, hotelId), Ok(Toggled(false, hotelId)))
  {
  }
}

=== FILE: schema.dfy ===
/** The local database: one row type per table of `initDatabase`, the whole
    database as one value, and the table constraints as a validity predicate. */
module Schema {
  import opened Common

  type Id = string

  /** `datetime('now')` at the moment a row is inserted, supplied by the caller. */
  type Timestamp = nat

  datatype Table =
    | ProfilesTable | HotelsTable | HotelTagsTable | HotelTagMapTable | ReviewsTable
    | ReviewPhotosTable | ListsTable | ListItemsTable | FollowsTable

  datatype Profile = Profile(
    id: Id,
    username: Option<string>,
    fullName: Option<string>,
    avatarUrl: Option<string>,
    bio: Option<string>,
    homeCity: Option<string>,
    createdAt: Timestamp)

  datatype Hotel = Hotel(
    id: Id,
    name: string,
    city: Option<string>,
    country: Option<string>,
    address: Option<string>,
    lat: Option<real>,
    lng: Option<real>,
    placeId: Option<string>,
    websiteUrl: Option<string>,
    phone: Option<string>,
    priceTier: Option<string>,
    coverImageUrl: Option<string>,
    description: Option<string>,
    createdAt: Timestamp)

  datatype HotelTag = HotelTag(id: Id, name: string)

  /** A row of `hotel_tag_map`. */
  datatype TagLink = TagLink(hotelId: Id, tagId: Id)

  datatype Review = Review(
    id: Id,
    userId: Id,
    hotelId: Id,
    ratingOverall: int,
    ratingAesthetic: Option<int>,
    ratingService: Option<int>,
    ratingAmenities: Option<int>,
    title: Option<string>,
    body: Option<string>,
    tripType: Option<string>,
    stayDate: Option<string>,
    createdAt: Timestamp)

  datatype ReviewPhoto = ReviewPhoto(id: Id, reviewId: Id, url: string, createdAt: Timestamp)

  /** A row of `lists`; `is_default` is only ever written as 0 or 1. */
  datatype List = List(id: Id, userId: Id, name: string, isDefault: bool, createdAt: Timestamp)

  datatype ListItem = ListItem(listId: Id, hotelId: Id, createdAt: Timestamp)

  datatype Follow = Follow(followerId: Id, followingId: Id, createdAt: Timestamp)

  /** The database file: the tables created so far and their rows in insertion
      (rowid) order. */
  datatype Db = Db(
    tables: set<Table>,
    profiles: seq<Profile>,
    hotels: seq<Hotel>,
    tags: seq<HotelTag>,
    tagMap: seq<TagLink>,
    reviews: seq<Review>,
    photos: seq<ReviewPhoto>,
    lists: seq<List>,
    listItems: seq<ListItem>,
    follows: seq<Follow>)

  // Key columns, named so that filters and constraints can refer to them.
  function ProfileId(p: Profile): Id { p.id }
  function Username(p: Profile): Option<string> { p.username }
  function HotelId(h: Hotel): Id { h.id }
  function PlaceId(h: Hotel): Option<string> { h.placeId }
  function TagId(t: HotelTag): Id { t.id }
  function TagName(t: HotelTag): string { t.name }
  function LinkKey(l: TagLink): (Id, Id) { (l.hotelId, l.tagId) }
  function ReviewId(r: Review): Id { r.id }
  function ReviewPair(r: Review): (Id, Id) { (r.userId, r.hotelId) }
  function PhotoId(p: ReviewPhoto): Id { p.id }
  function ListId(l: List): Id { l.id }
  function ItemKey(i: ListItem): (Id, Id) { (i.listId, i.hotelId) }
  function FollowKey(f: Follow): (Id, Id) { (f.followerId, f.followingId) }

  // The `WHERE column = ?` selections the queries use.
  function ReviewsBy(userId: Id): Review -> bool { (r: Review) => r.userId == userId }
  function ReviewsOf(hotelId: Id): Review -> bool { (r: Review) => r.hotelId == hotelId }
  function PhotosOf(reviewId: Id): ReviewPhoto -> bool { (p: ReviewPhoto) => p.reviewId == reviewId }
  function ListsOf(userId: Id): List -> bool { (l: List) => l.userId == userId }
  function ItemsOf(listId: Id): ListItem -> bool { (i: ListItem) => i.listId == listId }
  function FollowsBy(followerId: Id): Follow -> bool { (f: Follow) => f.followerId == followerId }
  function FollowsOf(followingId: Id): Follow -> bool { (f: Follow) => f.followingId == followingId }

  /** Some list with id `listId` belongs to `userId`. */
  predicate OwnsList(db: Db, userId: Id, listId: Id)
  {
    exists l :: l in db.lists && l.id == listId && l.userId == userId
  }

  /** `list_items li JOIN lists l ON li.list_id = l.id WHERE l.user_id = ?`. */
  function ItemsOwnedBy(db: Db, userId: Id): ListItem -> bool
  {
    (i: ListItem) => OwnsList(db, userId, i.listId)
  }

  /** `followerId` follows `followingId`. */
  predicate Follows(db: Db, followerId: Id, followingId: Id)
  {
    (followerId, followingId) in FollowPairs(db)
  }

  /** The relationship tables as sets of pairs. */
  function LinkPairs(db: Db): set<(Id, Id)> { KeySet(db.tagMap, LinkKey) }
  function ItemPairs(db: Db): set<(Id, Id)> { KeySet(db.listItems, ItemKey) }
  function FollowPairs(db: Db): set<(Id, Id)> { KeySet(db.follows, FollowKey) }

  /** A `UNIQUE` column that may hold NULL: non-null values are pairwise
      different, any number of rows may be NULL. */
  predicate UniqueWhenPresent<T>(s: seq<T>, col: T -> Option<string>)
  {
    forall i, j :: 0 <= i < j < |s| && col(s[i]).Some? ==> col(s[i]) != col(s[j])
  }

  lemma AppendKeepsUnique<T>(s: seq<T>, col: T -> Option<string>, x: T)
    requires UniqueWhenPresent(s, col)
    requires col(x).Some? ==> forall i :: 0 <= i < |s| ==> col(s[i]) != col(x)
    ensures UniqueWhenPresent(s + [x], col)
  {
  }

  /** `CHECK (x >= 1 AND x <= 5)`. */
  predicate InRatingRange(x: int) { 1 <= x <= 5 }

  /** The same check on a nullable column: a CHECK passes when its operand is NULL. */
  predicate OptionalRatingOk(x: Option<int>) { x.None? || InRatingRange(x.value) }

  predicate RatingsOk(r: Review)
  {
    InRatingRange(r.ratingOverall)
    && OptionalRatingOk(r.ratingAesthetic)
    && OptionalRatingOk(r.ratingService)
    && OptionalRatingOk(r.ratingAmenities)
  }

  /** Every constraint the schema declares (foreign keys are not enforced by
      the engine, so they are not part of it). */
  predicate Valid(db: Db)
  {
    && KeysDistinct(db.profiles, ProfileId)
    && UniqueWhenPresent(db.profiles, Username)
    && KeysDistinct(db.hotels, HotelId)
    && UniqueWhenPresent(db.hotels, PlaceId)
    && KeysDistinct(db.tags, TagId)
    && KeysDistinct(db.tags, TagName)
    && KeysDistinct(db.tagMap, LinkKey)
    && KeysDistinct(db.reviews, ReviewId)
    && KeysDistinct(db.reviews, ReviewPair)
    && (forall r :: r in db.reviews ==> RatingsOk(r))
    && KeysDistinct(db.photos, PhotoId)
    && KeysDistinct(db.lists, ListId)
    && KeysDistinct(db.listItems, ItemKey)
    && KeysDistinct(db.follows, FollowKey)
  }


  /** Under the composite primary keys each pair is stored once, so a
      relationship table has exactly as many rows as pairs. */
  lemma PairTablesAreSets(db: Db)
    requires Valid(db)
    ensures |LinkPairs(db)| == |db.tagMap|
    ensures |ItemPairs(db)| == |db.listItems|
    ensures |FollowPairs(db)| == |db.follows|
  {
    DistinctKeysCard(db.tagMap, LinkKey);
    DistinctKeysCard(db.listItems, ItemKey);
    DistinctKeysCard(db.follows, FollowKey);
  }

  lemma PresentDeterminesIndex<T>(s: seq<T>, col: T -> Option<string>, i: int, j: int)
    requires UniqueWhenPresent(s, col)
    requires 0 <= i < |s| && 0 <= j < |s| && col(s[i]).Some? && col(s[i]) == col(s[j])
    ensures i == j
  {
  }

  /** At most one review per (user, hotel) pair, and all ratings in range. */
  lemma ReviewConstraints(db: Db, a: Review, b: Review)
    requires Valid(db)
    requires a in db.reviews && b in db.reviews
    ensures 1 <= a.ratingOverall <= 5
    ensures a.ratingAesthetic.Some? ==> 1 <= a.ratingAesthetic.value <= 5
    ensures a.ratingService.Some? ==> 1 <= a.ratingService.value <= 5
    ensures a.ratingAmenities.Some? ==> 1 <= a.ratingAmenities.value <= 5
    ensures a.userId == b.userId && a.hotelId == b.hotelId ==> a == b
  {
    var i :| 0 <= i < |db.reviews| && db.reviews[i] == a;
    var j :| 0 <= j < |db.reviews| && db.reviews[j] == b;
    if a.userId == b.userId && a.hotelId == b.hotelId {
      KeyDeterminesIndex(db.reviews, ReviewPair, i, j);
    }
  }

  /** A non-null username, place id or tag name identifies its row. */
  lemma UniqueColumns(db: Db)
    requires Valid(db)
    ensures forall p, q :: p in db.profiles && q in db.profiles && p.username.Some? && p.username == q.username ==> p == q
    ensures forall g, h :: g in db.hotels && h in db.hotels && g.placeId.Some? && g.placeId == h.placeId ==> g == h
    ensures forall s, t :: s in db.tags && t in db.tags && s.name == t.name ==> s == t
  {
    forall p, q | p in db.profiles && q in db.profiles && p.username.Some? && p.username == q.username
      ensures p == q
    {
      var i :| 0 <= i < |db.profiles| && db.profiles[i] == p;
      var j :| 0 <= j < |db.profiles| && db.profiles[j] == q;
      PresentDeterminesIndex(db.profiles, Username, i, j);
    }
    forall g, h | g in db.hotels && h in db.hotels && g.placeId.Some? && g.placeId == h.placeId
      ensures g == h
    {
      var i :| 0 <= i < |db.hotels| && db.hotels[i] == g;
      var j :| 0 <= j < |db.hotels| && db.hotels[j] == h;
      PresentDeterminesIndex(db.hotels, PlaceId, i, j);
    }
    forall s, t | s in db.tags && t in db.tags && s.name == t.name
      ensures s == t
    {
      var i :| 0 <= i < |db.tags| && db.tags[i] == s;
      var j :| 0 <= j < |db.tags| && db.tags[j] == t;
      KeyDeterminesIndex(db.tags, TagName, i, j);
    }
  }

  /** The schema allows NULL usernames on any number of profiles. */
  lemma NullUsernamesAllowed(a: Profile, b: Profile)
    requires a.id != b.id && a.username.None? && b.username.None?
    ensures Valid(Empty().(profiles := [a, b]))
  {
  }

  /** Each user has at most one list marked default. The schema does not
      enforce this; only `getOrCreateDefaultList` keeps it. */
  predicate AtMostOneDefault(db: Db)
  {
    forall i, j :: 0 <= i < j < |db.lists| && db.lists[i].isDefault && db.lists[j].isDefault
      ==> db.lists[i].userId != db.lists[j].userId
  }

  /** A valid database can hold two default lists for one user. */
  lemma DefaultNotEnforced(u: Id)
    ensures var db := Empty().(lists := [List("a", u, "Saved", true, 0), List("b", u, "Saved", true, 0)]);
            Valid(db) && !AtMostOneDefault(db)
  {
    var db := Empty().(lists := [List("a", u, "Saved", true, 0), List("b", u, "Saved", true, 0)]);
    assert ListId(db.lists[0]) != ListId(db.lists[1]);
    assert KeysDistinct(db.lists, ListId);
  }

  /** The tables `initDatabase` creates, in statement order. */
  const AllTables: seq<Table> := [
    ProfilesTable, HotelsTable, HotelTagsTable, HotelTagMapTable, ReviewsTable,
    ReviewPhotosTable, ListsTable, ListItemsTable, FollowsTable]

  function Empty(): Db
  {
    Db({}, [], [], [], [], [], [], [], [], [])
  }

  function RowCount(db: Db, t: Table): nat
  {
    match t
    case ProfilesTable => |db.profiles|
    case HotelsTable => |db.hotels|
    case HotelTagsTable => |db.tags|
    case HotelTagMapTable => |db.tagMap|
    case ReviewsTable => |db.reviews|
    case ReviewPhotosTable => |db.photos|
    case ListsTable => |db.lists|
    case ListItemsTable => |db.listItems|
    case FollowsTable => |db.follows|
  }

  /** A table that does not exist holds no rows. */
  predicate WellFormed(db: Db)
  {
    forall t :: t !in db.tables ==> RowCount(db, t) == 0
  }

  /** `CREATE TABLE t` with its rows empty. */
  function WithEmptyTable(db: Db, t: Table): Db
  {
    var db' := db.(tables := db.tables + {t});
    match t
    case ProfilesTable => db'.(profiles := [])
    case HotelsTable => db'.(hotels := [])
    case HotelTagsTable => db'.(tags := [])
    case HotelTagMapTable => db'.(tagMap := [])
    case ReviewsTable => db'.(reviews := [])
    case ReviewPhotosTable => db'.(photos := [])
    case ListsTable => db'.(lists := [])
    case ListItemsTable => db'.(listItems := [])
    case FollowsTable => db'.(follows := [])
  }

  /** `CREATE TABLE IF NOT EXISTS t`. */
  function CreateIfMissing(db: Db, t: Table): Db
  {
    if t in db.tables then db else WithEmptyTable(db, t)
  }

  function RunCreates(db: Db, ts: seq<Table>): (r: Db)
    ensures r.tables == db.tables + set t | t in ts
    decreases |ts|
  {
    if ts == [] then db
    else
      assert (set x | x in ts) == {ts[0]} + set x | x in ts[1..];
      RunCreates(CreateIfMissing(db, ts[0]), ts[1..])
  }

  /** `initDatabase`: the nine `CREATE TABLE IF NOT EXISTS` statements. */
  function InitDatabase(db: Db): (r: Db)
    ensures r.tables == db.tables + set t | t in AllTables
  {
    RunCreates(db, AllTables)
  }

  lemma {:induction false} RunCreatesKeepsRows(db: Db, ts: seq<Table>)
    requires WellFormed(db)
    ensures RunCreates(db, ts) == db.(tables := db.tables + set t | t in ts)
    decreases |ts|
  {
    if ts != [] {
      var t := ts[0];
      var next := CreateIfMissing(db, t);
      if t !in db.tables {
        assert RowCount(db, t) == 0;
        assert next == db.(tables := db.tables + {t});
      }
      RunCreatesKeepsRows(next, ts[1..]);
      assert (set x | x in ts) == {t} + set x | x in ts[1..];
    }
  }

  /** On a well-formed database, `initDatabase` only adds the missing tables:
      every row of every table is unchanged, and so is validity. */
  lemma InitDatabaseKeepsRows(db: Db)
    requires WellFormed(db)
    ensures InitDatabase(db) == db.(tables := db.tables + set t | t in AllTables)
    ensures Valid(db) ==> Valid(InitDatabase(db))
    ensures WellFormed(InitDatabase(db))
  {
    RunCreatesKeepsRows(db, AllTables);
  }

  /** Running `initDatabase` a second time changes nothing. */
  lemma InitDatabaseIdempotent(db: Db)
    requires WellFormed(db)
    ensures InitDatabase(InitDatabase(db)) == InitDatabase(db)
  {
    InitDatabaseKeepsRows(db);
    InitDatabaseKeepsRows(InitDatabase(db));
  }
}

=== FILE: sorting.dfy ===
/** `ORDER BY`: a sort by a total preorder. Rows that compare equal may come
    out in any order, so contracts promise only order and permutation. */
module Sorting {
  import opened Common

  /** `le` is total and transitive: a legitimate `ORDER BY` comparison. */
  ghost predicate IsTotalPreorder<T(!new)>(le: (T, T) -> bool)
  {
    && (forall a, b :: le(a, b) || le(b, a))
    && (forall a, b, c :: le(a, b) && le(b, c) ==> le(a, c))
  }

  predicate SortedBy<T>(s: seq<T>, le: (T, T) -> bool)
  {
    forall i, j :: 0 <= i < j < |s| ==> le(s[i], s[j])
  }

  function Insert<T(!new)>(x: T, s: seq<T>, le: (T, T) -> bool): (r: seq<T>)
    requires IsTotalPreorder(le)
    requires SortedBy(s, le)
    ensures SortedBy(r, le)
    ensures multiset(r) == multiset(s) + multiset{x}
    ensures forall y :: y in r ==> y == x || y in s
  {
    if s == [] then [x]
    else if le(x, s[0]) then
      assert forall j :: 0 < j < |s| ==> le(s[0], s[j]);
      [x] + s
    else
      var rest := Insert(x, s[1..], le);
      assert s == [s[0]] + s[1..];
      assert forall y :: y in rest ==> le(s[0], y);
      [s[0]] + rest
  }

  /** The rows of `s` rearranged so that `le` holds between every earlier and
      later row. */
  function Sort<T(!new)>(s: seq<T>, le: (T, T) -> bool): (r: seq<T>)
    requires IsTotalPreorder(le)
    ensures SortedBy(r, le)
    ensures multiset(r) == multiset(s)
    ensures |r| == |s|
  {
    if s == [] then []
    else
      assert s == [s[0]] + s[1..];
      Insert(s[0], Sort(s[1..], le), le)
  }

  /** `LIMIT n` after `ORDER BY` keeps a first prefix: every row it drops
      comes, by `le`, after every row it keeps. */
  lemma TakeKeepsFirst<T>(s: seq<T>, le: (T, T) -> bool, n: nat, y: T)
    requires SortedBy(s, le)
    requires y in s && y !in s[..Min(n, |s|)]
    ensures forall i :: 0 <= i < Min(n, |s|) ==> le(s[i], y)
  {
    var k :| 0 <= k < |s| && s[k] == y;
  }
}

=== FILE: sql_like.dfy ===
/** The storage engine's `LIKE` operator as `getHotels` uses it: no ESCAPE
    clause, `%` matches any run of characters, `_` any one character, and every
    other character matches itself up to ASCII case. */
module SqlLike {
  import opened Text

  predicate Like(s: string, p: string)
    decreases |s| + |p|
  {
    if p == [] then s == []
    else if p[0] == '%' then Like(s, p[1..]) || (s != [] && Like(s[1..], p))
    else s != [] && (p[0] == '_' || FoldEq(s[0], p[0])) && Like(s[1..], p[1..])
  }

  /** A search text holding neither wildcard, so `LIKE` reads it literally. */
  predicate WildcardFree(q: string)
  {
    forall i :: 0 <= i < |q| ==> q[i] != '%' && q[i] != '_'
  }

  /** `q` occurs in `s` starting at `i`, up to ASCII case. */
  ghost predicate OccursAt(s: string, q: string, i: int)
  {
    0 <= i && i + |q| <= |s| && forall j :: 0 <= j < |q| ==> FoldEq(s[i + j], q[j])
  }

  /** `q` is a substring of `s` up to ASCII case: the "contains" reading of a
      search box. */
  ghost predicate ContainsFolded(s: string, q: string)
  {
    exists i :: OccursAt(s, q, i)
  }

  lemma {:induction false} LikeAnything(s: string)
    ensures Like(s, "%")
    decreases |s|
  {
    assert "%"[1..] == [];
    if s != [] {
      LikeAnything(s[1..]);
    }
  }

  /** A literal text followed by `%` matches exactly the strings it prefixes. */
  lemma {:induction false} LikePrefix(s: string, q: string)
    requires WildcardFree(q)
    ensures Like(s, q + "%") <==> OccursAt(s, q, 0)
    decreases |q|
  {
    if q == [] {
      assert q + "%" == "%";
      LikeAnything(s);
    } else {
      var p := q + "%";
      assert p[0] == q[0] && p[1..] == q[1..] + "%";
      assert WildcardFree(q[1..]) by {
        forall i | 0 <= i < |q[1..]| ensures q[1..][i] != '%' && q[1..][i] != '_' {
          assert q[1..][i] == q[i + 1];
        }
      }
      if s == [] {
      } else {
        LikePrefix(s[1..], q[1..]);
        if OccursAt(s[1..], q[1..], 0) && FoldEq(s[0], q[0]) {
          forall j | 0 <= j < |q| ensures FoldEq(s[j], q[j]) {
            if j > 0 {
              assert s[1..][j - 1] == s[j] && q[1..][j - 1] == q[j];
            }
          }
        }
        if OccursAt(s, q, 0) {
          forall j | 0 <= j < |q[1..]| ensures FoldEq(s[1..][j], q[1..][j]) {
            assert s[1..][j] == s[j + 1] && q[1..][j] == q[j + 1];
          }
        }
      }
    }
  }

  /** A leading `%` lets the rest of the pattern match any suffix. */
  lemma {:induction false} LikeSuffix(s: string, p: string)
    ensures Like(s, "%" + p) <==> exists i :: 0 <= i <= |s| && Like(s[i..], p)
    decreases |s|
  {
    var pp := "%" + p;
    assert pp[0] == '%' && pp[1..] == p;
    assert s[0..] == s;
    if s != [] {
      LikeSuffix(s[1..], p);
      if exists i :: 0 <= i <= |s[1..]| && Like(s[1..][i..], p) {
        var i :| 0 <= i <= |s[1..]| && Like(s[1..][i..], p);
        assert s[1..][i..] == s[i + 1..];
      }
      if exists i :: 0 <= i <= |s| && Like(s[i..], p) {
        var i :| 0 <= i <= |s| && Like(s[i..], p);
        if i > 0 {
          assert s[1..][i - 1..] == s[i..];
        }
      }
    }
  }

  /** `name LIKE '%q%'` for a literal `q` is case-insensitive containment. */
  lemma ContainsAsLike(s: string, q: string)
    requires WildcardFree(q)
    ensures Like(s, "%" + q + "%") <==> ContainsFolded(s, q)
  {
    assert "%" + q + "%" == "%" + (q + "%");
    LikeSuffix(s, q + "%");
    if ContainsFolded(s, q) {
      var i :| OccursAt(s, q, i);
      LikePrefix(s[i..], q);
      assert OccursAt(s[i..], q, 0) by {
        forall j | 0 <= j < |q| ensures FoldEq(s[i..][j], q[j]) {
          assert s[i..][j] == s[i + j];
        }
      }
    }
    if exists i :: 0 <= i <= |s| && Like(s[i..], q + "%") {
      var i :| 0 <= i <= |s| && Like(s[i..], q + "%");
      LikePrefix(s[i..], q);
      assert OccursAt(s, q, i) by {
        forall j | 0 <= j < |q| ensures FoldEq(s[i + j], q[j]) {
          assert s[i..][j] == s[i + j];
        }
      }
    }
  }
}

=== FILE: text.dfy ===
/** Character and string primitives the store and the formatters rely on:
    the engine's BINARY collation, ASCII case folding and decimal rendering of
    integers. */
module Text {

  /** The BINARY collation of the storage engine: memcmp over UTF-8 bytes,
      which orders strings lexicographically by code point. */
  predicate StrLe(a: string, b: string)
  {
    if a == [] then true
    else if b == [] then false
    else if a[0] != b[0] then a[0] < b[0]
    else StrLe(a[1..], b[1..])
  }

  lemma {:induction false} StrLeTotal(a: string, b: string)
    ensures StrLe(a, b) || StrLe(b, a)
  {
    if a != [] && b != [] && a[0] == b[0] {
      StrLeTotal(a[1..], b[1..]);
    }
  }

  lemma {:induction false} StrLeTransitive(a: string, b: string, c: string)
    requires StrLe(a, b) && StrLe(b, c)
    ensures StrLe(a, c)
  {
    if a != [] && b != [] && c != [] && a[0] == b[0] && b[0] == c[0] {
      StrLeTransitive(a[1..], b[1..], c[1..]);
    }
  }

  lemma {:induction false} StrLeAntisymmetric(a: string, b: string)
    requires StrLe(a, b) && StrLe(b, a)
    ensures a == b
  {
    if a != [] && b != [] {
      StrLeAntisymmetric(a[1..], b[1..]);
      assert a == [a[0]] + a[1..] && b == [b[0]] + b[1..];
    }
  }

  /** ASCII-only lower-casing, as the engine's LIKE folds case. */
  function AsciiLower(c: char): char
  {
    if 'A' <= c <= 'Z' then (c as int + 32) as char else c
  }

  /** Whether two characters are equal once ASCII letters are folded. */
  predicate FoldEq(a: char, b: char)
  {
    AsciiLower(a) == AsciiLower(b)
  }

  /** `n` copies of `c`. */
  function Repeat(c: char, n: nat): (r: string)
    ensures |r| == n
    ensures forall i :: 0 <= i < n ==> r[i] == c
  {
    if n == 0 then [] else [c] + Repeat(c, n - 1)
  }

  predicate IsDigit(c: char) { '0' <= c <= '9' }

  function DigitChar(d: nat): (c: char)
    requires d < 10
    ensures IsDigit(c) && c as int - '0' as int == d
  {
    ('0' as int + d) as char
  }

  /** The decimal digits of `n` with no leading zero, as `String(n)` prints a
      non-negative integer. */
  function NatToString(n: nat): (s: string)
    ensures |s| >= 1
    ensures forall i :: 0 <= i < |s| ==> IsDigit(s[i])
    ensures s[0] == '0' ==> n == 0
  {
    if n < 10 then [DigitChar(n)] else NatToString(n / 10) + [DigitChar(n % 10)]
  }

  /** The number a string of decimal digits denotes (the inverse reading). */
  function DigitsValue(s: string): nat
    requires forall i :: 0 <= i < |s| ==> IsDigit(s[i])
  {
    if s == [] then 0
    else
      assert IsDigit(s[|s| - 1]);
      DigitsValue(s[..|s| - 1]) * 10 + (s[|s| - 1] as int - '0' as int)
  }

  lemma {:induction false} NatToStringRoundTrip(n: nat)
    ensures DigitsValue(NatToString(n)) == n
  {
    if n >= 10 {
      var s := NatToString(n);
      NatToStringRoundTrip(n / 10);
      assert s[..|s| - 1] == NatToString(n / 10);
    }
  }

  /** Two naturals print the same way only if they are equal. */
  lemma NatToStringInjective(m: nat, n: nat)
    requires NatToString(m) == NatToString(n)
    ensures m == n
  {
    NatToStringRoundTrip(m);
    NatToStringRoundTrip(n);
  }

  /** `String(n)` for an integer below 10^21 in magnitude (beyond that JavaScript
      switches to exponent notation). */
  function IntToString(n: int): (s: string)
    ensures n < 0 ==> |s| >= 2 && s[0] == '-' && s[1..] == NatToString(-n)
    ensures n >= 0 ==> s == NatToString(n)
  {
    if n < 0 then "-" + NatToString(-n) else NatToString(n)
  }
}

=== FILE: utf16.dfy ===
/** JavaScript string values. `length`, `charAt`, `charCodeAt` and `slice`
    count and index UTF-16 code units, so a character above U+FFFF takes two
    of them (a surrogate pair) and can be cut in half. */
module Utf16 {
  import opened Common

  /** One UTF-16 code unit. */
  type CodeUnit = u: int | 0 <= u < 0x1_0000

  /** A JavaScript string: any sequence of code units, paired or not. */
  type JsString = seq<CodeUnit>

  predicate IsHighSurrogate(u: CodeUnit) { 0xD800 <= u < 0xDC00 }

  predicate IsLowSurrogate(u: CodeUnit) { 0xDC00 <= u < 0xE000 }

  /** The units of one character: the character itself below U+10000,
      otherwise a high surrogate carrying the upper ten bits of `c - 0x10000`
      and a low surrogate carrying the lower ten. */
  function CharUnits(c: char): (us: JsString)
    ensures |us| == 1 <==> c as int < 0x1_0000
    ensures |us| == 1 ==> us[0] == c as int && !IsHighSurrogate(us[0]) && !IsLowSurrogate(us[0])
    ensures |us| != 1 ==> |us| == 2 && IsHighSurrogate(us[0]) && IsLowSurrogate(us[1])
    ensures |us| != 1 ==> PairValue(us[0], us[1]) == c as int
  {
    var n := c as int;
    if n < 0x1_0000 then [n]
    else [0xD800 + (n - 0x1_0000) / 0x400, 0xDC00 + (n - 0x1_0000) % 0x400]
  }

  /** The code point a surrogate pair stands for. */
  function PairValue(hi: CodeUnit, lo: CodeUnit): int
  {
    0x1_0000 + (hi - 0xD800) * 0x400 + (lo - 0xDC00)
  }

  /** The string as JavaScript holds it: each character's units in turn. */
  function Encode(s: string): (us: JsString)
    ensures |us| >= |s|
  {
    if s == [] then [] else CharUnits(s[0]) + Encode(s[1..])
  }

  /** Reading units back into characters; `None` at an unpaired surrogate. */
  function Decode(us: JsString): (r: Option<string>)
    ensures r.Some? ==> |r.value| <= |us|
    decreases |us|
  {
    if us == [] then Some([])
    else if |us| >= 2 && IsHighSurrogate(us[0]) && IsLowSurrogate(us[1]) then
      var c := PairValue(us[0], us[1]);
      match Decode(us[2..])
      case None => None
      case Some(rest) => Some([c as char] + rest)
    else if IsHighSurrogate(us[0]) || IsLowSurrogate(us[0]) then None
    else
      match Decode(us[1..])
      case None => None
      case Some(rest) => Some([us[0] as char] + rest)
  }

  /** Encoding loses nothing: every string reads back from its units. */
  lemma {:induction false} DecodeEncode(s: string)
    ensures Decode(Encode(s)) == Some(s)
    decreases |s|
  {
    if s != [] {
      var head := CharUnits(s[0]);
      DecodeEncode(s[1..]);
      assert Encode(s) == head + Encode(s[1..]);
      if |head| == 1 {
        assert Encode(s)[1..] == Encode(s[1..]);
      } else {
        assert Encode(s)[2..] == Encode(s[1..]);
      }
      assert s == [s[0]] + s[1..];
    }
  }

  /** Text without characters above U+FFFF has one unit per character, so
      its JavaScript length is its number of characters. */
  lemma {:induction false} EncodeBasic(s: string)
    requires forall i :: 0 <= i < |s| ==> s[i] as int < 0x1_0000
    ensures |Encode(s)| == |s|
    ensures forall i :: 0 <= i < |s| ==> Encode(s)[i] == s[i] as int
    decreases |s|
  {
    if s != [] {
      EncodeBasic(s[1..]);
      assert Encode(s) == [s[0] as int] + Encode(s[1..]);
    }
  }

  /** The units JavaScript's `trim` removes and `\s` matches: the WhiteSpace
      and LineTerminator productions of ECMAScript, all below U+10000. */
  predicate IsJsSpace(u: CodeUnit)
  {
    || u == 0x0009 || u == 0x000A || u == 0x000B || u == 0x000C
    || u == 0x000D || u == 0x0020 || u == 0x00A0 || u == 0x1680
    || (0x2000 <= u <= 0x200A)
    || u == 0x2028 || u == 0x2029 || u == 0x202F || u == 0x205F
    || u == 0x3000 || u == 0xFEFF
  }

  /** ASCII-only upper-casing of one unit; surrogates are left alone. */
  function UpperUnit(u: CodeUnit): CodeUnit
  {
    if 0x61 <= u <= 0x7A then u - 32 else u
  }

  function UpperUnits(s: JsString): (r: JsString)
    ensures |r| == |s|
    ensures forall i :: 0 <= i < |s| ==> r[i] == UpperUnit(s[i])
  {
    if s == [] then [] else [UpperUnit(s[0])] + UpperUnits(s[1..])
  }
}

=== FILE: uuid.dfy ===
/** `generateId`: every `x` of the template 'xxxxxxxx-xxxx-4xxx-yxxx-xxxxxxxxxxxx'
    becomes a random hexadecimal digit, and the `y` becomes `(r & 0x3) | 0x8`,
    left to right. The 31 random nibbles (`Math.random() * 16 | 0`, one per
    placeholder, in order) are a parameter. */
module Uuid {
  import opened Text

  type Nibble = n: int | 0 <= n < 16

  const Template: string := "xxxxxxxx-xxxx-4xxx-yxxx-xxxxxxxxxxxx"

  predicate IsSlot(c: char) { c == 'x' || c == 'y' }

  /** The number of placeholders in `t`: how many nibbles the replacement draws. */
  function Slots(t: string): nat
  {
    if t == [] then 0 else (if IsSlot(t[0]) then 1 else 0) + Slots(t[1..])
  }

  /** `v.toString(16)` for a nibble: one lower-case hexadecimal digit. */
  function HexDigit(n: Nibble): char
  {
    if n < 10 then ('0' as int + n) as char else ('a' as int + n - 10) as char
  }

  predicate IsHexDigit(c: char) { '0' <= c <= '9' || 'a' <= c <= 'f' }

  function HexValue(c: char): Nibble
    requires IsHexDigit(c)
  {
    if c <= '9' then c as int - '0' as int else c as int - 'a' as int + 10
  }

  /** `(r & 0x3) | 0x8`: the two top bits of the variant nibble forced to `10`. */
  function VariantNibble(r: Nibble): Nibble
  {
    (((r as bv8) & 0x3) | 0x8) as int
  }

  /** The digit a placeholder becomes. */
  function Draw(c: char, r: Nibble): char
  {
    if c == 'x' then HexDigit(r) else HexDigit(VariantNibble(r))
  }

  /** Replaces the placeholders of `t` left to right, consuming one nibble each. */
  function Fill(t: string, rs: seq<Nibble>): (id: string)
    requires |rs| == Slots(t)
    ensures |id| == |t|
  {
    if t == [] then []
    else if IsSlot(t[0]) then [Draw(t[0], rs[0])] + Fill(t[1..], rs[1..])
    else [t[0]] + Fill(t[1..], rs)
  }

  function GenerateId(rs: seq<Nibble>): (id: string)
    requires |rs| == 31
    ensures IsRandomUuid(id)
  {
    GenerateIdLayout(rs);
    LayoutIsRandomUuid(rs);
    Fill(Template, rs)
  }

  /** Positions of the fixed hyphens in the canonical 8-4-4-4-12 layout. */
  predicate IsHyphenPosition(i: int) { i == 8 || i == 13 || i == 18 || i == 23 }

  /** The random-UUID layout of section 4.4 of RFC 4122 in its textual form:
      36 characters, hyphens at 8, 13, 18 and 23, version digit '4' at 14,
      variant digit 8, 9, a or b at 19, lower-case hexadecimal elsewhere. */
  predicate IsRandomUuid(id: string)
  {
    && |id| == 36
    && (forall i :: 0 <= i < 36 && IsHyphenPosition(i) ==> id[i] == '-')
    && id[14] == '4'
    && (id[19] == '8' || id[19] == '9' || id[19] == 'a' || id[19] == 'b')
    && (forall i :: 0 <= i < 36 && !IsHyphenPosition(i) ==> IsHexDigit(id[i]))
  }

  function HexString(rs: seq<Nibble>): (s: string)
    ensures |s| == |rs|
    ensures forall i :: 0 <= i < |rs| ==> s[i] == HexDigit(rs[i])
  {
    if rs == [] then [] else [HexDigit(rs[0])] + HexString(rs[1..])
  }

  /** The nibble that lands at a non-fixed position `i` of the identifier. */
  function SlotOf(i: nat): nat
  {
    if i < 8 then i else if i < 13 then i - 1 else if i < 18 then i - 3 else if i < 23 then i - 4 else i - 5
  }

  /** Where the `k`-th nibble lands: the inverse of `SlotOf`. */
  function SlotPosition(k: nat): (i: nat)
    requires k < 31
    ensures i < 36 && !IsHyphenPosition(i) && i != 14 && SlotOf(i) == k
  {
    if k < 8 then k else if k < 12 then k + 1 else if k < 15 then k + 3 else if k < 19 then k + 4 else k + 5
  }

  /** The identifier position by position. */
  function Layout(rs: seq<Nibble>): (id: string)
    requires |rs| == 31
    ensures |id| == 36
  {
    seq(36, i requires 0 <= i < 36 =>
      if IsHyphenPosition(i) then '-'
      else if i == 14 then '4'
      else if i == 19 then HexDigit(VariantNibble(rs[15]))
      else HexDigit(rs[SlotOf(i)]))
  }

  lemma VariantNibbleValue(r: Nibble)
    ensures VariantNibble(r) == 8 + r % 4
  {
    var b := r as bv8;
    assert b & 0x3 == (r % 4) as bv8;
    assert ((r % 4) as bv8) | 0x8 == (8 + r % 4) as bv8;
  }

  lemma {:induction false} SlotsAppend(a: string, b: string)
    ensures Slots(a + b) == Slots(a) + Slots(b)
  {
    if a != [] {
      assert (a + b)[0] == a[0];
      assert (a + b)[1..] == a[1..] + b;
      SlotsAppend(a[1..], b);
    } else {
      assert a + b == b;
    }
  }

  lemma FillCons(c: char, t: string, rs: seq<Nibble>)
    requires |rs| == Slots([c] + t)
    ensures Slots([c] + t) == (if IsSlot(c) then 1 else 0) + Slots(t)
    ensures IsSlot(c) ==> Fill([c] + t, rs) == [Draw(c, rs[0])] + Fill(t, rs[1..])
    ensures !IsSlot(c) ==> Fill([c] + t, rs) == [c] + Fill(t, rs)
  {
    assert ([c] + t)[0] == c && ([c] + t)[1..] == t;
  }

  lemma {:induction false} FillAppend(a: string, b: string, ra: seq<Nibble>, rb: seq<Nibble>)
    requires |ra| == Slots(a) && |rb| == Slots(b)
    ensures Slots(a + b) == |ra + rb|
    ensures Fill(a + b, ra + rb) == Fill(a, ra) + Fill(b, rb)
    decreases |a|
  {
    SlotsAppend(a, b);
    if a == [] {
      assert a + b == b && ra + rb == rb;
    } else {
      assert (a + b)[0] == a[0] && (a + b)[1..] == a[1..] + b;
      if IsSlot(a[0]) {
        assert (ra + rb)[1..] == ra[1..] + rb;
        FillAppend(a[1..], b, ra[1..], rb);
      } else {
        FillAppend(a[1..], b, ra, rb);
      }
    }
  }

  lemma {:induction false} FillHex(n: nat, rs: seq<Nibble>)
    requires |rs| == n
    ensures Slots(Repeat('x', n)) == n
    ensures Fill(Repeat('x', n), rs) == HexString(rs)
  {
    if n > 0 {
      assert Repeat('x', n)[1..] == Repeat('x', n - 1);
      FillHex(n - 1, rs[1..]);
    }
  }

  /** The template cut at its fixed characters. */
  lemma TemplatePieces()
    ensures Template == TemplateOfPieces()
  {
    RepeatX();
  }

  lemma RepeatX()
    ensures Repeat('x', 3) == "xxx"
    ensures Repeat('x', 4) == "xxxx"
    ensures Repeat('x', 8) == "xxxxxxxx"
    ensures Repeat('x', 12) == "xxxxxxxxxxxx"
  {
    assert Repeat('x', 4) == "x" + Repeat('x', 3);
    assert Repeat('x', 8) == "xxxx" + Repeat('x', 4) by { RepeatSplit(4, 4); }
    assert Repeat('x', 12) == "xxxx" + Repeat('x', 8) by { RepeatSplit(4, 8); }
  }

  lemma {:induction false} RepeatSplit(a: nat, b: nat)
    ensures Repeat('x', a + b) == Repeat('x', a) + Repeat('x', b)
  {
    if a > 0 {
      RepeatSplit(a - 1, b);
      assert Repeat('x', a + b) == ['x'] + Repeat('x', a - 1 + b);
    }
  }

  lemma FillHexThen(n: nat, t: string, ra: seq<Nibble>, rb: seq<Nibble>)
    requires |ra| == n && |rb| == Slots(t)
    ensures Slots(Repeat('x', n) + t) == |ra + rb|
    ensures Fill(Repeat('x', n) + t, ra + rb) == HexString(ra) + Fill(t, rb)
  {
    FillHex(n, ra);
    FillAppend(Repeat('x', n), t, ra, rb);
  }

  lemma FillFixedThen(f: string, t: string, rb: seq<Nibble>)
    requires Slots(f) == 0 && Fill(f, []) == f && |rb| == Slots(t)
    ensures Slots(f + t) == |rb|
    ensures Fill(f + t, rb) == f + Fill(t, rb)
  {
    var e: seq<Nibble> := [];
    FillAppend(f, t, e, rb);
    assert e + rb == rb;
  }

  /** The identifier as the template's pieces filled one by one. */
  function Pieces(rs: seq<Nibble>): string
    requires |rs| == 31
  {
    HexString(rs[..8]) + ("-" + (HexString(rs[8..12]) + ("-4" + (HexString(rs[12..15])
      + (['-', Draw('y', rs[15])] + (HexString(rs[16..19]) + ("-" + HexString(rs[19..]))))))))
  }

  lemma FillDash(t: string, rb: seq<Nibble>)
    requires |rb| == Slots(t)
    ensures Slots("-" + t) == |rb|
    ensures Fill("-" + t, rb) == "-" + Fill(t, rb)
  {
    assert Slots("-") == 0 && Fill("-", []) == "-";
    FillFixedThen("-", t, rb);
  }

  lemma FillVersion(t: string, rb: seq<Nibble>)
    requires |rb| == Slots(t)
    ensures Slots("-4" + t) == |rb|
    ensures Fill("-4" + t, rb) == "-4" + Fill(t, rb)
  {
    assert Slots("-4") == 0 && Fill("-4", []) == "-4";
    FillFixedThen("-4", t, rb);
  }

  lemma FillVariant(t: string, r: Nibble, rb: seq<Nibble>)
    requires |rb| == Slots(t)
    ensures Slots("-y" + t) == |[r] + rb|
    ensures Fill("-y" + t, [r] + rb) == ['-', Draw('y', r)] + Fill(t, rb)
  {
    assert Slots("-y") == 1 && Fill("-y", [r]) == ['-', Draw('y', r)];
    FillAppend("-y", t, [r], rb);
  }

  /** The last three pieces: `-yxxx-xxxxxxxxxxxx`. */
  lemma FillTemplateTail(rs: seq<Nibble>)
    requires |rs| == 31
    ensures Slots("-y" + (Repeat('x', 3) + ("-" + Repeat('x', 12)))) == |rs[15..]|
    ensures Fill("-y" + (Repeat('x', 3) + ("-" + Repeat('x', 12))), rs[15..])
         == ['-', Draw('y', rs[15])] + (HexString(rs[16..19]) + ("-" + HexString(rs[19..])))
  {
    var a, b, c := rs[15], rs[16..19], rs[19..];
    var tail := "-" + Repeat('x', 12);
    FillHex(12, c);
    FillDash(Repeat('x', 12), c);
    assert Fill(tail, c) == "-" + HexString(c);
    FillHexThen(3, tail, b, c);
    assert b + c == rs[16..];
    FillVariant(Repeat('x', 3) + tail, a, b + c);
    assert [a] + (b + c) == rs[15..];
  }

  /** The template as its pieces, without naming the literal. */
  function TemplateOfPieces(): string
  {
    Repeat('x', 8) + ("-" + (Repeat('x', 4) + ("-4" + (Repeat('x', 3)
      + ("-y" + (Repeat('x', 3) + ("-" + Repeat('x', 12))))))))
  }

  lemma FillPieces(rs: seq<Nibble>)
    requires |rs| == 31
    ensures Slots(TemplateOfPieces()) == 31
    ensures Fill(TemplateOfPieces(), rs) == Pieces(rs)
  {
    var t5 := "-y" + (Repeat('x', 3) + ("-" + Repeat('x', 12)));
    FillTemplateTail(rs);
    FillHexThen(3, t5, rs[12..15], rs[15..]);
    assert rs[12..15] + rs[15..] == rs[12..];
    FillVersion(Repeat('x', 3) + t5, rs[12..]);
    FillHexThen(4, "-4" + (Repeat('x', 3) + t5), rs[8..12], rs[12..]);
    assert rs[8..12] + rs[12..] == rs[8..];
    FillDash(Repeat('x', 4) + ("-4" + (Repeat('x', 3) + t5)), rs[8..]);
    FillHexThen(8, "-" + (Repeat('x', 4) + ("-4" + (Repeat('x', 3) + t5))), rs[..8], rs[8..]);
    assert rs[..8] + rs[8..] == rs;
  }

  lemma PiecesLayout(rs: seq<Nibble>)
    requires |rs| == 31
    ensures Pieces(rs) == Layout(rs)
  {
    var P, L := Pieces(rs), Layout(rs);
    var h6 := "-" + HexString(rs[19..]);
    var h5 := HexString(rs[16..19]) + h6;
    var h4 := ['-', Draw('y', rs[15])] + h5;
    var h3 := HexString(rs[12..15]) + h4;
    var h2 := "-4" + h3;
    var h1 := HexString(rs[8..12]) + h2;
    var h0 := "-" + h1;
    assert P == HexString(rs[..8]) + h0;
    forall i | 0 <= i < 36 ensures P[i] == L[i] {
      if i < 8 {
      } else if i < 9 {
      } else if i < 13 {
        assert P[i] == h1[i - 9];
      } else if i < 15 {
        assert P[i] == h2[i - 13];
      } else if i < 18 {
        assert P[i] == h3[i - 15];
      } else if i < 20 {
        assert P[i] == h4[i - 18];
      } else if i < 23 {
        assert P[i] == h5[i - 20];
      } else {
        assert P[i] == h6[i - 23];
      }
    }
  }

  /** Filling the template yields the layout, position by position. */
  lemma GenerateIdLayout(rs: seq<Nibble>)
    requires |rs| == 31
    ensures Slots(Template) == 31
    ensures Fill(Template, rs) == Layout(rs)
  {
    TemplatePieces();
    FillPieces(rs);
    PiecesLayout(rs);
  }

  lemma LayoutIsRandomUuid(rs: seq<Nibble>)
    requires |rs| == 31
    ensures IsRandomUuid(Layout(rs))
  {
    var id := Layout(rs);
    forall i | 0 <= i < 36 && !IsHyphenPosition(i) ensures IsHexDigit(id[i]) {
      if i == 19 {
        HexRoundTrip(VariantNibble(rs[15]));
      } else if i != 14 {
        HexRoundTrip(rs[SlotOf(i)]);
      }
    }
    VariantNibbleValue(rs[15]);
  }

  /** The random bits an identifier carries: the 30 plain nibbles, and the two
      low bits of the variant nibble (its top bits are fixed). */
  function RandomBits(rs: seq<Nibble>): seq<Nibble>
    requires |rs| == 31
  {
    rs[15 := rs[15] % 4]
  }

  /** Reads the random bits back out of an identifier. */
  function ParseRandomBits(id: string): (rs: seq<Nibble>)
    requires IsRandomUuid(id)
    ensures |rs| == 31
  {
    seq(31, k requires 0 <= k < 31 =>
      var n := HexValue(id[SlotPosition(k)]);
      if k == 15 then n % 4 else n)
  }

  lemma HexRoundTrip(n: Nibble)
    ensures IsHexDigit(HexDigit(n)) && HexValue(HexDigit(n)) == n
  {
  }

  lemma GenerateIdIsLayout(rs: seq<Nibble>)
    requires |rs| == 31
    ensures GenerateId(rs) == Layout(rs)
  {
    GenerateIdLayout(rs);
  }

  /** Parsing recovers exactly the random bits that went in. */
  lemma ParseGenerateId(rs: seq<Nibble>)
    requires |rs| == 31
    ensures ParseRandomBits(GenerateId(rs)) == RandomBits(rs)
  {
    GenerateIdIsLayout(rs);
    var id := Layout(rs);
    forall k | 0 <= k < 31 ensures ParseRandomBits(id)[k] == RandomBits(rs)[k] {
      if k == 15 {
        VariantNibbleValue(rs[15]);
        HexRoundTrip(VariantNibble(rs[15]));
      } else {
        HexRoundTrip(rs[k]);
      }
    }
  }

  /** Two draws give the same identifier exactly when they agree on the 122
      random bits: 30 nibbles and the low two bits of the variant nibble. */
  lemma GenerateIdInjective(a: seq<Nibble>, b: seq<Nibble>)
    requires |a| == 31 && |b| == 31
    ensures GenerateId(a) == GenerateId(b) <==> RandomBits(a) == RandomBits(b)
  {
    if GenerateId(a) == GenerateId(b) {
      ParseGenerateId(a);
      ParseGenerateId(b);
    }
    if RandomBits(a) == RandomBits(b) {
      GenerateIdIsLayout(a);
      GenerateIdIsLayout(b);
      forall i | 0 <= i < 36 ensures Layout(a)[i] == Layout(b)[i] {
        if i == 19 {
          VariantNibbleValue(a[15]);
          VariantNibbleValue(b[15]);
          assert a[15] % 4 == RandomBits(a)[15];
        } else if !IsHyphenPosition(i) && i != 14 {
          assert RandomBits(a)[SlotOf(i)] == a[SlotOf(i)];
        }
      }
    }
  }
}
